=== FILE: README.md ===
# Snowbridge relayer and beacon-client configuration, modelled in Dafny

This project models five pieces of the Snowbridge bridge between a Polkadot
parachain and Ethereum, and proves what each of them promises.

- **Beacon light-client configuration** (Rust pallet). It covers the
  `const_parameter_types!` / `raw_const!` macros, the shared `parameter_types!`
  constants, the goerli network module and the build-time choice of network.
  Files: `param_macro.dfy`, `beacon_config.dfy`.
- **Beacon relay JSON clean-up** (Go). It covers the `RemoveLeadingZeroHashes`
  methods, which strip the `0x` marker from every hex field of the beacon
  node's JSON records before SCALE encoding. File: `beacon_json.dfy`.
- **Parachain relay scanner** (Go). It finds the basic-channel message bundles
  that have not yet been delivered to Ethereum. This includes the nonce
  comparison, the backward block scan, the per-bundle proof collection, the
  stable sort by block number, and the relay-chain inclusion search.
  Files: `scanner.dfy`, `stable_sort.dfy`.
- **Parachain commitment relayer catch-up** (Go). It handles the early exit on
  equal nonces, the backward search for lost commitments, the reversal to
  oldest-first, and relaying. File: `catchup.dfy`.
- **BEEFY relayer Ethereum listener** (Go). It covers the historical and live
  handling of InitialVerificationSuccessful and FinalVerificationSuccessful
  events, forwarding of items to the Ethereum writer, and the per-head loop.
  File: `beefy_listener.dfy`.

The Go and Rust code calls remote nodes and contracts. In the model, every such
call is a function-valued parameter (an oracle) that returns a
`Result`/`Option`. A goroutine that sends on a channel becomes a returned log:
database commands, or items for the writer. The BEEFY database is a sequence of
rows, because the code's "first match wins" depends on the order in which
queries return rows.

## Model

| member | source | states |
|---|---|---|
| ParamMacro.Expand | parachain/pallets/ethereum-beacon-client/src/config/param_macro.rs:4-22 | Each declaration yields exactly three items. The empty input (the terminating rule) yields nothing. |
| ParamMacro.ExpandAppend | parachain/pallets/ethereum-beacon-client/src/config/param_macro.rs:19 | The recursive rule expands declarations in order, each one independently: expanding `a + b` is expanding `a`, then `b`. |
| ParamMacro.ExpandAt | parachain/pallets/ethereum-beacon-client/src/config/param_macro.rs:10-18 | Declaration i owns items 3i..3i+2: its marker struct with its attributes and phantom parameters, its `RAW` impl, and its `IMPL_CONST` registration, all with the declared name, type and value. |
| ParamMacro.ExpandCons | parachain/pallets/ethereum-beacon-client/src/config/param_macro.rs:10-19 | The first three items are the first declaration's; the rest is the expansion of the remaining declarations. |
| ParamMacro.RecoverExpand | parachain/pallets/ethereum-beacon-client/src/config/param_macro.rs:4-22 | Reading the expansion back yields the original declarations, so the expansion loses nothing. |
| ParamMacro.ExpandRecover | parachain/pallets/ethereum-beacon-client/src/config/param_macro.rs:4-22 | Every item list that reads back as declarations is exactly their expansion, so reading back and expanding are inverses. |
| ParamMacro.SkipOther | parachain/pallets/ethereum-beacon-client/src/config/param_macro.rs:10-18 | A declaration of another name does not affect `raw_const!`, the `get()` lookup or the marker lookup. |
| ParamMacro.LookupsSkipPrefix | parachain/pallets/ethereum-beacon-client/src/config/param_macro.rs:19 | Lookups of a name skip every earlier declaration with a different name. |
| ParamMacro.FirstOwn | parachain/pallets/ethereum-beacon-client/src/config/param_macro.rs:10-18 | A declaration's own three items answer all three lookups with its type and value. |
| ParamMacro.ThreeViews | parachain/pallets/ethereum-beacon-client/src/config/param_macro.rs:14-18 | With distinct names, `raw_const!(Name)` (lines 25-27) and `<Name as Get>::get()` report the same declared type and value, and the marker struct exists with its attributes. |
| ParamMacro.RawConstFirst | parachain/pallets/ethereum-beacon-client/src/config/param_macro.rs:25-27 | `raw_const!(Name)` finds a `RAW` constant iff the items hold one for that name, and reports the type and value of the first such item. |
| ParamMacro.AttrsOnlyOnStruct | parachain/pallets/ethereum-beacon-client/src/config/param_macro.rs:10-11 | Attributes go only to the marker struct; the `RAW` impl and the registration do not depend on them. |
| ParamMacro.MarkerShape | parachain/pallets/ethereum-beacon-client/src/config/param_macro.rs:12-16 | A declaration without generics gives a unit struct and a non-generic `RAW`. A generic one gets one `PhantomData` per parameter, in order. |
| BeaconConfig.FloorLog2 | parachain/pallets/ethereum-beacon-client/src/config.rs:15-21 | The depth of a generalized index: `2^r <= x < 2^(r+1)`. |
| BeaconConfig.SubtreeIndex | parachain/pallets/ethereum-beacon-client/src/config.rs:15-21 | The subtree index lies below the width of its level. |
| BeaconConfig.GIndexRoundTrip | parachain/pallets/ethereum-beacon-client/src/config.rs:15-21 | Depth and subtree index rebuild the generalized index. |
| BeaconConfig.ModOfNextLevel | parachain/pallets/ethereum-beacon-client/src/config.rs:15-21 | A helper fact used to split generalized indices: for `p <= x < 2p`, `x mod p = x - p`. |
| BeaconConfig.FloorLog2Unique | parachain/pallets/ethereum-beacon-client/src/config.rs:15-21 | The depth is the only d with `2^d <= x < 2^(d+1)`. |
| BeaconConfig.SplitGIndex | parachain/pallets/ethereum-beacon-client/src/config.rs:15-21 | An index within its level's width is recovered, with its depth, from the generalized index. |
| BeaconConfig.MerkleConstantsMatchAltair | parachain/pallets/ethereum-beacon-client/src/config.rs:15-21 | The (index, depth) pairs are the Altair light-client generalized indices 54, 55 and 105 split into depth and subtree index. Each index fits its depth, and no depth exceeds MaxProofBranchSize. |
| BeaconConfig.SizeLimitsMatchPresets | parachain/pallets/ethereum-beacon-client/src/config.rs:25-44 | Operation limits, byte sizes, tree depth and genesis slot equal the phase0/Bellatrix preset values and the SSZ widths of BLS keys, signatures and addresses. |
| BeaconConfig.HexBytes | parachain/pallets/ethereum-beacon-client/src/config.rs:37-39 | Decoding hex gives half as many bytes as digits, each below 256. |
| BeaconConfig.DomainSyncCommitteeMatchesAltair | parachain/pallets/ethereum-beacon-client/src/config.rs:37-39 | DomainSyncCommittee `[7,0,0,0]` is DOMAIN_SYNC_COMMITTEE `0x07000000` of the Altair beacon chain. |
| BeaconConfig.SelectNetwork | parachain/pallets/ethereum-beacon-client/src/config.rs:3-12 | The mainnet module is selected exactly when the `mainnet` feature is on; otherwise goerli is. |
| BeaconConfig.GoerliIsMainnet | parachain/pallets/ethereum-beacon-client/src/config/goerli.rs:10-11 | `IS_MAINNET` exists exactly on the goerli build under `test` or `runtime-benchmarks`, and it is false. |
| BeaconConfig.GoerliConstants | parachain/pallets/ethereum-beacon-client/src/config/goerli.rs:4-8 | On the goerli build, SlotsPerEpoch = 32, EpochsPerSyncCommitteePeriod = 256 and MaxSyncCommitteeSize = 512 read the same through `RAW` and `get()`, and each is a unit marker struct. |
| BeaconJson.FindMarker | relayer/relays/beacon/header/syncer/json/beacon_json.go:317-319 | The position of the first `0x` at or after `from`, or `None` exactly when there is none. |
| BeaconJson.RemoveLeadingZeroHash | relayer/relays/beacon/header/syncer/json/beacon_json.go:317-319 | Deletes exactly the leftmost `0x`. The string is unchanged iff it has no `0x`. A leading `0x` is dropped. |
| BeaconJson.StripPrefixed | relayer/relays/beacon/header/syncer/json/beacon_json.go:317-319 | Removing the marker undoes prepending it. |
| BeaconJson.RemoveOnlyFirst | relayer/relays/beacon/header/syncer/json/beacon_json.go:317-319 | A single replacement is made, so `0x0xab` strips to `0xab`: the function is not idempotent. |
| BeaconJson.RemoveInnerMarker | relayer/relays/beacon/header/syncer/json/beacon_json.go:317-319 | The `0x` removed need not be leading: `ab0xcd` becomes `abcd`. |
| BeaconJson.StripSlice | relayer/relays/beacon/header/syncer/json/beacon_json.go:308-315 | A slice of the same length whose element i is element i stripped. |
| BeaconJson.PrefixSlice | relayer/relays/beacon/header/syncer/json/beacon_json.go:308-315 | Stripping a slice undoes marking every element. |
| BeaconJson.StripBeaconHeader | relayer/relays/beacon/header/syncer/json/beacon_json.go:167-171 | Slot and proposer index are untouched. |
| BeaconJson.PrefixBeaconHeader | relayer/relays/beacon/header/syncer/json/beacon_json.go:167-171 | Stripping undoes marking exactly the three roots. |
| BeaconJson.StripBeaconHeaderFixedPoint | relayer/relays/beacon/header/syncer/json/beacon_json.go:167-171 | A header whose roots contain no `0x` is left unchanged. |
| BeaconJson.StripSyncCommittee | relayer/relays/beacon/header/syncer/json/beacon_json.go:173-179 | Keeps the number of public keys. |
| BeaconJson.PrefixSyncCommittee | relayer/relays/beacon/header/syncer/json/beacon_json.go:173-179 | Stripping undoes marking every public key and the aggregate key. |
| BeaconJson.PrefixSyncAggregate | relayer/relays/beacon/header/syncer/json/beacon_json.go:207-210 | Stripping undoes marking the bits and the signature. |
| BeaconJson.StripCheckpoint | relayer/relays/beacon/header/syncer/json/beacon_json.go:218-220 | The epoch is untouched. |
| BeaconJson.PrefixCheckpoint | relayer/relays/beacon/header/syncer/json/beacon_json.go:218-220 | Stripping undoes marking the root. |
| BeaconJson.StripAttestationData | relayer/relays/beacon/header/syncer/json/beacon_json.go:196-200 | Slot, index and checkpoint epochs are untouched. |
| BeaconJson.PrefixAttestationData | relayer/relays/beacon/header/syncer/json/beacon_json.go:196-200 | Stripping undoes marking the block root and both checkpoint roots. |
| BeaconJson.StripIndexedAttestation | relayer/relays/beacon/header/syncer/json/beacon_json.go:191-194 | The attesting indices and the data's slot and index are untouched. |
| BeaconJson.PrefixIndexedAttestation | relayer/relays/beacon/header/syncer/json/beacon_json.go:191-194 | Stripping undoes marking the data and the signature. |
| BeaconJson.StripSignedHeader | relayer/relays/beacon/header/syncer/json/beacon_json.go:202-205 | The message's slot and proposer are untouched. |
| BeaconJson.PrefixSignedHeader | relayer/relays/beacon/header/syncer/json/beacon_json.go:202-205 | Stripping undoes marking the message and the signature. |
| BeaconJson.PrefixProposerSlashing | relayer/relays/beacon/header/syncer/json/beacon_json.go:181-184 | Stripping undoes marking both signed headers. |
| BeaconJson.StripAttesterSlashing | relayer/relays/beacon/header/syncer/json/beacon_json.go:186-189 | Both attestations keep their attesting indices. |
| BeaconJson.PrefixAttesterSlashing | relayer/relays/beacon/header/syncer/json/beacon_json.go:186-189 | Stripping undoes marking both indexed attestations. |
| BeaconJson.StripAttestation | relayer/relays/beacon/header/syncer/json/beacon_json.go:212-216 | The data's slot and index are untouched. |
| BeaconJson.PrefixAttestation | relayer/relays/beacon/header/syncer/json/beacon_json.go:212-216 | Stripping undoes marking the aggregation bits, data and signature. |
| BeaconJson.StripDeposit | relayer/relays/beacon/header/syncer/json/beacon_json.go:222-226 | The Merkle proof is NOT stripped, and the amount is untouched. |
| BeaconJson.PrefixDeposit | relayer/relays/beacon/header/syncer/json/beacon_json.go:222-226 | Stripping undoes marking the pubkey, signature and withdrawal credentials. |
| BeaconJson.StripExecutionPayload | relayer/relays/beacon/header/syncer/json/beacon_json.go:256-266 | The numeric fields (block number, gas, timestamp, base fee) are untouched. |
| BeaconJson.PrefixExecutionPayload | relayer/relays/beacon/header/syncer/json/beacon_json.go:256-266 | Stripping undoes marking the nine hex fields. |
| BeaconJson.StripProposerSlashings | relayer/relays/beacon/header/syncer/json/beacon_json.go:236-238 | Keeps the number of proposer slashings. |
| BeaconJson.PrefixProposerSlashings | relayer/relays/beacon/header/syncer/json/beacon_json.go:236-238 | Stripping every element undoes marking every element. |
| BeaconJson.StripAttesterSlashings | relayer/relays/beacon/header/syncer/json/beacon_json.go:240-242 | Keeps the number of attester slashings. |
| BeaconJson.PrefixAttesterSlashings | relayer/relays/beacon/header/syncer/json/beacon_json.go:240-242 | Stripping every element undoes marking every element. |
| BeaconJson.StripAttestations | relayer/relays/beacon/header/syncer/json/beacon_json.go:244-246 | Keeps the number of attestations. |
| BeaconJson.PrefixAttestations | relayer/relays/beacon/header/syncer/json/beacon_json.go:244-246 | Stripping every element undoes marking every element. |
| BeaconJson.StripDeposits | relayer/relays/beacon/header/syncer/json/beacon_json.go:248-250 | Keeps the number of deposits, and each deposit's proof and amount. |
| BeaconJson.PrefixDeposits | relayer/relays/beacon/header/syncer/json/beacon_json.go:248-250 | Stripping every element undoes marking every element. |
| BeaconJson.StripBlockBody | relayer/relays/beacon/header/syncer/json/beacon_json.go:230-253 | Keeps the voluntary exits, the deposit count, every list length, the deposit proofs and the payload's block number. |
| BeaconJson.PrefixBlockBody | relayer/relays/beacon/header/syncer/json/beacon_json.go:230-253 | Stripping undoes marking every hex field the body's clean-up rewrites. |
| BeaconJson.StripBlock | relayer/relays/beacon/header/syncer/json/beacon_json.go:228-254 | Keeps slot, proposer, voluntary exits, the deposit count, the number of deposits and every deposit proof. |
| BeaconJson.PrefixBlock | relayer/relays/beacon/header/syncer/json/beacon_json.go:228-254 | Stripping undoes marking the block's roots and its body. |
| BeaconJson.StripInitialSync | relayer/relays/beacon/header/syncer/json/beacon_json.go:268-277 | Keeps the import time, the header slot and the branch length. |
| BeaconJson.PrefixInitialSync | relayer/relays/beacon/header/syncer/json/beacon_json.go:268-277 | Stripping undoes marking the header, committee, branch and validators root. |
| BeaconJson.StripSyncCommitteeUpdate | relayer/relays/beacon/header/syncer/json/beacon_json.go:279-288 | Keeps the period, the signature slot and both header slots. |
| BeaconJson.PrefixSyncCommitteeUpdate | relayer/relays/beacon/header/syncer/json/beacon_json.go:279-288 | Stripping undoes marking all eight rewritten fields. |
| BeaconJson.StripFinalizedHeaderUpdate | relayer/relays/beacon/header/syncer/json/beacon_json.go:290-297 | Keeps the signature slot and both header slots. |
| BeaconJson.PrefixFinalizedHeaderUpdate | relayer/relays/beacon/header/syncer/json/beacon_json.go:290-297 | Stripping undoes marking all six rewritten fields. |
| BeaconJson.StripHeaderUpdate | relayer/relays/beacon/header/syncer/json/beacon_json.go:299-306 | Keeps the signature slot, the beacon header slot and the execution block number. |
| BeaconJson.PrefixHeaderUpdate | relayer/relays/beacon/header/syncer/json/beacon_json.go:299-306 | Stripping undoes marking all six rewritten fields. |
| StableSort.WithKeyAppend | relayer/relays/parachain/scanner.go:257-260 | Picking the elements of one key distributes over concatenation. |
| StableSort.InsertPermutes | relayer/relays/parachain/scanner.go:257-260 | Insertion adds exactly the inserted element. |
| StableSort.InsertSorted | relayer/relays/parachain/scanner.go:257-260 | Insertion keeps a sorted sequence sorted. |
| StableSort.InsertWithKey | relayer/relays/parachain/scanner.go:257-260 | Insertion puts the new element after all earlier elements of the same key, whatever the order of the others. |
| StableSort.Sort | relayer/relays/parachain/scanner.go:258-260 | The sorted list is a permutation of the input: same elements, same multiplicities. |
| StableSort.SortKeepsKeyOrder | relayer/relays/parachain/scanner.go:258-260 | Stability: for every key, the sorted list holds that key's elements in input order. |
| StableSort.SortCorrect | relayer/relays/parachain/scanner.go:257-260 | `sort.SliceStable` by ascending block number: the result is sorted, is a permutation of the input, and keeps the input order among equal keys. |
| ParachainScanner.NoncesToFind | relayer/relays/parachain/scanner.go:96-128 | Succeeds iff every nonce query succeeds. Otherwise it returns the first failure's error. It has a key for exactly the accounts whose parachain nonce (absent = 0) exceeds Ethereum's, valued Ethereum nonce + 1. |
| ParachainScanner.MarkAccountScanDone | relayer/relays/parachain/scanner.go:426-429 | Removes exactly that account. The scan is done iff no account is left. |
| ParachainScanner.RemovedAccountsSeen | relayer/relays/parachain/scanner.go:372-415 | An account removed while scanning bundles `from..` is the account of one of those bundles. |
| ParachainScanner.BundleStep | relayer/relays/parachain/scanner.go:373-414 | One bundle: an unscanned account or a nonce below the target changes nothing but may retire the account; a proof error fails; a root mismatch retires the account; otherwise the proof is appended and the account is retired iff its nonce is the target. |
| ParachainScanner.ComposeBundleScans | relayer/relays/parachain/scanner.go:372-415 | One bundle followed by the rest of the loop keeps the loop's guarantees: accounts only shrink, proofs only grow, each new proof is collectable. |
| ParachainScanner.ScanBundles | relayer/relays/parachain/scanner.go:372-415 | Accounts only shrink, and each removed one owned a scanned bundle. Proofs only grow. Each new proof is for a still-scanned account with nonce at least its target and a root equal to the commitment hash. Done iff the last account was removed. |
| ParachainScanner.ScanForBasicChannelProofs | relayer/relays/parachain/scanner.go:359-424 | Every collected proof is collectable, the scanned set only shrinks, and `scanDone` holds iff the scan emptied a non-empty account set. |
| ParachainScanner.BundleVerdicts | relayer/relays/parachain/scanner.go:373-414 | The six outcomes of one bundle: skipped when not scanned, halted below the target, an RPC error, halted on a root mismatch, collected above the target, collected and halted at the target. |
| ParachainScanner.ScanDigest | relayer/relays/parachain/scanner.go:211-242 | Accounts only shrink. Any new proof list comes from a commitment digest item whose hash matches the block's Committed event, and is collectable. Done iff no account is left. |
| ParachainScanner.ScanBlocks | relayer/relays/parachain/scanner.go:179-255 | Scans blocks n down to 1, or nothing when done. It returns at most n tasks. Each task is the header of a scanned block and holds only valid, non-empty proofs. |
| ParachainScanner.BundleIndex | relayer/relays/parachain/scanner.go:372-376 | The first bundle of the account at or after `from`, or none iff the account has no bundle there. |
| ParachainScanner.AccountBundle | relayer/relays/parachain/scanner.go:206-242 | The account's bundle in a block whose digest is one commitment item matched by its Committed event: the commitment hash, the bundle's index and the bundle itself. |
| ParachainScanner.CollectedAt | relayer/relays/parachain/scanner.go:384-414 | A block contributes one task iff the verdict on the account's bundle collects it. The task is the block's header with the bundle's proof, whose nonce is at least the target and whose root is the commitment hash. |
| ParachainScanner.StopBlock | relayer/relays/parachain/scanner.go:384-414 | The newest block at or below n whose verdict ends the account's scan, or none when no verdict in 1..n does. |
| ParachainScanner.CollectedFrom | relayer/relays/parachain/scanner.go:179-255 | Every reference task comes from a block in lo..n. |
| ParachainScanner.ScanBundlesOne | relayer/relays/parachain/scanner.go:372-415 | For one account, the bundle loop amounts to the verdict on its only bundle: untouched without one, halted below the target or on a root mismatch, the proof error, collected above the target, collected and halted at it. |
| ParachainScanner.ScanBundlesSkip | relayer/relays/parachain/scanner.go:372-376 | Bundles of accounts no longer scanned leave the loop state unchanged. |
| ParachainScanner.SingleAccountBlock | relayer/relays/parachain/scanner.go:179-255 | One block of the single-account scan: a halting verdict ends the scan with that block's task, otherwise its task is prepended to the scan below. |
| ParachainScanner.SingleAccountStep | relayer/relays/parachain/scanner.go:179-255 | The reference tasks unfold the same way: a halting block is the stop block and contributes alone, otherwise its task precedes those below. |
| ParachainScanner.SingleAccountScan | relayer/relays/parachain/scanner.go:179-255 | Completeness for one account, on chains where every block from the stop block up to n has a readable header, a digest that is empty or exactly one commitment item whose hash matches the block's Committed event, at most one bundle of the account, and a readable proof for that bundle when its nonce is at least the target: the backward scan returns exactly the reference tasks, newest first: one per block whose bundle is collected, down to the block whose bundle ends the scan. |
| ParachainScanner.FindTasksSingleAccount | relayer/relays/parachain/scanner.go:169-262 | For one account, on chains meeting the same block layout as `ParachainScanner.SingleAccountScan` (one matching commitment item or none per block, at most one bundle of the account, readable headers and proofs), the sorted task list succeeds and is a sorted permutation of the reference tasks. |
| ParachainScanner.DigestKeepsDoneExact | relayer/relays/parachain/scanner.go:211-242 | The digest scan keeps "done iff no account left". |
| ParachainScanner.SameDigestScan | relayer/relays/parachain/scanner.go:211-242 | The digest scan depends on the chain only through bundle proofs. |
| ParachainScanner.EmptyBlockAgrees | relayer/relays/parachain/scanner.go:199-202 | A block with an empty digest passes the scan on unchanged, so agreement below it gives agreement at it. |
| ParachainScanner.DigestBlockAgrees | relayer/relays/parachain/scanner.go:204-254 | A block with a digest is read the same way on two chains that agree on it and on bundle proofs. |
| ParachainScanner.ScanReadsBlocksOneToN | relayer/relays/parachain/scanner.go:179-255 | The backward scan reads only blocks 1..n: chains that agree there give the same result. |
| ParachainScanner.FindTasksImpl | relayer/relays/parachain/scanner.go:169-262 | Succeeds iff the backward scan does, with its error. The result is a permutation of the scanned tasks, sorted by header number, that keeps the scan's order among tasks of one block number. Tasks are valid for the nonces, number at most the last block, and are empty when no account needs relaying. |
| ParachainScanner.SearchWindow | relayer/relays/parachain/scanner.go:336-356 | Returns the first relay block in the window whose parachain head is this block, with every earlier one another head. When all heads differ it returns "scan terminated". |
| ParachainScanner.FindInclusionBlockNumber | relayer/relays/parachain/scanner.go:313-357 | A result lies in relay parent + 1 .. relay parent + FinalizationTimeout and includes the block. Missing validation data is an error. This is the corrected version, with no 32-bit wrap. |
| ParachainScanner.InclusionSearchAgreesBelowWrap | relayer/relays/parachain/scanner.go:335-336 | Away from the uint32 limit, the code as written and the corrected search agree. |
| ParachainScanner.InclusionSearchWrapCounterexample | relayer/relays/parachain/scanner.go:335-336 | With relay parent 2^32-2 the window wraps: as written the search ends at once with "scan terminated", while the corrected search finds block 2^32-1. |
| ParachainScanner.FindInclusionBlockNumberAsWritten | relayer/relays/parachain/scanner.go:313-357 | As written, with the uint32 wrap: a result includes the block and lies in the wrapped window, from (relay parent + 1) mod 2^32 up to, but not including, that start + FinalizationTimeout mod 2^32. Missing validation data is an error. |
| ParachainScanner.ProofInputFor | relayer/relays/parachain/scanner.go:283-302 | Succeeds iff the inclusion search does. The input carries the parachain id and the found relay block. |
| ParachainScanner.FirstFailure | relayer/relays/parachain/scanner.go:277-303 | The index of the first task whose proof input cannot be gathered. |
| ParachainScanner.GatherProofInputs | relayer/relays/parachain/scanner.go:274-306 | Keeps every task's header and proofs. It fills proof inputs for the tasks before the first failure and leaves the rest untouched. |
| ParachainScanner.GatherStep | relayer/relays/parachain/scanner.go:277-303 | The loop form: a first task whose input fails stops the loop with every task untouched; otherwise the first task is filled and the loop goes on with the rest. |
| ParachainScanner.ValidTasksRelayable | relayer/relays/parachain/scanner.go:125-127 | Every proof of a valid task belongs to an account that needs relaying and carries an undelivered nonce. |
| ParachainScanner.NothingToRelay | relayer/relays/parachain/scanner.go:125-132 | With no account behind, there is nothing to find. |
| ParachainScanner.FindTasks | relayer/relays/parachain/scanner.go:78-148 | A nonce-query error is returned. With accounts behind it succeeds iff the sorted scan does, and then returns exactly the scanned tasks with proof inputs gathered. The result is sorted by block, every task has proofs, and every proof is relayable. When no account is behind it returns no tasks. |
| ParachainScanner.SameHeadersAndProofs | relayer/relays/parachain/scanner.go:145 | Filling in proof inputs keeps the sort order and every task's proofs. |
| Catchup.ParaNonces | relayer/workers/parachaincommitmentrelayer/parachaincommitment/catchup.go:59-85 | Corrected: each absent storage item reads as 0, independently of the other. |
| Catchup.ParaNoncesAsWritten | relayer/workers/parachaincommitmentrelayer/parachaincommitment/catchup.go:65-85 | As written: with the incentivized item present both nonces are read (an absent basic item as 0); with it absent both read as 0, the basic one included. |
| Catchup.ParaNoncesDiffer | relayer/workers/parachaincommitmentrelayer/parachaincommitment/catchup.go:83-85 | The code as written and the corrected version differ iff the incentivized item is absent and the basic nonce is non-zero. |
| Catchup.ParaNoncesCounterexample | relayer/workers/parachaincommitmentrelayer/parachaincommitment/catchup.go:83-92 | Basic nonce 5 on both sides, no incentivized nonce: the corrected reading is in sync, but the code as written reads basic as 0, so its nonces are not in sync and it does not exit early. |
| Catchup.ReadNonces | relayer/workers/parachaincommitmentrelayer/parachaincommitment/catchup.go:38-85 | As written: succeeds iff all four reads do, otherwise the first failing read's error in code order. The Ethereum nonces are taken as read, and the parachain pair is the code's as-written reading. |
| Catchup.ReadNoncesIntended | relayer/workers/parachaincommitmentrelayer/parachaincommitment/catchup.go:38-85 | Corrected: the same reads and errors, with each absent parachain item read as 0 independently. |
| Catchup.ReadNoncesDiffer | relayer/workers/parachaincommitmentrelayer/parachaincommitment/catchup.go:83-85 | The two readings fail alike, differ only in the parachain basic nonce, and differ there iff the incentivized item is absent and the basic nonce is not 0. |
| Catchup.ContainsNonce | relayer/workers/parachaincommitmentrelayer/parachaincommitment/catchup.go:192-197 | True iff some message has a nonce at or below the target. |
| Catchup.CheckIfDigestItemContainsNonce | relayer/workers/parachaincommitmentrelayer/parachaincommitment/catchup.go:185-198 | Fails iff fetching the messages fails. Otherwise it is true iff a fetched message is already delivered. |
| Catchup.Search | relayer/workers/parachaincommitmentrelayer/parachaincommitment/catchup.go:113-168 | Empty when both channels are found. It collects only lost commitments (every message undelivered), from blocks below the start, strictly newest first, and only for channels not yet found. |
| Catchup.FoundAt | relayer/workers/parachaincommitmentrelayer/parachaincommitment/catchup.go:142-165 | The newest block below `current` whose commitment of the channel holds a delivered message, or none iff there is none. |
| Catchup.CommitmentAt | relayer/workers/parachaincommitmentrelayer/parachaincommitment/catchup.go:137-144 | A block's digest item counts iff it is read, present, a commitment, and for the basic or incentivized channel. |
| Catchup.CommitmentsBelow | relayer/workers/parachaincommitmentrelayer/parachaincommitment/catchup.go:117-168 | Exactly the commitments of the blocks below `current`. |
| Catchup.Unfound | relayer/workers/parachaincommitmentrelayer/parachaincommitment/catchup.go:142-165 | Exactly the commitments that lie above their channel's found block. |
| Catchup.Expected | relayer/workers/parachaincommitmentrelayer/parachaincommitment/catchup.go:113-168 | The reference answer: exactly the commitments below `current` that lie above their channel's found block (everything when the channel is not found). |
| Catchup.ExpectedBothFound | relayer/workers/parachaincommitmentrelayer/parachaincommitment/catchup.go:155-165 | With both channels already found the reference answer is empty. |
| Catchup.SearchComplete | relayer/workers/parachaincommitmentrelayer/parachaincommitment/catchup.go:113-168 | When every read the search makes succeeds, it returns exactly the reference answer: every commitment above a channel's found block is collected and nothing at or below it. |
| Catchup.AllCommitments | relayer/workers/parachaincommitmentrelayer/parachaincommitment/catchup.go:117-168 | The commitment digest items of the blocks below `current`, newest first. |
| Catchup.SearchStepCollects | relayer/workers/parachaincommitmentrelayer/parachaincommitment/catchup.go:117-168 | With neither nonce found and the block's commitment undelivered, one step collects that commitment (if any) and continues below. |
| Catchup.SearchCollectsAll | relayer/workers/parachaincommitmentrelayer/parachaincommitment/catchup.go:117-168 | When nothing below the start was delivered, the search collects every commitment of the basic and incentivized channels. |
| Catchup.SearchStopsWhenBothFound | relayer/workers/parachaincommitmentrelayer/parachaincommitment/catchup.go:155-165 | Finding the second channel's delivered commitment ends the search. |
| Catchup.Reverse | relayer/workers/parachaincommitmentrelayer/parachaincommitment/catchup.go:170-173 | The swap loop yields element i = input element n-1-i. |
| Catchup.ReverseAscends | relayer/workers/parachaincommitmentrelayer/parachaincommitment/catchup.go:170-173 | Reversing the newest-first search result gives oldest first. |
| Catchup.ProcessAll | relayer/workers/parachaincommitmentrelayer/parachaincommitment/catchup.go:175-180 | Items are relayed in order up to and including the first failure, whose error is returned. With no failure, everything is relayed. |
| Catchup.ItemsOf | relayer/workers/parachaincommitmentrelayer/parachaincommitment/catchup.go:175 | The digest items of the found commitments, in order. |
| Catchup.CatchupMissedCommitments | relayer/workers/parachaincommitmentrelayer/parachaincommitment/catchup.go:16-102 | As written, through the as-written nonce reading: a read error is returned and nothing is searched. When both channels agree it returns at once. Otherwise it searches from the latest block and relays the found commitments oldest first (the exact reverse), stopping at the first relay error. |
| Catchup.CatchupFrom | relayer/workers/parachaincommitmentrelayer/parachaincommitment/catchup.go:90-101 | Given the read nonces: an error is returned, in-sync nonces return at once, and otherwise the search result is relayed oldest first up to the first relay error. |
| Catchup.CatchupMissedCommitmentsIntended | relayer/workers/parachaincommitmentrelayer/parachaincommitment/catchup.go:16-102 | The same run through the corrected nonce reading. |
| BeefyListener.ItemsByStatus | relayer/workers/beefyrelayer/beefy-ethereum-listener.go:177 | Exactly the rows in that status. Their order is stated by `BeefyListener.ItemsByStatusAppend`. |
| BeefyListener.ItemsByStatusAppend | relayer/workers/beefyrelayer/beefy-ethereum-listener.go:177 | Selecting by status keeps row order: selecting from a concatenation is the concatenation of the selections. |
| BeefyListener.FirstIndexByTx | relayer/workers/beefyrelayer/beefy-ethereum-listener.go:228 | The first row recorded with that transaction, or none iff no row has it. |
| BeefyListener.ItemByTx | relayer/workers/beefyrelayer/beefy-ethereum-listener.go:228-231 | The item recorded with that initial or final transaction, or none iff there is no such item. |
| BeefyListener.Apply | relayer/workers/beefyrelayer/beefy-ethereum-listener.go:183-189 | An update rewrites only the targeted rows' status, completion block and optional transaction; every other field and every other row stay as they were. A delete removes exactly the rows with that id. |
| BeefyListener.Remove | relayer/workers/beefyrelayer/beefy-ethereum-listener.go:298 | Removes exactly the rows with that id. |
| BeefyListener.EventsOrNone | relayer/workers/beefyrelayer/beefy-ethereum-listener.go:158-168 | A failed event query is logged and processed as no events. |
| BeefyListener.ValidationPayload | relayer/workers/beefyrelayer/beefy-ethereum-listener.go:170-180 | A failed validation-data call leaves the zero payload, which is still compared. |
| BeefyListener.FirstPayloadMatch | relayer/workers/beefyrelayer/beefy-ethereum-listener.go:178-194 | The first item whose simulated payload matches, or none iff no item matches. |
| BeefyListener.FilterThenFirstMatch | relayer/workers/beefyrelayer/beefy-ethereum-listener.go:177-194 | The first match among the rows of one status is the first row in database order that has that status and payload. |
| BeefyListener.HistoricalInitialOne | relayer/workers/beefyrelayer/beefy-ethereum-listener.go:168-199 | Emits a command iff some CommitmentWitnessed item matches the payload. The command confirms the first such row in database order, with the event's transaction and completion block event block + BLOCK_WAIT_PERIOD. There is no prover check. |
| BeefyListener.LiveInitialOne | relayer/workers/beefyrelayer/beefy-ethereum-listener.go:216-240 | Emits a command iff the event is ours and the item of that initial transaction is InitialVerificationTxSent. The command confirms it with completion block event block + BLOCK_WAIT_PERIOD. |
| BeefyListener.HistoricalFinalOne | relayer/workers/beefyrelayer/beefy-ethereum-listener.go:284-308 | Emits a command iff some InitialVerificationTxConfirmed item matches the payload. The command deletes the first such row in database order. |
| BeefyListener.LiveFinalOne | relayer/workers/beefyrelayer/beefy-ethereum-listener.go:323-342 | Emits a command iff the event is ours and the item of that final transaction is CompleteVerificationTxSent. The command deletes it. |
| BeefyListener.Process | relayer/workers/beefyrelayer/beefy-ethereum-listener.go:168-199 | Each event gives at most one command, read from the database as it was when processing began. Every event's command is emitted, and every emitted command comes from an event. |
| BeefyListener.ProcessOne | relayer/workers/beefyrelayer/beefy-ethereum-listener.go:168-199 | One event on its own yields exactly its own command, or nothing. |
| BeefyListener.ProcessAppend | relayer/workers/beefyrelayer/beefy-ethereum-listener.go:168-199 | Commands come out in event order: processing `a + b` is processing `a` and then `b`, both against the same starting database. |
| BeefyListener.HistoricalInitialAdvances | relayer/workers/beefyrelayer/beefy-ethereum-listener.go:177-189 | The update a historical initial event yields targets a CommitmentWitnessed item and raises it to InitialVerificationTxConfirmed. |
| BeefyListener.LiveInitialAdvances | relayer/workers/beefyrelayer/beefy-ethereum-listener.go:228-239 | The update a live initial event yields targets an InitialVerificationTxSent item and raises it to InitialVerificationTxConfirmed. |
| BeefyListener.HistoricalFinalAdvances | relayer/workers/beefyrelayer/beefy-ethereum-listener.go:293-299 | The delete a historical final event yields targets an InitialVerificationTxConfirmed item. |
| BeefyListener.LiveFinalAdvances | relayer/workers/beefyrelayer/beefy-ethereum-listener.go:334-341 | The delete a live final event yields targets a CompleteVerificationTxSent item. |
| BeefyListener.StepAdvances | relayer/workers/beefyrelayer/beefy-ethereum-listener.go:154-343 | Whatever the processor, the command one event yields moves a stored item forward. |
| BeefyListener.CommandsAdvanceLifecycle | relayer/workers/beefyrelayer/beefy-ethereum-listener.go:183-189 | Every command moves a stored item forward: updates go to InitialVerificationTxConfirmed from an earlier status, and deletes remove a confirmed or completed item. |
| BeefyListener.CommandKinds | relayer/workers/beefyrelayer/beefy-ethereum-listener.go:188-189 | Initial-event processing only updates; final-event processing only deletes. |
| BeefyListener.ReadyItems | relayer/workers/beefyrelayer/beefy-ethereum-listener.go:372-385 | Exactly the confirmed items whose CompleteOnBlock + descendantsUntilFinal has been reached, marked ReadyToComplete with that block's hash as seed. |
| BeefyListener.Forward | relayer/workers/beefyrelayer/beefy-ethereum-listener.go:361-386 | Forwards every witnessed item and every due confirmed item (as ready), and nothing else. |
| BeefyListener.NotReadyNotForwarded | relayer/workers/beefyrelayer/beefy-ethereum-listener.go:373 | A confirmed item whose completion block plus descendantsUntilFinal is still ahead is not sent as ready. |
| BeefyListener.HeadStep | relayer/workers/beefyrelayer/beefy-ethereum-listener.go:115-120 | A new head only confirms items and keeps every row; the database after it is the old one with its commands applied. |
| BeefyListener.HeadStepPasses | relayer/workers/beefyrelayer/beefy-ethereum-listener.go:115-120 | The first pass's commands come first. Forwarding reads the database after them. The remaining commands are exactly the second pass: its events processed against the database the first pass left. When the second query returns no event the first did not, the second pass adds nothing. |
| BeefyListener.PollEventsAndHeaders | relayer/workers/beefyrelayer/beefy-ethereum-listener.go:105-123 | Over any sequence of heads the live loop never deletes (final events are never processed) and keeps every row. The database it ends with is the starting one with its commands applied. A single head is exactly that head's step, and the first head's commands and messages come before all others. No heads means no output. |
| BeefyListener.PollHeadsAppend | relayer/workers/beefyrelayer/beefy-ethereum-listener.go:105-123 | The loop over heads composes: heads `h1 + h2` give the output of `h1`, followed by the output of `h2` run from the database `h1` left. |
| BeefyListener.PollHistoric | relayer/workers/beefyrelayer/beefy-ethereum-listener.go:91-103 | A failed latest-block query is returned. Otherwise every initial command comes first, each confirming an item, followed by exactly the final commands read from the database after the confirmations, each deleting an item. Nothing is forwarded. |
| BeefyListener.ApplyAllAppend | relayer/workers/beefyrelayer/beefy-ethereum-listener.go:183-189 | Applying two batches in turn is applying their concatenation. |
| BeefyListener.HistoricalInitialConfirms | relayer/workers/beefyrelayer/beefy-ethereum-listener.go:177-189 | Historical initial processing emits only confirmations. |
| BeefyListener.UpdatesKeepShape | relayer/workers/beefyrelayer/beefy-ethereum-listener.go:234-239 | Confirmations keep every row, its id and its transactions. Each targeted row becomes confirmed. |
| BeefyListener.FirstIndexSameColumns | relayer/workers/beefyrelayer/beefy-ethereum-listener.go:228 | The transaction lookup depends only on the transaction column. |
| BeefyListener.ConfirmationsOnly | relayer/workers/beefyrelayer/beefy-ethereum-listener.go:234-239 | Live initial processing emits only confirmations without a transaction change. |
| BeefyListener.SecondPassStepNone | relayer/workers/beefyrelayer/beefy-ethereum-listener.go:228-231 | Once the first pass is applied, no event of the block still finds an InitialVerificationTxSent item. |
| BeefyListener.SecondInitialPassEmpty | relayer/workers/beefyrelayer/beefy-ethereum-listener.go:118-120 | A second initial pass over events the first pass saw, after the first pass's commands are applied, emits nothing. |
| BeefyListener.NoStepNoCommands | relayer/workers/beefyrelayer/beefy-ethereum-listener.go:216-240 | When no event produces a command, processing emits none. |

## Left out

- The mainnet network module: it is not part of this model. Its declarations are a parameter of `BeaconConfig.NetworkItems`.
- Macro hygiene, token-level parsing and `#[cfg]` evaluation: the macros are modelled on declaration syntax trees.
- SCALE encoding, storage-key construction, hashing and Merkle-proof verification: they are oracles, or opaque hashes compared for equality.
- Every RPC and contract call: these are oracle parameters returning `Result`. "Storage item absent" is `Ok(None)`.
- `Scan` (scanner.go:43-70) and its subtraction on the BEEFY block number: it is not part of this model. The scan starts at the given parachain block.
- `fetchBundleProof` (scanner.go:431-462): the bundle-proof oracle.
- In-place rewriting of the beacon records: the Go methods have pointer receivers and overwrite fields, and `SyncCommittee` (beacon_json.go:174-176) and `InitialSync` (beacon_json.go:272-274) overwrite the elements of their existing slices, so any alias of those slices sees the change. The model returns fresh values and has no aliasing.
- The conversion of a bundle nonce from a big integer to `uint64`: nonces are natural numbers.
- uint64 arithmetic in the relayer (`latestBlock + 1`, `CompleteOnBlock + descendantsUntilFinal`, `BlockNumber + blockWaitPeriod`): it is unbounded in the model. The uint32 window of the inclusion search is modelled with its wrap in `ParachainScanner.FindInclusionBlockNumberAsWritten` only.
- ParachainScanner.ProofInputFor: uses the corrected inclusion search, so near the uint32 limit it finds a relay block where the code reports "scan terminated".
- ParachainScanner.GatherProofInputs: built on the corrected inclusion search, so it does not model the "scan terminated" failure the wrap causes.
- ParachainScanner.FindTasks: built on the corrected inclusion search. In the code that wrap error is discarded at scanner.go:145 and the task keeps a nil proof input; the model fills it in.
- Goroutines, channels, contexts and cancellation: the listener loops run over a finite sequence of heads. The database writer is taken to apply each batch of commands before the next event loop reads.
- `Start`, the subscription set-up and reading BLOCK_WAIT_PERIOD from the contract: both become parameters.
- The store's internals: a lookup by transaction that finds no row skips the event.
- `simulatePayloadGeneration` (beefy-ethereum-listener.go:346-358): the per-item payload is an oracle, and its conversion errors are not modelled.
- The unchecked block fetch at beefy-ethereum-listener.go:375-382: the block hash is an oracle that always answers.
- Logging.
- BeefyListener.Process: every lookup in one loop over events reads the database as it stood when the loop began, so an event never sees the commands of earlier events in the same loop. The code re-reads the store for each event (beefy-ethereum-listener.go:177, 228, 293, 334), and sees an earlier event's command only when the writer goroutine has already applied it.
- `processDigestItem` and `getMessagesForDigestItem` of the commitment relayer: they are oracles.
- beefy-listener.go: it is not part of this model.
- BeefyListener.HeadStep: the two event queries of one head are one oracle asked with a `Pass` argument; their outcomes are independent.
- ParachainScanner.ScanBlocks: states soundness only (every task is a valid, non-empty header of a block in 1..n). That the scan finds every undelivered bundle of every account is not stated for several accounts; completeness is proved only for one account, in `ParachainScanner.SingleAccountScan`.
- ParachainScanner.SingleAccountScan: completeness is proved for one account on chains whose blocks down to the stop block have readable headers, digests that are empty or exactly one commitment item matched by the Committed event, at most one bundle of the account, and readable proofs for bundles at or above the target.
- ParachainScanner.FindTasksSingleAccount: inherits that restriction: the sorted result is tied to the reference tasks only for one account on chains with that block layout.
- Catchup.SearchComplete: completeness assumes every digest-item and message read succeeds; with a failing read only the error behaviour of `Catchup.Search` is stated.

## Findings

| source | as written | input that shows it | evidently intended | confidence | as-written member | corrected member |
|---|---|---|---|---|---|---|
| relayer/workers/parachaincommitmentrelayer/parachaincommitment/catchup.go:83-85 | When the incentivized nonce storage item is absent, the code zeroes the BASIC nonce. | Parachain basic nonce 5 and Ethereum basic nonce 5; incentivized item absent and Ethereum incentivized nonce 0. The channels are in sync, but the code reads basic as 0 and searches. | Zero the incentivized nonce. | not executed; medium | Catchup.ParaNoncesAsWritten, Catchup.ReadNonces, Catchup.CatchupMissedCommitments, Catchup.ParaNoncesCounterexample | Catchup.ParaNonces, Catchup.ReadNoncesIntended, Catchup.CatchupMissedCommitmentsIntended, Catchup.ReadNoncesDiffer |
| relayer/relays/parachain/scanner.go:335-336 | The inclusion window `RelayParentNumber + 1 .. + FinalizationTimeout` is computed in `uint32`. | Relay parent number 2^32-2: the start wraps to 2^32-1 and the bound wraps to 3, so the loop never runs and the search reports "scan terminated". | Search the four relay blocks after the relay parent. | not executed; low (needs a relay chain beyond 2^32 blocks) | ParachainScanner.FindInclusionBlockNumberAsWritten, ParachainScanner.InclusionSearchWrapCounterexample | ParachainScanner.FindInclusionBlockNumber, ParachainScanner.InclusionSearchAgreesBelowWrap |

## Notes

- goerli.rs declares MaxSyncCommitteeSize = 512, which is the mainnet SYNC_COMMITTEE_SIZE of the Altair presets, not a reduced test-network value. The model keeps 512.
- `removeLeadingZeroHash` removes the first `0x` anywhere in the string, not only a leading one. The model follows the code (`BeaconJson.RemoveInnerMarker`).

=== FILE: beacon_config.dfy ===
/** The beacon light client's configuration: the network-invariant constants
    of `config.rs`, the goerli network module declared through
    `const_parameter_types!`, and the build-time choice between the network
    modules. The constants are tied to the Ethereum consensus specifications
    (phase0 and Bellatrix presets, Altair beacon chain and light-client sync
    protocol) by lemmas below. */
module BeaconConfig {
  import opened Wrappers
  import opened ParamMacro

  // ---------------------------------------------------------------------------
  // Shared constants (`parameter_types!` block of config.rs)
  // ---------------------------------------------------------------------------

  // Every value fits its Rust type, so each becomes a `nat`. Indices, depths
  // and GenesisSlot are `u64`; MaxProofBranchSize and the size limits are
  // `u32`; DepositContractTreeDepth is `usize`; DomainSyncCommittee is `[u8; 4]`.

  const CurrentSyncCommitteeIndex: nat := 22
  const CurrentSyncCommitteeDepth: nat := 5
  const MaxProofBranchSize: nat := 6
  const NextSyncCommitteeDepth: nat := 5
  const NextSyncCommitteeIndex: nat := 23
  const FinalizedRootDepth: nat := 6
  const FinalizedRootIndex: nat := 41

  const MaxProposerSlashingSize: nat := 16
  const MaxAttesterSlashingSize: nat := 2
  const MaxAttestationSize: nat := 128
  const MaxDepositDataSize: nat := 16
  const MaxVoluntaryExitSize: nat := 16
  const MaxValidatorsPerCommittee: nat := 2048
  const MaxExtraDataSize: nat := 32
  const MaxLogsBloomSize: nat := 256
  const MaxFeeRecipientSize: nat := 20
  const DepositContractTreeDepth: nat := 32
  const DomainSyncCommittee: seq<nat> := [7, 0, 0, 0]
  const MaxPublicKeySize: nat := 48
  const MaxSignatureSize: nat := 96
  const GenesisSlot: nat := 0

  // ---------------------------------------------------------------------------
  // Values named by the consensus specifications
  // ---------------------------------------------------------------------------

  /** Generalized indices from the "Constants" table of the Altair light-client
      sync protocol. */
  const CURRENT_SYNC_COMMITTEE_INDEX: nat := 54
  const NEXT_SYNC_COMMITTEE_INDEX: nat := 55
  const FINALIZED_ROOT_INDEX: nat := 105

  /** "Max operations per block" and "Misc" of the phase0 mainnet preset. */
  const MAX_PROPOSER_SLASHINGS: nat := 16
  const MAX_ATTESTER_SLASHINGS: nat := 2
  const MAX_ATTESTATIONS: nat := 128
  const MAX_DEPOSITS: nat := 16
  const MAX_VOLUNTARY_EXITS: nat := 16
  const MAX_VALIDATORS_PER_COMMITTEE: nat := 2048
  const DEPOSIT_CONTRACT_TREE_DEPTH: nat := 32
  const GENESIS_SLOT: nat := 0

  /** Bellatrix "Execution" preset and the byte widths of the SSZ custom
      types `ExecutionAddress`, `BLSPubkey` and `BLSSignature`. */
  const MAX_EXTRA_DATA_BYTES: nat := 32
  const BYTES_PER_LOGS_BLOOM: nat := 256
  const EXECUTION_ADDRESS_BYTES: nat := 20
  const BLS_PUBKEY_BYTES: nat := 48
  const BLS_SIGNATURE_BYTES: nat := 96

  /** "Domain types" of the Altair beacon chain: DOMAIN_SYNC_COMMITTEE. */
  const DOMAIN_SYNC_COMMITTEE_HEX: string := "07000000"

  /** Mainnet preset values the goerli module reuses. */
  const SLOTS_PER_EPOCH: nat := 32
  const EPOCHS_PER_SYNC_COMMITTEE_PERIOD: nat := 256
  const SYNC_COMMITTEE_SIZE: nat := 512

  // ---------------------------------------------------------------------------
  // Generalized indices
  // ---------------------------------------------------------------------------

  function Pow2(n: nat): (r: nat)
    ensures r >= 1
  {
    if n == 0 then 1 else 2 * Pow2(n - 1)
  }

  /** `floorlog2`: the depth of a node in a binary Merkle tree. */
  function FloorLog2(x: nat): (r: nat)
    requires x >= 1
    ensures Pow2(r) <= x < Pow2(r + 1)
  {
    if x == 1 then 0 else 1 + FloorLog2(x / 2)
  }

  /** `get_subtree_index`: the position of a node among the nodes of its depth. */
  function SubtreeIndex(gindex: nat): (r: nat)
    requires gindex >= 1
    ensures r < Pow2(FloorLog2(gindex))
  {
    gindex % Pow2(FloorLog2(gindex))
  }

  /** The generalized index of the node at `index` on level `depth`. */
  function GIndex(depth: nat, index: nat): nat {
    Pow2(depth) + index
  }

  /** A generalized index is its depth and subtree index, and back. */
  lemma GIndexRoundTrip(gindex: nat)
    requires gindex >= 1
    ensures GIndex(FloorLog2(gindex), SubtreeIndex(gindex)) == gindex
  {
    var d := FloorLog2(gindex);
    assert Pow2(d + 1) == 2 * Pow2(d);
    ModOfNextLevel(gindex, Pow2(d));
  }

  lemma ModOfNextLevel(x: nat, p: nat)
    requires 0 < p <= x < 2 * p
    ensures x % p == x - p
  {
    assert x == 1 * p + (x - p);
  }

  lemma {:induction false} FloorLog2Unique(x: nat, d: nat)
    requires x >= 1
    requires Pow2(d) <= x < Pow2(d + 1)
    ensures FloorLog2(x) == d
    decreases d
  {
    if d > 0 {
      assert Pow2(d + 1) == 2 * Pow2(d);
      assert x != 1;
      FloorLog2Unique(x / 2, d - 1);
    } else {
      assert x == 1;
    }
  }

  /** A subtree index within the width of its level determines the depth and
      index it was built from. */
  lemma SplitGIndex(depth: nat, index: nat)
    requires index < Pow2(depth)
    ensures FloorLog2(GIndex(depth, index)) == depth
    ensures SubtreeIndex(GIndex(depth, index)) == index
  {
    assert Pow2(depth + 1) == 2 * Pow2(depth);
    FloorLog2Unique(GIndex(depth, index), depth);
    ModOfNextLevel(GIndex(depth, index), Pow2(depth));
  }

  /** The (index, depth) pairs of config.rs are the Altair light-client
      generalized indices 54, 55 and 105 split into depth and subtree index;
      every index fits its depth and no depth exceeds MaxProofBranchSize. */
  lemma MerkleConstantsMatchAltair()
    ensures FloorLog2(CURRENT_SYNC_COMMITTEE_INDEX) == CurrentSyncCommitteeDepth
    ensures SubtreeIndex(CURRENT_SYNC_COMMITTEE_INDEX) == CurrentSyncCommitteeIndex
    ensures FloorLog2(NEXT_SYNC_COMMITTEE_INDEX) == NextSyncCommitteeDepth
    ensures SubtreeIndex(NEXT_SYNC_COMMITTEE_INDEX) == NextSyncCommitteeIndex
    ensures FloorLog2(FINALIZED_ROOT_INDEX) == FinalizedRootDepth
    ensures SubtreeIndex(FINALIZED_ROOT_INDEX) == FinalizedRootIndex
    ensures CurrentSyncCommitteeIndex < Pow2(CurrentSyncCommitteeDepth)
    ensures NextSyncCommitteeIndex < Pow2(NextSyncCommitteeDepth)
    ensures FinalizedRootIndex < Pow2(FinalizedRootDepth)
    ensures NextSyncCommitteeDepth == CurrentSyncCommitteeDepth
    ensures NextSyncCommitteeIndex == CurrentSyncCommitteeIndex + 1
    ensures CurrentSyncCommitteeDepth <= MaxProofBranchSize
    ensures NextSyncCommitteeDepth <= MaxProofBranchSize
    ensures FinalizedRootDepth <= MaxProofBranchSize
  {
    assert Pow2(5) == 32 && Pow2(6) == 64;
    SplitGIndex(CurrentSyncCommitteeDepth, CurrentSyncCommitteeIndex);
    SplitGIndex(NextSyncCommitteeDepth, NextSyncCommitteeIndex);
    SplitGIndex(FinalizedRootDepth, FinalizedRootIndex);
  }

  /** The operation and size limits are the phase0 and Bellatrix preset values
      and SSZ byte widths; the tree depth and genesis slot are phase0's. */
  lemma SizeLimitsMatchPresets()
    ensures MaxProposerSlashingSize == MAX_PROPOSER_SLASHINGS
    ensures MaxAttesterSlashingSize == MAX_ATTESTER_SLASHINGS
    ensures MaxAttestationSize == MAX_ATTESTATIONS
    ensures MaxDepositDataSize == MAX_DEPOSITS
    ensures MaxVoluntaryExitSize == MAX_VOLUNTARY_EXITS
    ensures MaxValidatorsPerCommittee == MAX_VALIDATORS_PER_COMMITTEE
    ensures MaxExtraDataSize == MAX_EXTRA_DATA_BYTES
    ensures MaxLogsBloomSize == BYTES_PER_LOGS_BLOOM
    ensures MaxFeeRecipientSize == EXECUTION_ADDRESS_BYTES
    ensures MaxPublicKeySize == BLS_PUBKEY_BYTES
    ensures MaxSignatureSize == BLS_SIGNATURE_BYTES
    ensures DepositContractTreeDepth == DEPOSIT_CONTRACT_TREE_DEPTH
    ensures GenesisSlot == GENESIS_SLOT
  {
  }

  // ---------------------------------------------------------------------------
  // Domain type
  // ---------------------------------------------------------------------------

  function HexDigit(c: char): Option<nat> {
    if '0' <= c <= '9' then Some(c as nat - '0' as nat)
    else if 'a' <= c <= 'f' then Some(c as nat - 'a' as nat + 10)
    else None
  }

  /** Bytes of an even-length lower-case hex string, most significant digit first. */
  function HexBytes(s: string): (r: Option<seq<nat>>)
    ensures r.Some? ==> |r.value| * 2 == |s|
    ensures r.Some? ==> forall i :: 0 <= i < |r.value| ==> r.value[i] < 256
  {
    if |s| == 0 then Some([])
    else if |s| == 1 then None
    else
      var hi, lo, rest := HexDigit(s[0]), HexDigit(s[1]), HexBytes(s[2..]);
      if hi.Some? && lo.Some? && rest.Some? then Some([hi.value * 16 + lo.value] + rest.value) else None
  }

  /** DomainSyncCommittee is DomainType('0x07000000'). */
  lemma DomainSyncCommitteeMatchesAltair()
    ensures HexBytes(DOMAIN_SYNC_COMMITTEE_HEX) == Some(DomainSyncCommittee)
  {
    var s := DOMAIN_SYNC_COMMITTEE_HEX;
    assert HexDigit('0') == Some(0) && HexDigit('7') == Some(7);
    assert s == "07000000";
    assert s[6..] == "00" && s[6..][0] == '0' && s[6..][1] == '0';
    assert s[6..][2..] == [] && HexBytes(s[6..][2..]) == Some([]);
    assert [0 * 16 + 0] + [] == [0];
    assert HexBytes(s[6..]) == Some([0]);
    assert s[4..][2..] == s[6..] && s[4..][0] == '0' && s[4..][1] == '0';
    assert [0 * 16 + 0] + [0] == [0, 0];
    assert HexBytes(s[4..]) == Some([0, 0]);
    assert s[2..][2..] == s[4..] && s[2..][0] == '0' && s[2..][1] == '0';
    assert [0 * 16 + 0] + [0, 0] == [0, 0, 0];
    assert HexBytes(s[2..]) == Some([0, 0, 0]);
    assert [0 * 16 + 7] + [0, 0, 0] == [7, 0, 0, 0];
    assert s[0] == '0' && s[1] == '7';
  }

  // ---------------------------------------------------------------------------
  // Network modules
  // ---------------------------------------------------------------------------

  /** The declarations of goerli.rs. */
  const GoerliDecls: seq<Decl> := [
    Decl([], "pub", "SlotsPerEpoch", None, U64, Int(32)),
    Decl([], "pub", "EpochsPerSyncCommitteePeriod", None, U64, Int(256)),
    Decl([], "pub", "MaxSyncCommitteeSize", None, U32, Int(512))
  ]

  datatype Network = Mainnet | Goerli

  /** `#[cfg(feature = "mainnet")]` / `#[cfg(not(feature = "mainnet"))]`:
      exactly one network module is compiled in and re-exported. */
  function SelectNetwork(mainnetFeature: bool): (n: Network)
    ensures n == Mainnet <==> mainnetFeature
    ensures n == Goerli <==> !mainnetFeature
  {
    if mainnetFeature then Mainnet else Goerli
  }

  /** The items the selected network module brings into scope. The mainnet
      module is not part of this model; its declarations are a parameter. */
  function NetworkItems(mainnetFeature: bool, mainnetDecls: seq<Decl>): seq<Item> {
    match SelectNetwork(mainnetFeature)
    case Mainnet => Expand(mainnetDecls)
    case Goerli => Expand(GoerliDecls)
  }

  /** goerli's `IS_MAINNET`: present only under `test` or `runtime-benchmarks`,
      and then `false`; `None` when the goerli module is not selected or the
      constant is compiled out. */
  function GoerliIsMainnet(mainnetFeature: bool, test: bool, benchmarks: bool): (r: Option<bool>)
    ensures r.Some? <==> !mainnetFeature && (test || benchmarks)
    ensures r.Some? ==> SelectNetwork(mainnetFeature) == Goerli && r.value == (SelectNetwork(mainnetFeature) == Mainnet)
  {
    if SelectNetwork(mainnetFeature) == Goerli && (test || benchmarks) then Some(false) else None
  }

  /** Each goerli constant reports the same typed value through `RAW`
      (`raw_const!`) and through the `Get` accessor, and is a unit struct. */
  lemma GoerliConstants(mainnetDecls: seq<Decl>)
    ensures RawConst(NetworkItems(false, mainnetDecls), "SlotsPerEpoch") == Some(TypedValue(U64, Int(SLOTS_PER_EPOCH)))
    ensures ParamGet(NetworkItems(false, mainnetDecls), "SlotsPerEpoch") == Some(TypedValue(U64, Int(SLOTS_PER_EPOCH)))
    ensures RawConst(NetworkItems(false, mainnetDecls), "EpochsPerSyncCommitteePeriod")
            == Some(TypedValue(U64, Int(EPOCHS_PER_SYNC_COMMITTEE_PERIOD)))
    ensures ParamGet(NetworkItems(false, mainnetDecls), "EpochsPerSyncCommitteePeriod")
            == Some(TypedValue(U64, Int(EPOCHS_PER_SYNC_COMMITTEE_PERIOD)))
    ensures RawConst(NetworkItems(false, mainnetDecls), "MaxSyncCommitteeSize") == Some(TypedValue(U32, Int(SYNC_COMMITTEE_SIZE)))
    ensures ParamGet(NetworkItems(false, mainnetDecls), "MaxSyncCommitteeSize") == Some(TypedValue(U32, Int(SYNC_COMMITTEE_SIZE)))
    ensures forall i :: 0 <= i < |GoerliDecls| ==>
              MarkerOf(NetworkItems(false, mainnetDecls), GoerliDecls[i].name).Some?
              && MarkerOf(NetworkItems(false, mainnetDecls), GoerliDecls[i].name).value.MarkerStruct?
              && MarkerOf(NetworkItems(false, mainnetDecls), GoerliDecls[i].name).value.body == UnitStruct
  {
    assert DistinctNames(GoerliDecls);
    ThreeViews(GoerliDecls, 0);
    ThreeViews(GoerliDecls, 1);
    ThreeViews(GoerliDecls, 2);
  }
}

=== FILE: beacon_json.dfy ===
/** The beacon relay's JSON records and their `RemoveLeadingZeroHashes`
    methods. The beacon node reports hashes, keys and signatures as
    `0x`-prefixed hex; the relay strips the marker before SCALE encoding.
    `removeLeadingZeroHash` is `strings.Replace(s, "0x", "", 1)`, which removes
    the FIRST `0x` anywhere in the string, not only a leading one.

    Each record type has a `Strip*` function (the Go method, rewritten as a
    pure function returning the updated record) and a `Prefix*` function that
    puts a `0x` in front of exactly the fields the Go method rewrites; the
    contract of every `Prefix*` function is that stripping undoes it. */
module BeaconJson {
  import opened Wrappers

  // ---------------------------------------------------------------------------
  // removeLeadingZeroHash
  // ---------------------------------------------------------------------------

  const HexMarker: string := "0x"

  /** `s` has the two characters `0x` at position `j`. */
  predicate MarkerAt(s: string, j: int) {
    0 <= j && j + 1 < |s| && s[j] == '0' && s[j + 1] == 'x'
  }

  predicate ContainsMarker(s: string) {
    exists j :: 0 <= j < |s| && MarkerAt(s, j)
  }

  /** `i` is the position of the leftmost `0x` in `s`. */
  predicate FirstMarkerAt(s: string, i: int) {
    MarkerAt(s, i) && forall j :: 0 <= j < i ==> !MarkerAt(s, j)
  }

  /** The position of the first `0x` at or after `from`, as `strings.Index` finds it. */
  function FindMarker(s: string, from: nat): (r: Option<nat>)
    requires from <= |s|
    ensures r.Some? ==> from <= r.value && MarkerAt(s, r.value)
    ensures r.Some? ==> forall j :: from <= j < r.value ==> !MarkerAt(s, j)
    ensures r.None? ==> forall j :: from <= j ==> !MarkerAt(s, j)
    decreases |s| - from
  {
    if from + 1 >= |s| then None
    else if s[from] == '0' && s[from + 1] == 'x' then Some(from)
    else FindMarker(s, from + 1)
  }

  /** `removeLeadingZeroHash`: delete the first occurrence of `0x`, if any. */
  function RemoveLeadingZeroHash(s: string): (r: string)
    ensures r == s <==> !ContainsMarker(s)
    ensures forall i :: FirstMarkerAt(s, i) ==> r == s[..i] + s[i + 2..]
    ensures |r| == if ContainsMarker(s) then |s| - 2 else |s|
    ensures |s| >= 2 && s[..2] == HexMarker ==> r == s[2..]
  {
    match FindMarker(s, 0)
    case None => s
    case Some(i) =>
      assert FirstMarkerAt(s, i);
      assert |s[..i] + s[i + 2..]| < |s|;
      s[..i] + s[i + 2..]
  }

  /** Putting the marker in front is undone by removing it. */
  lemma StripPrefixed(t: string)
    ensures RemoveLeadingZeroHash(HexMarker + t) == t
  {
    var s := HexMarker + t;
    assert s[..2] == HexMarker && s[2..] == t;
  }

  /** Only one replacement is made: "0x0xab" becomes "0xab", which strips again
      to "ab", so the function is not idempotent. */
  lemma RemoveOnlyFirst()
    ensures RemoveLeadingZeroHash("0x0xab") == "0xab"
    ensures RemoveLeadingZeroHash(RemoveLeadingZeroHash("0x0xab")) == "ab"
  {
    StripPrefixed("0xab");
    assert HexMarker + "0xab" == "0x0xab";
    StripPrefixed("ab");
    assert HexMarker + "ab" == "0xab";
  }

  /** A marker in the middle is removed as well: "ab0xcd" becomes "abcd". */
  lemma RemoveInnerMarker()
    ensures RemoveLeadingZeroHash("ab0xcd") == "abcd"
  {
    var s := "ab0xcd";
    assert FindMarker(s, 2) == Some(2);
    assert FindMarker(s, 1) == FindMarker(s, 2);
    assert FindMarker(s, 0) == FindMarker(s, 1);
    assert s[..2] + s[4..] == "abcd";
  }

  /** `removeLeadingZeroHashForSlice`: a fresh slice of the same length whose
      element `i` is element `i` of `s` stripped. */
  function StripSlice(s: seq<string>): (r: seq<string>)
    ensures |r| == |s|
    ensures forall i :: 0 <= i < |s| ==> r[i] == RemoveLeadingZeroHash(s[i])
  {
    seq(|s|, i requires 0 <= i < |s| => RemoveLeadingZeroHash(s[i]))
  }

  function PrefixSlice(s: seq<string>): (r: seq<string>)
    ensures |r| == |s|
    ensures StripSlice(r) == s
  {
    var r := seq(|s|, i requires 0 <= i < |s| => HexMarker + s[i]);
    forall i | 0 <= i < |s| {
      StripPrefixed(s[i]);
    }
    r
  }

  // ---------------------------------------------------------------------------
  // Records
  // ---------------------------------------------------------------------------

  datatype BeaconHeader = BeaconHeader(
    slot: nat, proposerIndex: nat, parentRoot: string, stateRoot: string, bodyRoot: string)

  datatype SyncCommittee = SyncCommittee(pubkeys: seq<string>, aggregatePubkey: string)

  datatype SyncAggregate = SyncAggregate(syncCommitteeBits: string, syncCommitteeSignature: string)

  datatype InitialSync = InitialSync(
    header: BeaconHeader,
    currentSyncCommittee: SyncCommittee,
    currentSyncCommitteeBranch: seq<string>,
    validatorsRoot: string,
    importTime: nat)

  datatype SyncCommitteeUpdate = SyncCommitteeUpdate(
    attestedHeader: BeaconHeader,
    nextSyncCommittee: SyncCommittee,
    nextSyncCommitteeBranch: seq<string>,
    finalizedHeader: BeaconHeader,
    finalityBranch: seq<string>,
    syncAggregate: SyncAggregate,
    syncCommitteePeriod: nat,
    signatureSlot: nat,
    blockRootsRoot: string,
    blockRootBranch: seq<string>)

  datatype FinalizedHeaderUpdate = FinalizedHeaderUpdate(
    attestedHeader: BeaconHeader,
    finalizedHeader: BeaconHeader,
    finalityBranch: seq<string>,
    syncAggregate: SyncAggregate,
    signatureSlot: nat,
    blockRootsRoot: string,
    blockRootBranch: seq<string>)

  datatype Checkpoint = Checkpoint(epoch: nat, root: string)

  datatype AttestationData = AttestationData(
    slot: nat, index: nat, beaconBlockRoot: string, source: Checkpoint, target: Checkpoint)

  datatype IndexedAttestation = IndexedAttestation(
    attestingIndices: seq<nat>, data: AttestationData, signature: string)

  datatype SignedHeader = SignedHeader(message: BeaconHeader, signature: string)

  datatype ProposerSlashing = ProposerSlashing(signedHeader1: SignedHeader, signedHeader2: SignedHeader)

  datatype AttesterSlashing = AttesterSlashing(attestation1: IndexedAttestation, attestation2: IndexedAttestation)

  datatype Attestation = Attestation(aggregationBits: string, data: AttestationData, signature: string)

  datatype DepositData = DepositData(
    pubkey: string, withdrawalCredentials: string, amount: nat, signature: string)

  datatype Deposit = Deposit(proof: seq<string>, data: DepositData)

  datatype VoluntaryExit = VoluntaryExit(epoch: nat, validatorIndex: nat)

  datatype Eth1Data = Eth1Data(depositRoot: string, depositCount: nat, blockHash: string)

  datatype ExecutionPayload = ExecutionPayload(
    parentHash: string,
    feeRecipient: string,
    stateRoot: string,
    receiptsRoot: string,
    logsBloom: string,
    prevRandao: string,
    blockNumber: nat,
    gasLimit: nat,
    gasUsed: nat,
    timestamp: nat,
    extraData: string,
    baseFeePerGas: nat,
    blockHash: string,
    transactionRoot: string)

  datatype BlockBody = BlockBody(
    randaoReveal: string,
    eth1Data: Eth1Data,
    graffiti: string,
    proposerSlashings: seq<ProposerSlashing>,
    attesterSlashings: seq<AttesterSlashing>,
    attestations: seq<Attestation>,
    deposits: seq<Deposit>,
    voluntaryExits: seq<VoluntaryExit>,
    syncAggregate: SyncAggregate,
    executionPayload: ExecutionPayload)

  datatype Block = Block(
    slot: nat, proposerIndex: nat, parentRoot: string, stateRoot: string, body: BlockBody)

  datatype HeaderUpdate = HeaderUpdate(
    beaconHeader: BeaconHeader,
    executionHeader: ExecutionPayload,
    executionBranch: seq<string>,
    syncAggregate: SyncAggregate,
    signatureSlot: nat,
    blockRootBranch: seq<string>,
    blockRootBranchHeaderRoot: string)

  // ---------------------------------------------------------------------------
  // RemoveLeadingZeroHashes, one per record type
  // ---------------------------------------------------------------------------

  function StripBeaconHeader(h: BeaconHeader): (r: BeaconHeader)
    ensures r.slot == h.slot && r.proposerIndex == h.proposerIndex
  {
    h.(parentRoot := RemoveLeadingZeroHash(h.parentRoot),
       stateRoot := RemoveLeadingZeroHash(h.stateRoot),
       bodyRoot := RemoveLeadingZeroHash(h.bodyRoot))
  }

  function PrefixBeaconHeader(h: BeaconHeader): (r: BeaconHeader)
    ensures StripBeaconHeader(r) == h
  {
    StripPrefixed(h.parentRoot);
    StripPrefixed(h.stateRoot);
    StripPrefixed(h.bodyRoot);
    h.(parentRoot := HexMarker + h.parentRoot,
       stateRoot := HexMarker + h.stateRoot,
       bodyRoot := HexMarker + h.bodyRoot)
  }

  /** A header none of whose roots contains `0x` is left as it is. */
  lemma StripBeaconHeaderFixedPoint(h: BeaconHeader)
    requires !ContainsMarker(h.parentRoot) && !ContainsMarker(h.stateRoot) && !ContainsMarker(h.bodyRoot)
    ensures StripBeaconHeader(h) == h
  {
  }

  /** Every public key is stripped in place; the key count is kept. */
  function StripSyncCommittee(c: SyncCommittee): (r: SyncCommittee)
    ensures |r.pubkeys| == |c.pubkeys|
  {
    SyncCommittee(StripSlice(c.pubkeys), RemoveLeadingZeroHash(c.aggregatePubkey))
  }

  function PrefixSyncCommittee(c: SyncCommittee): (r: SyncCommittee)
    ensures StripSyncCommittee(r) == c
  {
    StripPrefixed(c.aggregatePubkey);
    SyncCommittee(PrefixSlice(c.pubkeys), HexMarker + c.aggregatePubkey)
  }

  function StripSyncAggregate(a: SyncAggregate): SyncAggregate {
    SyncAggregate(RemoveLeadingZeroHash(a.syncCommitteeBits), RemoveLeadingZeroHash(a.syncCommitteeSignature))
  }

  function PrefixSyncAggregate(a: SyncAggregate): (r: SyncAggregate)
    ensures StripSyncAggregate(r) == a
  {
    StripPrefixed(a.syncCommitteeBits);
    StripPrefixed(a.syncCommitteeSignature);
    SyncAggregate(HexMarker + a.syncCommitteeBits, HexMarker + a.syncCommitteeSignature)
  }

  function StripCheckpoint(c: Checkpoint): (r: Checkpoint)
    ensures r.epoch == c.epoch
  {
    c.(root := RemoveLeadingZeroHash(c.root))
  }

  function PrefixCheckpoint(c: Checkpoint): (r: Checkpoint)
    ensures StripCheckpoint(r) == c
  {
    StripPrefixed(c.root);
    c.(root := HexMarker + c.root)
  }

  function StripAttestationData(a: AttestationData): (r: AttestationData)
    ensures r.slot == a.slot && r.index == a.index
    ensures r.source.epoch == a.source.epoch && r.target.epoch == a.target.epoch
  {
    a.(beaconBlockRoot := RemoveLeadingZeroHash(a.beaconBlockRoot),
       source := StripCheckpoint(a.source),
       target := StripCheckpoint(a.target))
  }

  function PrefixAttestationData(a: AttestationData): (r: AttestationData)
    ensures StripAttestationData(r) == a
  {
    StripPrefixed(a.beaconBlockRoot);
    a.(beaconBlockRoot := HexMarker + a.beaconBlockRoot,
       source := PrefixCheckpoint(a.source),
       target := PrefixCheckpoint(a.target))
  }

  function StripIndexedAttestation(a: IndexedAttestation): (r: IndexedAttestation)
    ensures r.attestingIndices == a.attestingIndices
    ensures r.data.slot == a.data.slot && r.data.index == a.data.index
  {
    a.(data := StripAttestationData(a.data), signature := RemoveLeadingZeroHash(a.signature))
  }

  function PrefixIndexedAttestation(a: IndexedAttestation): (r: IndexedAttestation)
    ensures StripIndexedAttestation(r) == a
  {
    StripPrefixed(a.signature);
    a.(data := PrefixAttestationData(a.data), signature := HexMarker + a.signature)
  }

  function StripSignedHeader(s: SignedHeader): (r: SignedHeader)
    ensures r.message.slot == s.message.slot && r.message.proposerIndex == s.message.proposerIndex
  {
    SignedHeader(StripBeaconHeader(s.message), RemoveLeadingZeroHash(s.signature))
  }

  function PrefixSignedHeader(s: SignedHeader): (r: SignedHeader)
    ensures StripSignedHeader(r) == s
  {
    StripPrefixed(s.signature);
    SignedHeader(PrefixBeaconHeader(s.message), HexMarker + s.signature)
  }

  function StripProposerSlashing(p: ProposerSlashing): ProposerSlashing {
    ProposerSlashing(StripSignedHeader(p.signedHeader1), StripSignedHeader(p.signedHeader2))
  }

  function PrefixProposerSlashing(p: ProposerSlashing): (r: ProposerSlashing)
    ensures StripProposerSlashing(r) == p
  {
    ProposerSlashing(PrefixSignedHeader(p.signedHeader1), PrefixSignedHeader(p.signedHeader2))
  }

  function StripAttesterSlashing(a: AttesterSlashing): (r: AttesterSlashing)
    ensures r.attestation1.attestingIndices == a.attestation1.attestingIndices
    ensures r.attestation2.attestingIndices == a.attestation2.attestingIndices
  {
    AttesterSlashing(StripIndexedAttestation(a.attestation1), StripIndexedAttestation(a.attestation2))
  }

  function PrefixAttesterSlashing(a: AttesterSlashing): (r: AttesterSlashing)
    ensures StripAttesterSlashing(r) == a
  {
    AttesterSlashing(PrefixIndexedAttestation(a.attestation1), PrefixIndexedAttestation(a.attestation2))
  }

  function StripAttestation(a: Attestation): (r: Attestation)
    ensures r.data.slot == a.data.slot && r.data.index == a.data.index
  {
    Attestation(RemoveLeadingZeroHash(a.aggregationBits), StripAttestationData(a.data), RemoveLeadingZeroHash(a.signature))
  }

  function PrefixAttestation(a: Attestation): (r: Attestation)
    ensures StripAttestation(r) == a
  {
    StripPrefixed(a.aggregationBits);
    StripPrefixed(a.signature);
    Attestation(HexMarker + a.aggregationBits, PrefixAttestationData(a.data), HexMarker + a.signature)
  }

  /** Only the deposit data's key, signature and withdrawal credentials are
      stripped: the Merkle proof strings and the amount are left untouched. */
  function StripDeposit(d: Deposit): (r: Deposit)
    ensures r.proof == d.proof
    ensures r.data.amount == d.data.amount
  {
    d.(data := d.data.(pubkey := RemoveLeadingZeroHash(d.data.pubkey),
                       signature := RemoveLeadingZeroHash(d.data.signature),
                       withdrawalCredentials := RemoveLeadingZeroHash(d.data.withdrawalCredentials)))
  }

  function PrefixDeposit(d: Deposit): (r: Deposit)
    ensures StripDeposit(r) == d
  {
    StripPrefixed(d.data.pubkey);
    StripPrefixed(d.data.signature);
    StripPrefixed(d.data.withdrawalCredentials);
    d.(data := d.data.(pubkey := HexMarker + d.data.pubkey,
                       signature := HexMarker + d.data.signature,
                       withdrawalCredentials := HexMarker + d.data.withdrawalCredentials))
  }

  /** Exactly the nine string fields change; the five numeric fields are kept. */
  function StripExecutionPayload(e: ExecutionPayload): (r: ExecutionPayload)
    ensures r.blockNumber == e.blockNumber && r.gasLimit == e.gasLimit && r.gasUsed == e.gasUsed
    ensures r.timestamp == e.timestamp && r.baseFeePerGas == e.baseFeePerGas
  {
    e.(parentHash := RemoveLeadingZeroHash(e.parentHash),
       feeRecipient := RemoveLeadingZeroHash(e.feeRecipient),
       stateRoot := RemoveLeadingZeroHash(e.stateRoot),
       receiptsRoot := RemoveLeadingZeroHash(e.receiptsRoot),
       logsBloom := RemoveLeadingZeroHash(e.logsBloom),
       prevRandao := RemoveLeadingZeroHash(e.prevRandao),
       extraData := RemoveLeadingZeroHash(e.extraData),
       blockHash := RemoveLeadingZeroHash(e.blockHash),
       transactionRoot := RemoveLeadingZeroHash(e.transactionRoot))
  }

  function PrefixExecutionPayload(e: ExecutionPayload): (r: ExecutionPayload)
    ensures StripExecutionPayload(r) == e
  {
    StripPrefixed(e.parentHash);
    StripPrefixed(e.feeRecipient);
    StripPrefixed(e.stateRoot);
    StripPrefixed(e.receiptsRoot);
    StripPrefixed(e.logsBloom);
    StripPrefixed(e.prevRandao);
    StripPrefixed(e.extraData);
    StripPrefixed(e.blockHash);
    StripPrefixed(e.transactionRoot);
    e.(parentHash := HexMarker + e.parentHash,
       feeRecipient := HexMarker + e.feeRecipient,
       stateRoot := HexMarker + e.stateRoot,
       receiptsRoot := HexMarker + e.receiptsRoot,
       logsBloom := HexMarker + e.logsBloom,
       prevRandao := HexMarker + e.prevRandao,
       extraData := HexMarker + e.extraData,
       blockHash := HexMarker + e.blockHash,
       transactionRoot := HexMarker + e.transactionRoot)
  }

  function StripProposerSlashings(xs: seq<ProposerSlashing>): (r: seq<ProposerSlashing>)
    ensures |r| == |xs|
  {
    seq(|xs|, i requires 0 <= i < |xs| => StripProposerSlashing(xs[i]))
  }

  function PrefixProposerSlashings(xs: seq<ProposerSlashing>): (r: seq<ProposerSlashing>)
    ensures StripProposerSlashings(r) == xs
  {
    seq(|xs|, i requires 0 <= i < |xs| => PrefixProposerSlashing(xs[i]))
  }

  function StripAttesterSlashings(xs: seq<AttesterSlashing>): (r: seq<AttesterSlashing>)
    ensures |r| == |xs|
  {
    seq(|xs|, i requires 0 <= i < |xs| => StripAttesterSlashing(xs[i]))
  }

  function PrefixAttesterSlashings(xs: seq<AttesterSlashing>): (r: seq<AttesterSlashing>)
    ensures StripAttesterSlashings(r) == xs
  {
    seq(|xs|, i requires 0 <= i < |xs| => PrefixAttesterSlashing(xs[i]))
  }

  function StripAttestations(xs: seq<Attestation>): (r: seq<Attestation>)
    ensures |r| == |xs|
  {
    seq(|xs|, i requires 0 <= i < |xs| => StripAttestation(xs[i]))
  }

  function PrefixAttestations(xs: seq<Attestation>): (r: seq<Attestation>)
    ensures StripAttestations(r) == xs
  {
    seq(|xs|, i requires 0 <= i < |xs| => PrefixAttestation(xs[i]))
  }

  function StripDeposits(xs: seq<Deposit>): (r: seq<Deposit>)
    ensures |r| == |xs|
    ensures forall i :: 0 <= i < |xs| ==> r[i].proof == xs[i].proof && r[i].data.amount == xs[i].data.amount
  {
    seq(|xs|, i requires 0 <= i < |xs| => StripDeposit(xs[i]))
  }

  function PrefixDeposits(xs: seq<Deposit>): (r: seq<Deposit>)
    ensures StripDeposits(r) == xs
  {
    seq(|xs|, i requires 0 <= i < |xs| => PrefixDeposit(xs[i]))
  }

  /** The body part of `Block.RemoveLeadingZeroHashes`. */
  function StripBlockBody(body: BlockBody): (r: BlockBody)
    ensures r.voluntaryExits == body.voluntaryExits
    ensures r.eth1Data.depositCount == body.eth1Data.depositCount
    ensures |r.proposerSlashings| == |body.proposerSlashings|
    ensures |r.attesterSlashings| == |body.attesterSlashings|
    ensures |r.attestations| == |body.attestations|
    ensures |r.deposits| == |body.deposits|
    ensures forall i :: 0 <= i < |body.deposits| ==> r.deposits[i].proof == body.deposits[i].proof
    ensures r.executionPayload.blockNumber == body.executionPayload.blockNumber
  {
    body.(
      randaoReveal := RemoveLeadingZeroHash(body.randaoReveal),
      eth1Data := body.eth1Data.(depositRoot := RemoveLeadingZeroHash(body.eth1Data.depositRoot),
                                 blockHash := RemoveLeadingZeroHash(body.eth1Data.blockHash)),
      graffiti := RemoveLeadingZeroHash(body.graffiti),
      proposerSlashings := StripProposerSlashings(body.proposerSlashings),
      attesterSlashings := StripAttesterSlashings(body.attesterSlashings),
      attestations := StripAttestations(body.attestations),
      deposits := StripDeposits(body.deposits),
      syncAggregate := StripSyncAggregate(body.syncAggregate),
      executionPayload := StripExecutionPayload(body.executionPayload))
  }

  function PrefixBlockBody(body: BlockBody): (r: BlockBody)
    ensures StripBlockBody(r) == body
  {
    StripPrefixed(body.randaoReveal);
    StripPrefixed(body.eth1Data.depositRoot);
    StripPrefixed(body.eth1Data.blockHash);
    StripPrefixed(body.graffiti);
    body.(
      randaoReveal := HexMarker + body.randaoReveal,
      eth1Data := body.eth1Data.(depositRoot := HexMarker + body.eth1Data.depositRoot,
                                 blockHash := HexMarker + body.eth1Data.blockHash),
      graffiti := HexMarker + body.graffiti,
      proposerSlashings := PrefixProposerSlashings(body.proposerSlashings),
      attesterSlashings := PrefixAttesterSlashings(body.attesterSlashings),
      attestations := PrefixAttestations(body.attestations),
      deposits := PrefixDeposits(body.deposits),
      syncAggregate := PrefixSyncAggregate(body.syncAggregate),
      executionPayload := PrefixExecutionPayload(body.executionPayload))
  }

  /** The block's own roots, the body's hex fields, every slashing,
      attestation and deposit, the sync aggregate and the execution payload are
      stripped; the voluntary exits, the deposit count and all numbers and list
      lengths are kept. */
  function StripBlock(b: Block): (r: Block)
    ensures r.slot == b.slot && r.proposerIndex == b.proposerIndex
    ensures r.body.voluntaryExits == b.body.voluntaryExits
    ensures r.body.eth1Data.depositCount == b.body.eth1Data.depositCount
    ensures |r.body.deposits| == |b.body.deposits|
    ensures forall i :: 0 <= i < |b.body.deposits| ==> r.body.deposits[i].proof == b.body.deposits[i].proof
  {
    b.(parentRoot := RemoveLeadingZeroHash(b.parentRoot),
       stateRoot := RemoveLeadingZeroHash(b.stateRoot),
       body := StripBlockBody(b.body))
  }

  function PrefixBlock(b: Block): (r: Block)
    ensures StripBlock(r) == b
  {
    StripPrefixed(b.parentRoot);
    StripPrefixed(b.stateRoot);
    b.(parentRoot := HexMarker + b.parentRoot,
       stateRoot := HexMarker + b.stateRoot,
       body := PrefixBlockBody(b.body))
  }

  function StripInitialSync(s: InitialSync): (r: InitialSync)
    ensures r.importTime == s.importTime
    ensures r.header.slot == s.header.slot
    ensures |r.currentSyncCommitteeBranch| == |s.currentSyncCommitteeBranch|
  {
    s.(header := StripBeaconHeader(s.header),
       currentSyncCommittee := StripSyncCommittee(s.currentSyncCommittee),
       currentSyncCommitteeBranch := StripSlice(s.currentSyncCommitteeBranch),
       validatorsRoot := RemoveLeadingZeroHash(s.validatorsRoot))
  }

  function PrefixInitialSync(s: InitialSync): (r: InitialSync)
    ensures StripInitialSync(r) == s
  {
    StripPrefixed(s.validatorsRoot);
    s.(header := PrefixBeaconHeader(s.header),
       currentSyncCommittee := PrefixSyncCommittee(s.currentSyncCommittee),
       currentSyncCommitteeBranch := PrefixSlice(s.currentSyncCommitteeBranch),
       validatorsRoot := HexMarker + s.validatorsRoot)
  }

  function StripSyncCommitteeUpdate(u: SyncCommitteeUpdate): (r: SyncCommitteeUpdate)
    ensures r.syncCommitteePeriod == u.syncCommitteePeriod && r.signatureSlot == u.signatureSlot
    ensures r.attestedHeader.slot == u.attestedHeader.slot && r.finalizedHeader.slot == u.finalizedHeader.slot
  {
    u.(attestedHeader := StripBeaconHeader(u.attestedHeader),
       nextSyncCommittee := StripSyncCommittee(u.nextSyncCommittee),
       nextSyncCommitteeBranch := StripSlice(u.nextSyncCommitteeBranch),
       finalizedHeader := StripBeaconHeader(u.finalizedHeader),
       finalityBranch := StripSlice(u.finalityBranch),
       syncAggregate := StripSyncAggregate(u.syncAggregate),
       blockRootsRoot := RemoveLeadingZeroHash(u.blockRootsRoot),
       blockRootBranch := StripSlice(u.blockRootBranch))
  }

  function PrefixSyncCommitteeUpdate(u: SyncCommitteeUpdate): (r: SyncCommitteeUpdate)
    ensures StripSyncCommitteeUpdate(r) == u
  {
    StripPrefixed(u.blockRootsRoot);
    u.(attestedHeader := PrefixBeaconHeader(u.attestedHeader),
       nextSyncCommittee := PrefixSyncCommittee(u.nextSyncCommittee),
       nextSyncCommitteeBranch := PrefixSlice(u.nextSyncCommitteeBranch),
       finalizedHeader := PrefixBeaconHeader(u.finalizedHeader),
       finalityBranch := PrefixSlice(u.finalityBranch),
       syncAggregate := PrefixSyncAggregate(u.syncAggregate),
       blockRootsRoot := HexMarker + u.blockRootsRoot,
       blockRootBranch := PrefixSlice(u.blockRootBranch))
  }

  function StripFinalizedHeaderUpdate(u: FinalizedHeaderUpdate): (r: FinalizedHeaderUpdate)
    ensures r.signatureSlot == u.signatureSlot
    ensures r.attestedHeader.slot == u.attestedHeader.slot && r.finalizedHeader.slot == u.finalizedHeader.slot
  {
    u.(attestedHeader := StripBeaconHeader(u.attestedHeader),
       finalizedHeader := StripBeaconHeader(u.finalizedHeader),
       finalityBranch := StripSlice(u.finalityBranch),
       syncAggregate := StripSyncAggregate(u.syncAggregate),
       blockRootsRoot := RemoveLeadingZeroHash(u.blockRootsRoot),
       blockRootBranch := StripSlice(u.blockRootBranch))
  }

  function PrefixFinalizedHeaderUpdate(u: FinalizedHeaderUpdate): (r: FinalizedHeaderUpdate)
    ensures StripFinalizedHeaderUpdate(r) == u
  {
    StripPrefixed(u.blockRootsRoot);
    u.(attestedHeader := PrefixBeaconHeader(u.attestedHeader),
       finalizedHeader := PrefixBeaconHeader(u.finalizedHeader),
       finalityBranch := PrefixSlice(u.finalityBranch),
       syncAggregate := PrefixSyncAggregate(u.syncAggregate),
       blockRootsRoot := HexMarker + u.blockRootsRoot,
       blockRootBranch := PrefixSlice(u.blockRootBranch))
  }

  function StripHeaderUpdate(u: HeaderUpdate): (r: HeaderUpdate)
    ensures r.signatureSlot == u.signatureSlot
    ensures r.beaconHeader.slot == u.beaconHeader.slot
    ensures r.executionHeader.blockNumber == u.executionHeader.blockNumber
  {
    u.(beaconHeader := StripBeaconHeader(u.beaconHeader),
       executionHeader := StripExecutionPayload(u.executionHeader),
       executionBranch := StripSlice(u.executionBranch),
       syncAggregate := StripSyncAggregate(u.syncAggregate),
       blockRootBranch := StripSlice(u.blockRootBranch),
       blockRootBranchHeaderRoot := RemoveLeadingZeroHash(u.blockRootBranchHeaderRoot))
  }

  function PrefixHeaderUpdate(u: HeaderUpdate): (r: HeaderUpdate)
    ensures StripHeaderUpdate(r) == u
  {
    StripPrefixed(u.blockRootBranchHeaderRoot);
    u.(beaconHeader := PrefixBeaconHeader(u.beaconHeader),
       executionHeader := PrefixExecutionPayload(u.executionHeader),
       executionBranch := PrefixSlice(u.executionBranch),
       syncAggregate := PrefixSyncAggregate(u.syncAggregate),
       blockRootBranch := PrefixSlice(u.blockRootBranch),
       blockRootBranchHeaderRoot := HexMarker + u.blockRootBranchHeaderRoot)
  }
}

=== FILE: beefy_listener.dfy ===
/** The Ethereum side of the BEEFY relayer: it watches the light-client
    bridge contract for InitialVerificationSuccessful and
    FinalVerificationSuccessful events and moves the relayer's stored BEEFY
    items through their lifecycle

      CommitmentWitnessed -> InitialVerificationTxSent
        -> InitialVerificationTxConfirmed -> ReadyToComplete / deleted.

    The database is a sequence of rows (queries return rows in order, and the
    first payload match wins). Commands sent to the database writer and items
    sent to the Ethereum writer become output logs; event queries, the
    contract's validation data, payload simulation and block hashes are
    oracles. */
module BeefyListener {
  import opened Wrappers

  type Hash = seq<bv8>
  type Address = seq<bv8>
  type Payload = seq<bv8>

  datatype Error = Rpc(code: nat)

  datatype Status =
    | CommitmentWitnessed
    | InitialVerificationTxSent
    | InitialVerificationTxConfirmed
    | ReadyToComplete
    | CompleteVerificationTxSent

  /** Position of a status in the lifecycle. */
  function Rank(s: Status): nat {
    match s
    case CommitmentWitnessed => 0
    case InitialVerificationTxSent => 1
    case InitialVerificationTxConfirmed => 2
    case ReadyToComplete => 3
    case CompleteVerificationTxSent => 4
  }

  /** A stored BEEFY relay item (the fields the listener reads or writes; the
      justification itself is opaque). */
  datatype Item = Item(
    id: nat,
    status: Status,
    initialTx: Hash,
    finalTx: Hash,
    completeOnBlock: nat,
    randomSeed: Hash,
    justification: seq<bv8>)

  type Db = seq<Item>

  /** A verification event of the bridge contract, with the raw log's
      transaction hash and block number. */
  datatype Event = Event(id: nat, prover: Address, txHash: Hash, blockNumber: nat)

  /** A command for the database writer. An update sets the status and the
      completion block, and the initial transaction hash when present. */
  datatype DbCmd =
    | Update(itemId: nat, status: Status, initialTx: Option<Hash>, completeOnBlock: nat)
    | Delete(itemId: nat)

  // ---------------------------------------------------------------------------
  // The database
  // ---------------------------------------------------------------------------

  /** `GetItemsByStatus`: the rows with status `s`, in order. */
  function ItemsByStatus(db: Db, s: Status): (r: seq<Item>)
    ensures forall x :: x in r <==> x in db && x.status == s
    ensures |r| <= |db|
  {
    if |db| == 0 then []
    else (if db[0].status == s then [db[0]] else []) + ItemsByStatus(db[1..], s)
  }

  /** The index of the first row whose initial (or, with `final`, final)
      verification transaction is `tx`. */
  function FirstIndexByTx(db: Db, tx: Hash, final: bool): (r: Option<nat>)
    ensures r.Some? ==> r.value < |db| && TxOf(db[r.value], final) == tx
                        && forall j :: 0 <= j < r.value ==> TxOf(db[j], final) != tx
    ensures r.None? <==> forall j :: 0 <= j < |db| ==> TxOf(db[j], final) != tx
  {
    if |db| == 0 then None
    else if TxOf(db[0], final) == tx then Some(0)
    else
      match FirstIndexByTx(db[1..], tx, final)
      case None =>
        assert forall j :: 1 <= j < |db| ==> db[j] == db[1..][j - 1];
        None
      case Some(k) =>
        assert forall j :: 1 <= j < |db| ==> db[j] == db[1..][j - 1];
        Some(k + 1)
  }

  function TxOf(x: Item, final: bool): Hash {
    if final then x.finalTx else x.initialTx
  }

  /** `GetItemByInitialVerificationTxHash` / `GetItemByFinalVerificationTxHash`:
      the first row with that transaction hash, if any. */
  function ItemByTx(db: Db, tx: Hash, final: bool): (r: Option<Item>)
    ensures r.Some? ==> r.value in db && TxOf(r.value, final) == tx
    ensures r.None? <==> forall x :: x in db ==> TxOf(x, final) != tx
  {
    match FirstIndexByTx(db, tx, final)
    case None => None
    case Some(k) => Some(db[k])
  }

  /** The database writer: an update rewrites every row with the item's id,
      a delete removes them. */
  function Apply(db: Db, c: DbCmd): (r: Db)
    ensures c.Update? ==> |r| == |db| && forall i :: 0 <= i < |db| ==>
              && r[i].id == db[i].id
              && r[i].initialTx == (if db[i].id == c.itemId && c.initialTx.Some? then c.initialTx.value else db[i].initialTx)
              && r[i].finalTx == db[i].finalTx
              && r[i].status == (if db[i].id == c.itemId then c.status else db[i].status)
              && r[i].completeOnBlock == (if db[i].id == c.itemId then c.completeOnBlock else db[i].completeOnBlock)
              && r[i].randomSeed == db[i].randomSeed
              && r[i].justification == db[i].justification
    ensures c.Update? ==> forall i :: 0 <= i < |db| && db[i].id != c.itemId ==> r[i] == db[i]
    ensures c.Delete? ==> forall x :: x in r <==> x in db && x.id != c.itemId
    ensures c.Delete? ==> |r| <= |db|
  {
    match c
    case Update(id, status, tx, block) =>
      seq(|db|, i requires 0 <= i < |db| =>
        if db[i].id == id
        then db[i].(status := status, initialTx := tx.GetOr(db[i].initialTx), completeOnBlock := block)
        else db[i])
    case Delete(id) => Remove(db, id)
  }

  function Remove(db: Db, id: nat): (r: Db)
    ensures forall x :: x in r <==> x in db && x.id != id
    ensures |r| <= |db|
  {
    if |db| == 0 then []
    else (if db[0].id == id then [] else [db[0]]) + Remove(db[1..], id)
  }

  function ApplyAll(db: Db, cs: seq<DbCmd>): Db
    decreases |cs|
  {
    if |cs| == 0 then db else ApplyAll(Apply(db, cs[0]), cs[1..])
  }

  // ---------------------------------------------------------------------------
  // Event queries and validation data
  // ---------------------------------------------------------------------------

  /** A failed event query is logged and leaves the event list empty. */
  function EventsOrNone(q: Result<seq<Event>, Error>): (r: seq<Event>)
    ensures q.Err? ==> r == []
    ensures q.Ok? ==> r == q.value
  {
    match q
    case Ok(es) => es
    case Err(_) => []
  }

  /** The zero value of the contract's validation data payload. */
  const ZeroPayload: Payload := [0, 0, 0, 0, 0, 0, 0, 0, 0, 0, 0, 0, 0, 0, 0, 0,
                                  0, 0, 0, 0, 0, 0, 0, 0, 0, 0, 0, 0, 0, 0, 0, 0]

  /** A failed `ValidationData` call is logged and the zero-valued struct is
      used, so its payload is 32 zero bytes. */
  function ValidationPayload(v: Result<Payload, Error>): (r: Payload)
    ensures v.Err? ==> r == ZeroPayload
    ensures v.Ok? ==> r == v.value
  {
    if v.Ok? then v.value else ZeroPayload
  }

  /** The first item whose simulated payload is `p`. */
  function FirstPayloadMatch(items: seq<Item>, payloadOf: Item -> Payload, p: Payload): (r: Option<Item>)
    ensures r.Some? ==> r.value in items && payloadOf(r.value) == p
    ensures r.None? <==> forall x :: x in items ==> payloadOf(x) != p
    ensures r.Some? ==> exists k :: (0 <= k < |items| && items[k] == r.value
              && forall j :: 0 <= j < k ==> payloadOf(items[j]) != p)
  {
    if |items| == 0 then None
    else if payloadOf(items[0]) == p then Some(items[0])
    else
      var r := FirstPayloadMatch(items[1..], payloadOf, p);
      assert forall j :: 1 <= j < |items| ==> items[j] == items[1..][j - 1];
      r
  }

  /** Row `k` is the first row of status `s` whose simulated payload is `p`. */
  predicate FirstMatchAt(db: Db, s: Status, payloadOf: Item -> Payload, p: Payload, k: nat) {
    && k < |db| && db[k].status == s && payloadOf(db[k]) == p
    && forall j :: 0 <= j < k && db[j].status == s ==> payloadOf(db[j]) != p
  }

  /** Selecting the rows of one status keeps their order: selecting from a
      concatenation is the concatenation of the selections. */
  lemma {:induction false} ItemsByStatusAppend(a: Db, b: Db, s: Status)
    ensures ItemsByStatus(a + b, s) == ItemsByStatus(a, s) + ItemsByStatus(b, s)
    decreases |a|
  {
    if |a| > 0 {
      assert (a + b)[1..] == a[1..] + b;
      ItemsByStatusAppend(a[1..], b, s);
    } else {
      assert a + b == b;
    }
  }

  /** A first match in the tail is a first match of the whole database when
      the head row is not one. */
  lemma FirstMatchShift(db: Db, s: Status, payloadOf: Item -> Payload, p: Payload, k: nat)
    requires |db| > 0 && FirstMatchAt(db[1..], s, payloadOf, p, k)
    requires db[0].status != s || payloadOf(db[0]) != p
    ensures FirstMatchAt(db, s, payloadOf, p, k + 1) && db[k + 1] == db[1..][k]
  {
    forall j | 0 <= j < k + 1 && db[j].status == s ensures payloadOf(db[j]) != p {
      if j > 0 {
        assert db[j] == db[1..][j - 1];
      }
    }
  }

  /** The first payload match among the rows of status `s` is the first row,
      in database order, that has status `s` and that payload. */
  lemma {:induction false} FilterThenFirstMatch(db: Db, s: Status, payloadOf: Item -> Payload, p: Payload)
    ensures var r := FirstPayloadMatch(ItemsByStatus(db, s), payloadOf, p);
            r.Some? ==> exists k: nat :: FirstMatchAt(db, s, payloadOf, p, k) && db[k] == r.value
    decreases |db|
  {
    if |db| > 0 {
      var items := ItemsByStatus(db, s);
      var rest := ItemsByStatus(db[1..], s);
      if db[0].status == s && payloadOf(db[0]) == p {
        assert FirstMatchAt(db, s, payloadOf, p, 0);
      } else {
        FilterThenFirstMatch(db[1..], s, payloadOf, p);
        assert FirstPayloadMatch(items, payloadOf, p) == FirstPayloadMatch(rest, payloadOf, p) by {
          if db[0].status == s {
            assert items[0] == db[0] && items[1..] == rest;
          } else {
            assert items == rest;
          }
        }
        var r := FirstPayloadMatch(rest, payloadOf, p);
        if r.Some? {
          var k: nat :| FirstMatchAt(db[1..], s, payloadOf, p, k) && db[1..][k] == r.value;
          FirstMatchShift(db, s, payloadOf, p, k);
        }
      }
    }
  }

  // ---------------------------------------------------------------------------
  // Event processing, one event at a time
  // ---------------------------------------------------------------------------

  /** One event of `processHistoricalInitialVerificationSuccessfulEvents`:
      the first CommitmentWitnessed item whose simulated payload equals the
      validation data's payload becomes InitialVerificationTxConfirmed, with
      the event's transaction and completion block `event block +
      blockWaitPeriod`. No prover check is made. */
  function HistoricalInitialOne(db: Db, e: Event, validation: nat -> Result<Payload, Error>,
                                payloadOf: Item -> Payload, blockWaitPeriod: nat): (r: Option<DbCmd>)
    ensures r.Some? <==> exists x :: x in db && x.status == CommitmentWitnessed
                                      && payloadOf(x) == ValidationPayload(validation(e.id))
    ensures r.Some? ==> exists x :: x in db && x.status == CommitmentWitnessed && x.id == r.value.itemId
                                    && payloadOf(x) == ValidationPayload(validation(e.id))
    ensures r.Some? ==> r.value == Update(r.value.itemId, InitialVerificationTxConfirmed, Some(e.txHash),
                                          e.blockNumber + blockWaitPeriod)
    ensures r.Some? ==> exists k: nat :: FirstMatchAt(db, CommitmentWitnessed, payloadOf, ValidationPayload(validation(e.id)), k)
                                    && db[k].id == r.value.itemId
  {
    var p := ValidationPayload(validation(e.id));
    match FirstPayloadMatch(ItemsByStatus(db, CommitmentWitnessed), payloadOf, p)
    case None => None
    case Some(x) =>
      FilterThenFirstMatch(db, CommitmentWitnessed, payloadOf, p);
      Some(Update(x.id, InitialVerificationTxConfirmed, Some(e.txHash), e.blockNumber + blockWaitPeriod))
  }

  /** One event of `processInitialVerificationSuccessfulEvents`: only events
      from our prover, and only when the item recorded with the event's
      transaction is in InitialVerificationTxSent. */
  function LiveInitialOne(db: Db, e: Event, us: Address, blockWaitPeriod: nat): (r: Option<DbCmd>)
    ensures r.Some? <==> e.prover == us && ItemByTx(db, e.txHash, false).Some?
                         && ItemByTx(db, e.txHash, false).value.status == InitialVerificationTxSent
    ensures r.Some? ==> r.value == Update(ItemByTx(db, e.txHash, false).value.id, InitialVerificationTxConfirmed,
                                          None, e.blockNumber + blockWaitPeriod)
  {
    if e.prover != us then None
    else
      match ItemByTx(db, e.txHash, false)
      case None => None
      case Some(x) =>
        if x.status != InitialVerificationTxSent then None
        else Some(Update(x.id, InitialVerificationTxConfirmed, None, e.blockNumber + blockWaitPeriod))
  }

  /** One event of `processHistoricalFinalVerificationSuccessfulEvents`: the
      first InitialVerificationTxConfirmed item whose simulated payload
      matches is deleted. */
  function HistoricalFinalOne(db: Db, e: Event, validation: nat -> Result<Payload, Error>,
                              payloadOf: Item -> Payload): (r: Option<DbCmd>)
    ensures r.Some? <==> exists x :: x in db && x.status == InitialVerificationTxConfirmed
                                      && payloadOf(x) == ValidationPayload(validation(e.id))
    ensures r.Some? ==> r.value.Delete? && exists x :: x in db && x.status == InitialVerificationTxConfirmed
                                                        && x.id == r.value.itemId
                                                        && payloadOf(x) == ValidationPayload(validation(e.id))
    ensures r.Some? ==> exists k: nat :: FirstMatchAt(db, InitialVerificationTxConfirmed, payloadOf, ValidationPayload(validation(e.id)), k)
                                    && db[k].id == r.value.itemId
  {
    var p := ValidationPayload(validation(e.id));
    match FirstPayloadMatch(ItemsByStatus(db, InitialVerificationTxConfirmed), payloadOf, p)
    case None => None
    case Some(x) =>
      FilterThenFirstMatch(db, InitialVerificationTxConfirmed, payloadOf, p);
      Some(Delete(x.id))
  }

  /** One event of `processFinalVerificationSuccessfulEvents`: only events
      from our prover, and only when the item recorded with the event's final
      transaction is in CompleteVerificationTxSent. */
  function LiveFinalOne(db: Db, e: Event, us: Address): (r: Option<DbCmd>)
    ensures r.Some? <==> e.prover == us && ItemByTx(db, e.txHash, true).Some?
                         && ItemByTx(db, e.txHash, true).value.status == CompleteVerificationTxSent
    ensures r.Some? ==> r.value == Delete(ItemByTx(db, e.txHash, true).value.id)
  {
    if e.prover != us then None
    else
      match ItemByTx(db, e.txHash, true)
      case None => None
      case Some(x) => if x.status != CompleteVerificationTxSent then None else Some(Delete(x.id))
  }

  // ---------------------------------------------------------------------------
  // Event processing over a query result
  // ---------------------------------------------------------------------------

  /** The four event loops share one shape: every event contributes at most
      one command, in event order. */
  datatype Processor =
    | HistoricalInitial(validation: nat -> Result<Payload, Error>, payloadOf: Item -> Payload, blockWaitPeriod: nat)
    | LiveInitial(us: Address, blockWaitPeriod: nat)
    | HistoricalFinal(validation: nat -> Result<Payload, Error>, payloadOf: Item -> Payload)
    | LiveFinal(us: Address)

  function Step(p: Processor, db: Db, e: Event): Option<DbCmd> {
    match p
    case HistoricalInitial(v, f, w) => HistoricalInitialOne(db, e, v, f, w)
    case LiveInitial(us, w) => LiveInitialOne(db, e, us, w)
    case HistoricalFinal(v, f) => HistoricalFinalOne(db, e, v, f)
    case LiveFinal(us) => LiveFinalOne(db, e, us)
  }

  /** The loop over the queried events. Every lookup reads the database as it
      stood when processing began: the commands go to a separate writer. */
  function Process(p: Processor, db: Db, events: seq<Event>): (r: seq<DbCmd>)
    ensures |r| <= |events|
    ensures forall e :: e in events && Step(p, db, e).Some? ==> Step(p, db, e).value in r
    ensures forall c :: c in r ==> exists e :: e in events && Step(p, db, e) == Some(c)
  {
    if |events| == 0 then []
    else
      var here := match Step(p, db, events[0]) case Some(c) => [c] case None => [];
      here + Process(p, db, events[1..])
  }

  /** The commands one event contributes: its command, if any. */
  function StepCmds(p: Processor, db: Db, e: Event): seq<DbCmd> {
    if Step(p, db, e).Some? then [Step(p, db, e).value] else []
  }

  /** The loop unfolded once: the first event's command precedes the rest. */
  lemma ProcessCons(p: Processor, db: Db, events: seq<Event>)
    requires |events| > 0
    ensures Process(p, db, events) == StepCmds(p, db, events[0]) + Process(p, db, events[1..])
  {
  }

  /** A single event yields its own command, if any. */
  lemma ProcessOne(p: Processor, db: Db, e: Event)
    ensures Process(p, db, [e]) == StepCmds(p, db, e)
  {
    ProcessCons(p, db, [e]);
    assert [e][1..] == [];
  }

  /** The loop's output as a plain concatenation of per-event outputs. */
  function Flatten<X, Y>(f: X -> seq<Y>, xs: seq<X>): seq<Y>
    decreases |xs|
  {
    if |xs| == 0 then [] else f(xs[0]) + Flatten(f, xs[1..])
  }

  lemma {:induction false} FlattenAppend<X, Y>(f: X -> seq<Y>, a: seq<X>, b: seq<X>)
    ensures Flatten(f, a + b) == Flatten(f, a) + Flatten(f, b)
    decreases |a|
  {
    if |a| == 0 {
      assert a + b == b;
    } else {
      assert (a + b)[0] == a[0] && (a + b)[1..] == a[1..] + b;
      FlattenAppend(f, a[1..], b);
      assert f(a[0]) + (Flatten(f, a[1..]) + Flatten(f, b)) == (f(a[0]) + Flatten(f, a[1..])) + Flatten(f, b);
    }
  }

  function StepsOf(p: Processor, db: Db): Event -> seq<DbCmd> {
    e => StepCmds(p, db, e)
  }

  /** The loop emits each event's command in turn, nothing else. */
  lemma {:induction false} ProcessIsFlatten(p: Processor, db: Db, events: seq<Event>)
    ensures Process(p, db, events) == Flatten(StepsOf(p, db), events)
    decreases |events|
  {
    if |events| > 0 {
      ProcessCons(p, db, events);
      ProcessIsFlatten(p, db, events[1..]);
    }
  }

  /** Commands come out in event order: processing a concatenation of event
      lists is processing each in turn, against the same database. */
  lemma ProcessAppend(p: Processor, db: Db, a: seq<Event>, b: seq<Event>)
    ensures Process(p, db, a + b) == Process(p, db, a) + Process(p, db, b)
  {
    ProcessIsFlatten(p, db, a + b);
    ProcessIsFlatten(p, db, a);
    ProcessIsFlatten(p, db, b);
    FlattenAppend(StepsOf(p, db), a, b);
  }

  /** Command `c` moves a stored item forwards in the lifecycle: an update
      raises the item's status to InitialVerificationTxConfirmed, a delete
      removes an item that is InitialVerificationTxConfirmed or
      CompleteVerificationTxSent. */
  predicate Advances(db: Db, c: DbCmd) {
    exists x :: x in db && x.id == c.itemId && AdvancesItem(x, c)
  }

  predicate AdvancesItem(x: Item, c: DbCmd) {
    if c.Update? then Rank(x.status) < Rank(c.status) && c.status == InitialVerificationTxConfirmed
    else x.status == InitialVerificationTxConfirmed || x.status == CompleteVerificationTxSent
  }

  lemma HistoricalInitialAdvances(db: Db, e: Event, v: nat -> Result<Payload, Error>, f: Item -> Payload, w: nat)
    ensures HistoricalInitialOne(db, e, v, f, w).Some? ==> Advances(db, HistoricalInitialOne(db, e, v, f, w).value)
  {
    var r := HistoricalInitialOne(db, e, v, f, w);
    if r.Some? {
      var x :| x in db && x.status == CommitmentWitnessed && x.id == r.value.itemId
               && f(x) == ValidationPayload(v(e.id));
      assert r.value.Update? && r.value.status == InitialVerificationTxConfirmed;
      assert Rank(CommitmentWitnessed) < Rank(InitialVerificationTxConfirmed);
    }
  }

  lemma HistoricalFinalAdvances(db: Db, e: Event, v: nat -> Result<Payload, Error>, f: Item -> Payload)
    ensures HistoricalFinalOne(db, e, v, f).Some? ==> Advances(db, HistoricalFinalOne(db, e, v, f).value)
  {
    var r := HistoricalFinalOne(db, e, v, f);
    if r.Some? {
      var x :| x in db && x.status == InitialVerificationTxConfirmed && x.id == r.value.itemId
               && f(x) == ValidationPayload(v(e.id));
      assert AdvancesItem(x, r.value);
    }
  }

  lemma LiveInitialAdvances(db: Db, e: Event, us: Address, w: nat)
    ensures LiveInitialOne(db, e, us, w).Some? ==> Advances(db, LiveInitialOne(db, e, us, w).value)
  {
    var r := LiveInitialOne(db, e, us, w);
    if r.Some? {
      var x := ItemByTx(db, e.txHash, false).value;
      assert x in db && x.id == r.value.itemId && AdvancesItem(x, r.value);
    }
  }

  lemma LiveFinalAdvances(db: Db, e: Event, us: Address)
    ensures LiveFinalOne(db, e, us).Some? ==> Advances(db, LiveFinalOne(db, e, us).value)
  {
    var r := LiveFinalOne(db, e, us);
    if r.Some? {
      var x := ItemByTx(db, e.txHash, true).value;
      assert x in db && x.id == r.value.itemId && AdvancesItem(x, r.value);
    }
  }

  /** Whatever the processor, the command one event yields moves a stored
      item forwards in the lifecycle. */
  lemma StepAdvances(p: Processor, db: Db, e: Event)
    ensures Step(p, db, e).Some? ==> Advances(db, Step(p, db, e).value)
  {
    match p
    case HistoricalInitial(v, f, w) => HistoricalInitialAdvances(db, e, v, f, w);
    case LiveInitial(us, w) => LiveInitialAdvances(db, e, us, w);
    case HistoricalFinal(v, f) => HistoricalFinalAdvances(db, e, v, f);
    case LiveFinal(us) => LiveFinalAdvances(db, e, us);
  }

  /** Every command any processor emits moves a stored item forwards in the
      lifecycle. */
  lemma CommandsAdvanceLifecycle(p: Processor, db: Db, events: seq<Event>)
    ensures forall c :: c in Process(p, db, events) ==> Advances(db, c)
  {
    forall c | c in Process(p, db, events) ensures Advances(db, c) {
      var e :| e in events && Step(p, db, e) == Some(c);
      StepAdvances(p, db, e);
    }
  }

  /** Initial-event processing only ever updates; final-event processing
      only ever deletes. */
  lemma CommandKinds(p: Processor, db: Db, events: seq<Event>)
    ensures (p.HistoricalInitial? || p.LiveInitial?) ==> forall c :: c in Process(p, db, events) ==> c.Update?
    ensures (p.HistoricalFinal? || p.LiveFinal?) ==> forall c :: c in Process(p, db, events) ==> c.Delete?
  {
    forall c | c in Process(p, db, events)
      ensures (p.HistoricalInitial? || p.LiveInitial?) ==> c.Update?
      ensures (p.HistoricalFinal? || p.LiveFinal?) ==> c.Delete?
    {
      var e :| e in events && Step(p, db, e) == Some(c);
    }
  }

  // ---------------------------------------------------------------------------
  // forwardWitnessedBeefyCommitment
  // ---------------------------------------------------------------------------

  /** The copy of a confirmed item that is sent to the Ethereum writer once
      its completion block is final: status ReadyToComplete and the hash of
      the completion block as random seed. */
  function MarkReady(x: Item, blockHash: nat -> Hash): Item {
    x.(status := ReadyToComplete, randomSeed := blockHash(x.completeOnBlock))
  }

  function ReadyItems(items: seq<Item>, blockNumber: nat, descendantsUntilFinal: nat, blockHash: nat -> Hash)
    : (r: seq<Item>)
    ensures forall x :: x in items && x.completeOnBlock + descendantsUntilFinal <= blockNumber ==> MarkReady(x, blockHash) in r
    ensures forall m :: m in r ==> exists x :: x in items && x.completeOnBlock + descendantsUntilFinal <= blockNumber
                                              && m == MarkReady(x, blockHash)
  {
    if |items| == 0 then []
    else
      var x := items[0];
      (if x.completeOnBlock + descendantsUntilFinal <= blockNumber then [MarkReady(x, blockHash)] else [])
      + ReadyItems(items[1..], blockNumber, descendantsUntilFinal, blockHash)
  }

  /** `forwardWitnessedBeefyCommitment`: the items sent to the Ethereum
      writer on a new head. Every CommitmentWitnessed item is sent as it is;
      an InitialVerificationTxConfirmed item is sent as ReadyToComplete iff
      its completion block plus `descendantsUntilFinal` has been reached. The
      database itself is not written. */
  function Forward(db: Db, blockNumber: nat, descendantsUntilFinal: nat, blockHash: nat -> Hash): (r: seq<Item>)
    ensures forall x :: x in db && x.status == CommitmentWitnessed ==> x in r
    ensures forall x :: (x in db && x.status == InitialVerificationTxConfirmed
              && x.completeOnBlock + descendantsUntilFinal <= blockNumber) ==> MarkReady(x, blockHash) in r
    ensures forall m :: m in r ==>
              || (m in db && m.status == CommitmentWitnessed)
              || (exists x :: x in db && x.status == InitialVerificationTxConfirmed
                              && x.completeOnBlock + descendantsUntilFinal <= blockNumber
                              && m == MarkReady(x, blockHash))
  {
    ItemsByStatus(db, CommitmentWitnessed)
    + ReadyItems(ItemsByStatus(db, InitialVerificationTxConfirmed), blockNumber, descendantsUntilFinal, blockHash)
  }

  /** A confirmed item whose completion block is not yet final is not sent. */
  lemma NotReadyNotForwarded(db: Db, blockNumber: nat, descendantsUntilFinal: nat, blockHash: nat -> Hash, x: Item)
    requires x in db && x.status == InitialVerificationTxConfirmed
    requires blockNumber < x.completeOnBlock + descendantsUntilFinal
    requires forall y :: y in db && y.status == InitialVerificationTxConfirmed ==> y.id != x.id || y == x
    ensures forall m :: m in Forward(db, blockNumber, descendantsUntilFinal, blockHash) ==> m.id != x.id || m.status != ReadyToComplete
  {
  }

  // ---------------------------------------------------------------------------
  // The live loop and the historical sync
  // ---------------------------------------------------------------------------

  /** The two initial-event queries a head makes, before and after
      forwarding. */
  datatype Pass = BeforeForward | AfterForward

  /** The oracles of the live loop: the result of each initial-event query
      for one block (the two queries of a head are separate calls and may
      answer differently), our prover address, the contract's
      BLOCK_WAIT_PERIOD and block hashes. There is no final-event query: the
      per-head loop never processes final events. */
  datatype Live = Live(
    initialEvents: (nat, Pass) -> Result<seq<Event>, Error>,
    us: Address,
    blockWaitPeriod: nat,
    descendantsUntilFinal: nat,
    blockHash: nat -> Hash)

  /** What a stretch of processing emitted and the database after the
      writer applied the commands. */
  datatype Outputs = Outputs(commands: seq<DbCmd>, messages: seq<Item>, db: Db)

  /** One new head in `pollEventsAndHeaders`: initial-event processing,
      forwarding, initial-event processing again, each initial pass with its
      own query. Final events are never processed. The writer is taken to
      apply each batch of commands before the next call reads the database. */
  function HeadStep(live: Live, db: Db, blockNumber: nat): (r: Outputs)
    ensures forall c :: c in r.commands ==> c.Update? && c.status == InitialVerificationTxConfirmed
    ensures |r.db| == |db|
    ensures r.db == ApplyAll(db, r.commands)
  {
    var p := LiveInitial(live.us, live.blockWaitPeriod);
    var events1 := EventsOrNone(live.initialEvents(blockNumber, BeforeForward));
    var events2 := EventsOrNone(live.initialEvents(blockNumber, AfterForward));
    var first := Process(p, db, events1);
    var db1 := ApplyAll(db, first);
    var messages := Forward(db1, blockNumber, live.descendantsUntilFinal, live.blockHash);
    var second := Process(p, db1, events2);
    ConfirmationsOnly(live.us, live.blockWaitPeriod, db, events1);
    ConfirmationsOnly(live.us, live.blockWaitPeriod, db1, events2);
    UpdatesKeepShape(db, first);
    UpdatesKeepShape(db1, second);
    ApplyAllAppend(db, first, second);
    assert forall c :: c in first + second ==> c in first || c in second;
    Outputs(first + second, messages, ApplyAll(db1, second))
  }

  /** The first pass's commands come first, and the forwarded items are read
      after they are written. When the second query returns no event the
      first did not, the second pass adds nothing. */
  lemma HeadStepPasses(live: Live, db: Db, blockNumber: nat)
    ensures var r := HeadStep(live, db, blockNumber);
            var p := LiveInitial(live.us, live.blockWaitPeriod);
            var events1 := EventsOrNone(live.initialEvents(blockNumber, BeforeForward));
            var events2 := EventsOrNone(live.initialEvents(blockNumber, AfterForward));
            && Process(p, db, events1) <= r.commands
            && r.messages == Forward(ApplyAll(db, Process(p, db, events1)), blockNumber,
                                     live.descendantsUntilFinal, live.blockHash)
            && r.commands[|Process(p, db, events1)|..]
               == Process(p, ApplyAll(db, Process(p, db, events1)), events2)
            && ((forall e :: e in events2 ==> e in events1) ==> r.commands == Process(p, db, events1))
  {
    var p := LiveInitial(live.us, live.blockWaitPeriod);
    var events1 := EventsOrNone(live.initialEvents(blockNumber, BeforeForward));
    var events2 := EventsOrNone(live.initialEvents(blockNumber, AfterForward));
    var first := Process(p, db, events1);
    var db1 := ApplyAll(db, first);
    var second := Process(p, db1, events2);
    assert (first + second)[|first|..] == second;
    if forall e :: e in events2 ==> e in events1 {
      SecondInitialPassEmpty(live.us, live.blockWaitPeriod, db, events1, events2);
      assert first + second == first;
    }
  }

  /** `pollEventsAndHeaders` over a sequence of new heads. Because final
      events are never processed, the live loop never deletes an item. */
  function PollEventsAndHeaders(live: Live, db: Db, heads: seq<nat>): (r: Outputs)
    ensures forall c :: c in r.commands ==> c.Update?
    ensures |r.db| == |db|
    ensures r.db == ApplyAll(db, r.commands)
    ensures |heads| == 0 ==> r == Outputs([], [], db)
    ensures |heads| > 0 ==> && HeadStep(live, db, heads[0]).commands <= r.commands
                            && HeadStep(live, db, heads[0]).messages <= r.messages
    ensures |heads| == 1 ==> r == HeadStep(live, db, heads[0])
    decreases |heads|
  {
    if |heads| == 0 then Outputs([], [], db)
    else
      var step := HeadStep(live, db, heads[0]);
      var rest := PollEventsAndHeaders(live, step.db, heads[1..]);
      var commands := step.commands + rest.commands;
      assert forall c :: c in commands ==> c in step.commands || c in rest.commands;
      ApplyAllAppend(db, step.commands, rest.commands);
      assert |heads| == 1 ==> step.commands + [] == step.commands && step.messages + [] == step.messages;
      Outputs(commands, step.messages + rest.messages, rest.db)
  }

  /** The per-head loop with its step given as a parameter: each head's
      step starts from the database the previous one left. */
  function Chain(f: (Db, nat) -> Outputs, db: Db, heads: seq<nat>): Outputs
    decreases |heads|
  {
    if |heads| == 0 then Outputs([], [], db)
    else
      var step := f(db, heads[0]);
      var rest := Chain(f, step.db, heads[1..]);
      Outputs(step.commands + rest.commands, step.messages + rest.messages, rest.db)
  }

  lemma {:induction false} ChainAppend(f: (Db, nat) -> Outputs, db: Db, h1: seq<nat>, h2: seq<nat>)
    ensures var r1 := Chain(f, db, h1);
            var r2 := Chain(f, r1.db, h2);
            Chain(f, db, h1 + h2) == Outputs(r1.commands + r2.commands, r1.messages + r2.messages, r2.db)
    decreases |h1|
  {
    if |h1| == 0 {
      assert h1 + h2 == h2;
    } else {
      var step := f(db, h1[0]);
      assert (h1 + h2)[0] == h1[0] && (h1 + h2)[1..] == h1[1..] + h2;
      ChainAppend(f, step.db, h1[1..], h2);
      var r1 := Chain(f, step.db, h1[1..]);
      var r2 := Chain(f, r1.db, h2);
      assert step.commands + (r1.commands + r2.commands) == (step.commands + r1.commands) + r2.commands;
      assert step.messages + (r1.messages + r2.messages) == (step.messages + r1.messages) + r2.messages;
    }
  }

  function HeadStepOf(live: Live): (Db, nat) -> Outputs {
    (db: Db, n: nat) => HeadStep(live, db, n)
  }

  /** The per-head loop is the chain of head steps. */
  lemma {:induction false} PollIsChain(live: Live, db: Db, heads: seq<nat>)
    ensures PollEventsAndHeaders(live, db, heads) == Chain(HeadStepOf(live), db, heads)
    decreases |heads|
  {
    if |heads| > 0 {
      PollIsChain(live, HeadStep(live, db, heads[0]).db, heads[1..]);
    }
  }

  /** The loop over heads composes: running it over `h1 + h2` is running it
      over `h1`, then over `h2` from the database that left. */
  lemma PollHeadsAppend(live: Live, db: Db, h1: seq<nat>, h2: seq<nat>)
    ensures var r1 := PollEventsAndHeaders(live, db, h1);
            var r2 := PollEventsAndHeaders(live, r1.db, h2);
            PollEventsAndHeaders(live, db, h1 + h2)
            == Outputs(r1.commands + r2.commands, r1.messages + r2.messages, r2.db)
  {
    PollIsChain(live, db, h1 + h2);
    PollIsChain(live, db, h1);
    PollIsChain(live, PollEventsAndHeaders(live, db, h1).db, h2);
    ChainAppend(HeadStepOf(live), db, h1, h2);
  }

  /** Applying two batches of commands one after the other is applying
      their concatenation. */
  lemma {:induction false} ApplyAllAppend(db: Db, a: seq<DbCmd>, b: seq<DbCmd>)
    ensures ApplyAll(db, a + b) == ApplyAll(ApplyAll(db, a), b)
    decreases |a|
  {
    if |a| == 0 {
      assert a + b == b;
    } else {
      assert (a + b)[0] == a[0] && (a + b)[1..] == a[1..] + b;
      ApplyAllAppend(Apply(db, a[0]), a[1..], b);
    }
  }

  /** `pollHistoricEventsAndHeaders`: read the latest block number (a failure
      ends the sync with that error), then process the historical initial
      events and the historical final events of blocks `startBlock..latest`.
      The queries take the first and last block; a failed query is logged
      and processes no events. The final events are matched against the
      database after the initial commands were written. */
  function PollHistoric(
    db: Db,
    startBlock: nat,
    latest: Result<nat, Error>,
    initialQuery: (nat, nat) -> Result<seq<Event>, Error>,
    finalQuery: (nat, nat) -> Result<seq<Event>, Error>,
    validation: nat -> Result<Payload, Error>,
    payloadOf: Item -> Payload,
    blockWaitPeriod: nat
  ): (r: Result<Outputs, Error>)
    ensures latest.Err? <==> r.Err?
    ensures latest.Err? ==> r == Err(latest.error)
    ensures r.Ok? ==>
              var initial := Process(HistoricalInitial(validation, payloadOf, blockWaitPeriod), db,
                                     EventsOrNone(initialQuery(startBlock, latest.value)));
              && initial <= r.value.commands
              && r.value.commands[|initial|..]
                   == Process(HistoricalFinal(validation, payloadOf), ApplyAll(db, initial),
                              EventsOrNone(finalQuery(startBlock, latest.value)))
              && (forall c :: c in initial ==> c.Update? && c.status == InitialVerificationTxConfirmed && Advances(db, c))
              && (forall c :: c in r.value.commands[|initial|..] ==> c.Delete? && Advances(ApplyAll(db, initial), c))
    ensures r.Ok? ==> r.value.messages == [] && r.value.db == ApplyAll(db, r.value.commands)
  {
    match latest
    case Err(e) => Err(e)
    case Ok(last) =>
      var hi := HistoricalInitial(validation, payloadOf, blockWaitPeriod);
      var hf := HistoricalFinal(validation, payloadOf);
      var initial := Process(hi, db, EventsOrNone(initialQuery(startBlock, last)));
      var db1 := ApplyAll(db, initial);
      var final := Process(hf, db1, EventsOrNone(finalQuery(startBlock, last)));
      CommandKinds(hi, db, EventsOrNone(initialQuery(startBlock, last)));
      CommandKinds(hf, db1, EventsOrNone(finalQuery(startBlock, last)));
      CommandsAdvanceLifecycle(hi, db, EventsOrNone(initialQuery(startBlock, last)));
      CommandsAdvanceLifecycle(hf, db1, EventsOrNone(finalQuery(startBlock, last)));
      HistoricalInitialConfirms(validation, payloadOf, blockWaitPeriod, db, EventsOrNone(initialQuery(startBlock, last)));
      ApplyAllAppend(db, initial, final);
      assert (initial + final)[|initial|..] == final;
      Ok(Outputs(initial + final, [], ApplyAll(db1, final)))
  }

  /** Historical initial processing only confirms. */
  lemma HistoricalInitialConfirms(validation: nat -> Result<Payload, Error>, payloadOf: Item -> Payload,
                                  blockWaitPeriod: nat, db: Db, events: seq<Event>)
    ensures forall c :: c in Process(HistoricalInitial(validation, payloadOf, blockWaitPeriod), db, events) ==>
              c.Update? && c.status == InitialVerificationTxConfirmed
  {
    var p := HistoricalInitial(validation, payloadOf, blockWaitPeriod);
    forall c | c in Process(p, db, events) ensures c.Update? && c.status == InitialVerificationTxConfirmed {
      var e :| e in events && Step(p, db, e) == Some(c);
    }
  }

  // ---------------------------------------------------------------------------
  // Why the second initial pass of a head finds nothing
  // ---------------------------------------------------------------------------

  /** Applying confirmations keeps every row in place with its ids and
      transaction hashes; a row either keeps its status or becomes
      InitialVerificationTxConfirmed, and becomes it when it was targeted. */
  lemma {:induction false} UpdatesKeepShape(db: Db, cs: seq<DbCmd>)
    requires forall c :: c in cs ==> c.Update? && c.status == InitialVerificationTxConfirmed && c.initialTx.None?
    ensures |ApplyAll(db, cs)| == |db|
    ensures forall i :: 0 <= i < |db| ==>
              && ApplyAll(db, cs)[i].id == db[i].id
              && ApplyAll(db, cs)[i].initialTx == db[i].initialTx
              && ApplyAll(db, cs)[i].finalTx == db[i].finalTx
    ensures forall i :: 0 <= i < |db| ==>
              ApplyAll(db, cs)[i].status == db[i].status || ApplyAll(db, cs)[i].status == InitialVerificationTxConfirmed
    ensures forall i, c :: 0 <= i < |db| && c in cs && c.itemId == db[i].id ==>
              ApplyAll(db, cs)[i].status == InitialVerificationTxConfirmed
    decreases |cs|
  {
    if |cs| > 0 {
      var db1 := Apply(db, cs[0]);
      assert forall c :: c in cs[1..] ==> c in cs;
      UpdatesKeepShape(db1, cs[1..]);
      forall i, c | 0 <= i < |db| && c in cs && c.itemId == db[i].id
        ensures ApplyAll(db, cs)[i].status == InitialVerificationTxConfirmed
      {
        if c != cs[0] {
          assert c in cs[1..];
        }
      }
    }
  }

  /** The first-row lookup by transaction hash depends only on the hash
      columns. */
  lemma {:induction false} FirstIndexSameColumns(a: Db, b: Db, tx: Hash, final: bool)
    requires |a| == |b|
    requires forall i :: 0 <= i < |a| ==> TxOf(a[i], final) == TxOf(b[i], final)
    ensures FirstIndexByTx(a, tx, final) == FirstIndexByTx(b, tx, final)
    decreases |a|
  {
    if |a| > 0 && TxOf(a[0], final) != tx {
      FirstIndexSameColumns(a[1..], b[1..], tx, final);
    }
  }

  /** Live initial processing emits only confirmations that leave the
      initial transaction hash alone. */
  lemma ConfirmationsOnly(us: Address, blockWaitPeriod: nat, db: Db, events: seq<Event>)
    ensures forall c :: c in Process(LiveInitial(us, blockWaitPeriod), db, events) ==>
              c.Update? && c.status == InitialVerificationTxConfirmed && c.initialTx.None?
  {
    var p := LiveInitial(us, blockWaitPeriod);
    forall c | c in Process(p, db, events)
      ensures c.Update? && c.status == InitialVerificationTxConfirmed && c.initialTx.None?
    {
      var e :| e in events && Step(p, db, e) == Some(c);
    }
  }

  /** One event after the first pass: the row its transaction hash selects
      is the same row as before, and it is no longer InitialVerificationTxSent. */
  lemma SecondPassStepNone(us: Address, blockWaitPeriod: nat, db: Db, db1: Db, first: seq<DbCmd>, e: Event)
    requires LiveInitialOne(db, e, us, blockWaitPeriod).Some? ==> LiveInitialOne(db, e, us, blockWaitPeriod).value in first
    requires |db1| == |db|
    requires forall i :: 0 <= i < |db| ==> db1[i].initialTx == db[i].initialTx
    requires forall i :: 0 <= i < |db| ==> db1[i].status == db[i].status || db1[i].status == InitialVerificationTxConfirmed
    requires forall i, c :: 0 <= i < |db| && c in first && c.itemId == db[i].id ==> db1[i].status == InitialVerificationTxConfirmed
    ensures LiveInitialOne(db1, e, us, blockWaitPeriod).None?
  {
    forall i | 0 <= i < |db| ensures TxOf(db1[i], false) == TxOf(db[i], false) {
      assert db1[i].initialTx == db[i].initialTx;
    }
    FirstIndexSameColumns(db, db1, e.txHash, false);
    if e.prover == us {
      match FirstIndexByTx(db, e.txHash, false)
      case None =>
      case Some(k) =>
        assert ItemByTx(db1, e.txHash, false) == Some(db1[k]);
        assert ItemByTx(db, e.txHash, false) == Some(db[k]);
        if db[k].status == InitialVerificationTxSent {
          var c := LiveInitialOne(db, e, us, blockWaitPeriod).value;
          assert c in first && c.itemId == db[k].id;
          assert db1[k].status == InitialVerificationTxConfirmed;
        } else {
          assert db1[k].status == db[k].status || db1[k].status == InitialVerificationTxConfirmed;
        }
    }
  }

  /** Once the first pass's confirmations are written, a second pass over
      events the first pass also saw emits nothing: every item it could
      confirm is already confirmed. */
  lemma SecondInitialPassEmpty(us: Address, blockWaitPeriod: nat, db: Db, events1: seq<Event>, events2: seq<Event>)
    requires forall e :: e in events2 ==> e in events1
    ensures Process(LiveInitial(us, blockWaitPeriod),
                    ApplyAll(db, Process(LiveInitial(us, blockWaitPeriod), db, events1)), events2) == []
  {
    var p := LiveInitial(us, blockWaitPeriod);
    var first := Process(p, db, events1);
    var db1 := ApplyAll(db, first);
    ConfirmationsOnly(us, blockWaitPeriod, db, events1);
    UpdatesKeepShape(db, first);
    forall e | e in events2 ensures Step(p, db1, e).None? {
      assert Step(p, db, e) == LiveInitialOne(db, e, us, blockWaitPeriod);
      SecondPassStepNone(us, blockWaitPeriod, db, db1, first, e);
    }
    NoStepNoCommands(p, db1, events2);
  }

  lemma {:induction false} NoStepNoCommands(p: Processor, db: Db, events: seq<Event>)
    requires forall e :: e in events ==> Step(p, db, e).None?
    ensures Process(p, db, events) == []
  {
    if |events| > 0 {
      assert events[0] in events;
      assert forall e :: e in events[1..] ==> e in events;
      NoStepNoCommands(p, db, events[1..]);
    }
  }
}

=== FILE: catchup.dfy ===
/** Catch-up of the parachain commitment relayer: after a restart it compares
    the channel nonces on both sides of the bridge and, when they differ,
    walks the parachain backwards to collect every commitment whose messages
    have not reached Ethereum yet, then relays them oldest first. Contract
    calls, storage reads, headers and message fetches are oracles; relaying a
    digest item is an oracle that reports an optional error. */
module Catchup {
  import opened Wrappers

  datatype Error = Rpc(code: nat)

  /** The channel a commitment belongs to (a struct of two flags in Go). */
  datatype ChannelId = ChannelId(isBasic: bool, isIncentivized: bool)

  const BasicId := ChannelId(true, false)
  const IncentivizedId := ChannelId(false, true)

  /** The auxiliary digest item of a parachain header. */
  datatype AuxDigestItem = AuxDigestItem(isCommitment: bool, channel: ChannelId, hash: seq<bv8>)

  datatype Message = Message(nonce: nat, payload: seq<bv8>)

  /** A commitment found by the backward search, with the block it sits in. */
  datatype Lost = Lost(block: nat, item: AuxDigestItem)

  /** The parachain RPCs of the search: the auxiliary digest item of a block
      (`None` when the header has none), and the messages of a commitment. */
  datatype Parachain = Parachain(
    digestItem: nat -> Result<Option<AuxDigestItem>, Error>,
    messages: AuxDigestItem -> Result<seq<Message>, Error>)

  /** The four nonce reads, in the order the Go code performs them: the
      inbound nonces of the two Ethereum channel contracts and the outbound
      nonces in parachain storage (`None` when the storage item is absent). */
  datatype NonceReads = NonceReads(
    ethBasic: Result<nat, Error>,
    ethIncentivized: Result<nat, Error>,
    paraBasic: Result<Option<nat>, Error>,
    paraIncentivized: Result<Option<nat>, Error>)

  datatype Nonces = Nonces(ethBasic: nat, ethIncentivized: nat, paraBasic: nat, paraIncentivized: nat)

  // ---------------------------------------------------------------------------
  // Nonces and the early exit
  // ---------------------------------------------------------------------------

  /** The parachain nonces as catchup.go:65-85 computes them: an absent
      storage item reads as 0, except that an absent INCENTIVIZED item resets
      the BASIC nonce (and leaves the incentivized one at its zero value). */
  function ParaNoncesAsWritten(basic: Option<nat>, incentivized: Option<nat>): (r: (nat, nat))
    ensures incentivized.Some? ==> r == (basic.GetOr(0), incentivized.value)
    ensures incentivized.None? ==> r == (0, 0)
  {
    var b := basic.GetOr(0);
    var i := incentivized.GetOr(0);
    if incentivized.None? then (0, i) else (b, i)
  }

  /** The parachain nonces as intended: each absent storage item reads as 0,
      independently of the other. */
  function ParaNonces(basic: Option<nat>, incentivized: Option<nat>): (r: (nat, nat))
    ensures basic.Some? ==> r.0 == basic.value
    ensures incentivized.Some? ==> r.1 == incentivized.value
    ensures basic.None? ==> r.0 == 0
    ensures incentivized.None? ==> r.1 == 0
  {
    (basic.GetOr(0), incentivized.GetOr(0))
  }

  /** The two definitions differ exactly when the incentivized item is absent
      while the basic nonce is not zero. */
  lemma ParaNoncesDiffer(basic: Option<nat>, incentivized: Option<nat>)
    ensures ParaNoncesAsWritten(basic, incentivized) != ParaNonces(basic, incentivized)
            <==> incentivized.None? && basic.GetOr(0) != 0
  {
  }

  /** Reads the four nonces, stopping at the first failing read, and derives
      the parachain nonces as catchup.go:65-85 does. */
  function ReadNonces(observed: NonceReads): (r: Result<Nonces, Error>)
    ensures r.Ok? <==> observed.ethBasic.Ok? && observed.ethIncentivized.Ok? && observed.paraBasic.Ok? && observed.paraIncentivized.Ok?
    ensures r.Err? ==> r.error == (if observed.ethBasic.Err? then observed.ethBasic.error
                                   else if observed.ethIncentivized.Err? then observed.ethIncentivized.error
                                   else if observed.paraBasic.Err? then observed.paraBasic.error
                                   else observed.paraIncentivized.error)
    ensures r.Ok? ==> && r.value.ethBasic == observed.ethBasic.value
                      && r.value.ethIncentivized == observed.ethIncentivized.value
                      && (r.value.paraBasic, r.value.paraIncentivized)
                         == ParaNoncesAsWritten(observed.paraBasic.value, observed.paraIncentivized.value)
  {
    var ethBasic :- observed.ethBasic;
    var ethIncentivized :- observed.ethIncentivized;
    var paraBasic :- observed.paraBasic;
    var paraIncentivized :- observed.paraIncentivized;
    var (b, i) := ParaNoncesAsWritten(paraBasic, paraIncentivized);
    Ok(Nonces(ethBasic, ethIncentivized, b, i))
  }

  /** The same reads with the parachain nonces as intended. */
  function ReadNoncesIntended(observed: NonceReads): (r: Result<Nonces, Error>)
    ensures r.Ok? <==> observed.ethBasic.Ok? && observed.ethIncentivized.Ok? && observed.paraBasic.Ok? && observed.paraIncentivized.Ok?
    ensures r.Ok? ==> && r.value.ethBasic == observed.ethBasic.value
                      && r.value.ethIncentivized == observed.ethIncentivized.value
                      && (r.value.paraBasic, r.value.paraIncentivized)
                         == ParaNonces(observed.paraBasic.value, observed.paraIncentivized.value)
  {
    var n :- ReadNonces(observed);
    var (b, i) := ParaNonces(observed.paraBasic.value, observed.paraIncentivized.value);
    Ok(n.(paraBasic := b, paraIncentivized := i))
  }

  /** The two reads fail alike, agree on every nonce but the parachain basic
      one, and disagree on that one exactly when the incentivized storage
      item is absent while the basic nonce is not zero. */
  lemma ReadNoncesDiffer(observed: NonceReads)
    ensures ReadNonces(observed).Err? <==> ReadNoncesIntended(observed).Err?
    ensures ReadNonces(observed).Err? ==> ReadNoncesIntended(observed) == ReadNonces(observed)
    ensures ReadNonces(observed).Ok? ==>
              var w := ReadNonces(observed).value;
              var n := ReadNoncesIntended(observed).value;
              && w.(paraBasic := n.paraBasic) == n
              && (w.paraBasic != n.paraBasic
                  <==> observed.paraIncentivized.value.None? && observed.paraBasic.value.GetOr(0) != 0)
  {
    if ReadNonces(observed).Ok? {
      ParaNoncesDiffer(observed.paraBasic.value, observed.paraIncentivized.value);
    }
  }

  /** The search is skipped only when BOTH channels agree on both sides. */
  predicate InSync(n: Nonces) {
    n.ethBasic == n.paraBasic && n.ethIncentivized == n.paraIncentivized
  }

  /** With the basic nonce at 5 on both sides, no incentivized messages
      delivered and the incentivized storage item absent, the channels are in
      sync; the written code reads the basic nonce as 0 and starts a search. */
  lemma ParaNoncesCounterexample()
    ensures var observed := NonceReads(Ok(5), Ok(0), Ok(Some(5)), Ok(None));
            && ReadNonces(observed).Ok? && !InSync(ReadNonces(observed).value)
            && ReadNoncesIntended(observed).Ok? && InSync(ReadNoncesIntended(observed).value)
  {
    var observed := NonceReads(Ok(5), Ok(0), Ok(Some(5)), Ok(None));
    assert ReadNonces(observed) == Ok(Nonces(5, 0, 0, 0));
  }

  // ---------------------------------------------------------------------------
  // checkIfDigestItemContainsNonce
  // ---------------------------------------------------------------------------

  /** Whether some message carries a nonce at or below `nonceToFind`, i.e. the
      commitment holds a message that was already delivered. */
  function ContainsNonce(messages: seq<Message>, nonceToFind: nat): (r: bool)
    ensures r <==> exists i :: 0 <= i < |messages| && messages[i].nonce <= nonceToFind
  {
    if |messages| == 0 then false
    else if messages[0].nonce <= nonceToFind then true
    else
      assert forall i :: 1 <= i < |messages| ==> messages[i] == messages[1..][i - 1];
      ContainsNonce(messages[1..], nonceToFind)
  }

  /** `checkIfDigestItemContainsNonce`: fetches the commitment's messages. */
  function CheckIfDigestItemContainsNonce(chain: Parachain, item: AuxDigestItem, nonceToFind: nat)
    : (r: Result<bool, Error>)
    ensures r.Ok? <==> chain.messages(item).Ok?
    ensures r.Ok? ==> (r.value <==> exists m :: m in chain.messages(item).value && m.nonce <= nonceToFind)
  {
    var messages :- chain.messages(item);
    var found := ContainsNonce(messages, nonceToFind);
    assert found ==> exists m :: m in messages && m.nonce <= nonceToFind;
    Ok(found)
  }

  // ---------------------------------------------------------------------------
  // searchForLostCommitments
  // ---------------------------------------------------------------------------

  /** The nonce to find for a commitment's channel. */
  function TargetFor(item: AuxDigestItem, basicNonceToFind: nat, incentivizedNonceToFind: nat): nat {
    if item.channel == BasicId then basicNonceToFind else incentivizedNonceToFind
  }

  /** A lost commitment: a commitment of one of the two channels sitting in
      its block, none of whose messages has reached Ethereum. */
  predicate IsLost(chain: Parachain, l: Lost, basicNonceToFind: nat, incentivizedNonceToFind: nat) {
    && chain.digestItem(l.block) == Ok(Some(l.item))
    && l.item.isCommitment
    && (l.item.channel == BasicId || l.item.channel == IncentivizedId)
    && CheckIfDigestItemContainsNonce(chain, l.item, TargetFor(l.item, basicNonceToFind, incentivizedNonceToFind)) == Ok(false)
  }

  predicate StrictlyDescending(ls: seq<Lost>) {
    forall i, j :: 0 <= i < j < |ls| ==> ls[i].block > ls[j].block
  }

  predicate StrictlyAscending(ls: seq<Lost>) {
    forall i, j :: 0 <= i < j < |ls| ==> ls[i].block < ls[j].block
  }

  /** The backward loop of `searchForLostCommitments`. `current` is the loop's
      `currentBlockNumber` before the decrement: blocks `current - 1` down to 0
      are examined, block 0 included, until the nonces of both channels have
      been found. A commitment containing the nonce to find marks its channel
      found and is not collected. */
  function Search(chain: Parachain, current: nat, basicNonceToFind: nat, incentivizedNonceToFind: nat,
                  basicFound: bool, incentivizedFound: bool): (r: Result<seq<Lost>, Error>)
    ensures basicFound && incentivizedFound ==> r == Ok([])
    ensures r.Ok? ==> forall l :: l in r.value ==> l.block < current
    ensures r.Ok? ==> StrictlyDescending(r.value)
    ensures r.Ok? ==> forall l :: l in r.value ==> IsLost(chain, l, basicNonceToFind, incentivizedNonceToFind)
    ensures r.Ok? ==> forall l :: l in r.value ==>
              (l.item.channel == BasicId ==> !basicFound) && (l.item.channel == IncentivizedId ==> !incentivizedFound)
    decreases current
  {
    if (basicFound && incentivizedFound) || current == 0 then Ok([])
    else
      var block := current - 1;
      var digestItem :- chain.digestItem(block);
      if digestItem.Some? && digestItem.value.isCommitment then
        var item := digestItem.value;
        if item.channel == BasicId && !basicFound then
          var isRelayed :- CheckIfDigestItemContainsNonce(chain, item, basicNonceToFind);
          if isRelayed then
            Search(chain, block, basicNonceToFind, incentivizedNonceToFind, true, incentivizedFound)
          else
            var rest :- Search(chain, block, basicNonceToFind, incentivizedNonceToFind, basicFound, incentivizedFound);
            Ok([Lost(block, item)] + rest)
        else if item.channel == IncentivizedId && !incentivizedFound then
          var isRelayed :- CheckIfDigestItemContainsNonce(chain, item, incentivizedNonceToFind);
          if isRelayed then
            Search(chain, block, basicNonceToFind, incentivizedNonceToFind, basicFound, true)
          else
            var rest :- Search(chain, block, basicNonceToFind, incentivizedNonceToFind, basicFound, incentivizedFound);
            Ok([Lost(block, item)] + rest)
        else
          Search(chain, block, basicNonceToFind, incentivizedNonceToFind, basicFound, incentivizedFound)
      else
        Search(chain, block, basicNonceToFind, incentivizedNonceToFind, basicFound, incentivizedFound)
  }

  /** An independent description of what the search collects when no block
      below `current` holds a delivered message: every commitment of either
      channel, newest first. */
  function AllCommitments(chain: Parachain, current: nat): (r: seq<Lost>)
    requires forall b :: 0 <= b < current ==> chain.digestItem(b).Ok?
    ensures forall l :: l in r ==> l.block < current && chain.digestItem(l.block) == Ok(Some(l.item))
    decreases current
  {
    if current == 0 then []
    else
      var d := chain.digestItem(current - 1).value;
      var here := if d.Some? && d.value.isCommitment && (d.value.channel == BasicId || d.value.channel == IncentivizedId)
                  then [Lost(current - 1, d.value)] else [];
      here + AllCommitments(chain, current - 1)
  }

  /** No block below `current` holds a commitment that contains the nonce to
      find of its channel, and every read succeeds. */
  predicate NothingRelayedBelow(chain: Parachain, current: nat, basicNonceToFind: nat, incentivizedNonceToFind: nat) {
    forall b :: 0 <= b < current ==>
      && chain.digestItem(b).Ok?
      && (chain.digestItem(b).value.Some? && chain.digestItem(b).value.value.isCommitment
          && (chain.digestItem(b).value.value.channel == BasicId || chain.digestItem(b).value.value.channel == IncentivizedId)
          ==> var item := chain.digestItem(b).value.value;
              CheckIfDigestItemContainsNonce(chain, item, TargetFor(item, basicNonceToFind, incentivizedNonceToFind)) == Ok(false))
  }

  /** One step of the search with neither nonce found yet, at a block whose
      read succeeds and whose commitment, if any, does not hold its channel's
      nonce: the block's commitment is collected and the search moves on. */
  lemma SearchStepCollects(chain: Parachain, current: nat, basicNonceToFind: nat, incentivizedNonceToFind: nat)
    requires current > 0
    requires NothingRelayedBelow(chain, current, basicNonceToFind, incentivizedNonceToFind)
    ensures var d := chain.digestItem(current - 1).value;
            var here := if d.Some? && d.value.isCommitment && (d.value.channel == BasicId || d.value.channel == IncentivizedId)
                        then [Lost(current - 1, d.value)] else [];
            var rest := Search(chain, current - 1, basicNonceToFind, incentivizedNonceToFind, false, false);
            Search(chain, current, basicNonceToFind, incentivizedNonceToFind, false, false)
            == if rest.Ok? then Ok(here + rest.value) else rest
  {
    var b := current - 1;
    assert chain.digestItem(b).Ok?;
    var d := chain.digestItem(b).value;
    if d.Some? && d.value.isCommitment && (d.value.channel == BasicId || d.value.channel == IncentivizedId) {
      var item := d.value;
      assert CheckIfDigestItemContainsNonce(chain, item, TargetFor(item, basicNonceToFind, incentivizedNonceToFind)) == Ok(false);
    } else {
      var rest := Search(chain, b, basicNonceToFind, incentivizedNonceToFind, false, false);
      assert Search(chain, current, basicNonceToFind, incentivizedNonceToFind, false, false) == rest;
      if rest.Ok? {
        assert [] + rest.value == rest.value;
      }
    }
  }

  /** When no nonce is ever found, the search runs down to block 0 and
      collects every commitment of both channels. */
  lemma {:induction false} SearchCollectsAll(chain: Parachain, current: nat, basicNonceToFind: nat, incentivizedNonceToFind: nat)
    requires NothingRelayedBelow(chain, current, basicNonceToFind, incentivizedNonceToFind)
    ensures Search(chain, current, basicNonceToFind, incentivizedNonceToFind, false, false)
            == Ok(AllCommitments(chain, current))
    decreases current
  {
    if current > 0 {
      assert NothingRelayedBelow(chain, current - 1, basicNonceToFind, incentivizedNonceToFind);
      SearchCollectsAll(chain, current - 1, basicNonceToFind, incentivizedNonceToFind);
      SearchStepCollects(chain, current, basicNonceToFind, incentivizedNonceToFind);
    }
  }

  /** The search stops at the block where the second nonce is found: a block
      holding the missing channel's delivered nonce ends the search, and
      nothing below it is read. */
  lemma SearchStopsWhenBothFound(chain: Parachain, current: nat, basicNonceToFind: nat, incentivizedNonceToFind: nat)
    requires current > 0
    requires chain.digestItem(current - 1).Ok? && chain.digestItem(current - 1).value.Some?
    requires var item := chain.digestItem(current - 1).value.value;
             item.isCommitment && item.channel == IncentivizedId
             && CheckIfDigestItemContainsNonce(chain, item, incentivizedNonceToFind) == Ok(true)
    ensures Search(chain, current, basicNonceToFind, incentivizedNonceToFind, true, false) == Ok([])
  {
  }

  // ---------------------------------------------------------------------------
  // What the search collects, described block by block
  // ---------------------------------------------------------------------------

  /** Block `k` holds a commitment of channel `ch` that contains `nonce`. */
  predicate IsHit(chain: Parachain, k: nat, ch: ChannelId, nonce: nat) {
    && chain.digestItem(k).Ok? && chain.digestItem(k).value.Some?
    && var item := chain.digestItem(k).value.value;
       && item.isCommitment && item.channel == ch
       && CheckIfDigestItemContainsNonce(chain, item, nonce) == Ok(true)
  }

  /** The newest block below `current` that holds a commitment of channel
      `ch` containing `nonce`. */
  function FoundAt(chain: Parachain, current: nat, ch: ChannelId, nonce: nat): (r: Option<nat>)
    ensures r.Some? ==> && r.value < current && IsHit(chain, r.value, ch, nonce)
                        && forall k :: r.value < k < current ==> !IsHit(chain, k, ch, nonce)
    ensures r.None? ==> forall k :: 0 <= k < current ==> !IsHit(chain, k, ch, nonce)
    decreases current
  {
    if current == 0 then None
    else if IsHit(chain, current - 1, ch, nonce) then Some(current - 1)
    else FoundAt(chain, current - 1, ch, nonce)
  }

  /** The block at which the search stops looking at a channel: `current`
      itself when the channel is already found, otherwise the newest block
      delivering its nonce (`None`: no such block, it is looked at down to
      block 0). */
  function Threshold(chain: Parachain, current: nat, found: bool, ch: ChannelId, nonce: nat): (r: Option<nat>)
    ensures r.Some? ==> r.value <= current
  {
    if found then Some(current) else FoundAt(chain, current, ch, nonce)
  }

  /** Block `k` lies strictly above threshold `t`. */
  predicate Above(k: nat, t: Option<nat>) {
    t.None? || k > t.value
  }

  /** Block `k` is at or below where the channel is found, or it never is. */
  predicate Reached(k: nat, t: Option<nat>) {
    t.None? || t.value <= k
  }

  function ChannelThreshold(item: AuxDigestItem, basic: Option<nat>, incentivized: Option<nat>): Option<nat> {
    if item.channel == BasicId then basic else incentivized
  }

  /** The commitment of one of the two channels in block `k`; a failed read
      counts as none. */
  function CommitmentAt(chain: Parachain, k: nat): (r: Option<AuxDigestItem>)
    ensures r.Some? <==> && chain.digestItem(k).Ok? && chain.digestItem(k).value.Some?
                         && chain.digestItem(k).value.value.isCommitment
                         && (chain.digestItem(k).value.value.channel == BasicId
                             || chain.digestItem(k).value.value.channel == IncentivizedId)
    ensures r.Some? ==> chain.digestItem(k) == Ok(Some(r.value))
  {
    match chain.digestItem(k)
    case Ok(Some(item)) =>
      if item.isCommitment && (item.channel == BasicId || item.channel == IncentivizedId) then Some(item) else None
    case _ => None
  }

  function Here(chain: Parachain, k: nat): (r: seq<Lost>)
    ensures |r| <= 1
    ensures forall l :: l in r <==> l.block == k && CommitmentAt(chain, k) == Some(l.item)
  {
    match CommitmentAt(chain, k)
    case Some(item) => [Lost(k, item)]
    case None => []
  }

  /** Every commitment of the two channels below `current`, newest first. */
  function CommitmentsBelow(chain: Parachain, current: nat): (r: seq<Lost>)
    ensures forall l :: l in r <==> l.block < current && CommitmentAt(chain, l.block) == Some(l.item)
    decreases current
  {
    if current == 0 then [] else Here(chain, current - 1) + CommitmentsBelow(chain, current - 1)
  }

  /** The commitments lying above their channel's threshold, in order. */
  function Unfound(ls: seq<Lost>, basic: Option<nat>, incentivized: Option<nat>): (r: seq<Lost>)
    ensures forall l :: l in r <==> l in ls && Above(l.block, ChannelThreshold(l.item, basic, incentivized))
  {
    if |ls| == 0 then []
    else
      (if Above(ls[0].block, ChannelThreshold(ls[0].item, basic, incentivized)) then [ls[0]] else [])
      + Unfound(ls[1..], basic, incentivized)
  }

  /** What the search should return: the commitments of each channel newer
      than the block that delivers that channel's nonce. */
  function Expected(chain: Parachain, current: nat, basicNonceToFind: nat, incentivizedNonceToFind: nat,
                    basicFound: bool, incentivizedFound: bool): (r: seq<Lost>)
    ensures forall l :: l in r <==>
              && l.block < current && CommitmentAt(chain, l.block) == Some(l.item)
              && Above(l.block, ChannelThreshold(l.item,
                                                 Threshold(chain, current, basicFound, BasicId, basicNonceToFind),
                                                 Threshold(chain, current, incentivizedFound, IncentivizedId, incentivizedNonceToFind)))
  {
    Unfound(CommitmentsBelow(chain, current),
            Threshold(chain, current, basicFound, BasicId, basicNonceToFind),
            Threshold(chain, current, incentivizedFound, IncentivizedId, incentivizedNonceToFind))
  }

  /** The reads the search makes succeed: the digest item of every block it
      reaches (until both channels are found), and the messages of every
      commitment it checks (those at or above their channel's threshold). */
  predicate ReadsSucceed(chain: Parachain, current: nat, basicNonceToFind: nat, incentivizedNonceToFind: nat,
                         basicFound: bool, incentivizedFound: bool) {
    ReadsSucceedBelow(chain, current,
                      Threshold(chain, current, basicFound, BasicId, basicNonceToFind),
                      Threshold(chain, current, incentivizedFound, IncentivizedId, incentivizedNonceToFind))
  }

  predicate ReadsSucceedBelow(chain: Parachain, current: nat, tb: Option<nat>, ti: Option<nat>) {
    forall k :: 0 <= k < current && (Reached(k, tb) || Reached(k, ti)) ==> ReadsAt(chain, k, tb, ti)
  }

  /** The reads of block `k`: its digest item, and the messages of its
      commitment when the channel's nonce is not found above it. */
  predicate ReadsAt(chain: Parachain, k: nat, tb: Option<nat>, ti: Option<nat>) {
    && chain.digestItem(k).Ok?
    && (CommitmentAt(chain, k).Some? && Reached(k, ChannelThreshold(CommitmentAt(chain, k).value, tb, ti))
        ==> chain.messages(CommitmentAt(chain, k).value).Ok?)
  }

  /** Two thresholds that are equal, or both at or above `bound`, classify
      every block below `bound` alike. */
  predicate AgreeBelow(t: Option<nat>, u: Option<nat>, bound: nat) {
    t == u || (t.Some? && u.Some? && t.value >= bound && u.value >= bound)
  }

  /** Stepping the search from `current` to `current - 1` keeps each
      channel's threshold as far as the blocks below are concerned. */
  lemma ThresholdStep(chain: Parachain, current: nat, found: bool, ch: ChannelId, nonce: nat)
    requires current > 0
    ensures AgreeBelow(Threshold(chain, current, found, ch, nonce),
                       Threshold(chain, current - 1, found || IsHit(chain, current - 1, ch, nonce), ch, nonce),
                       current - 1)
  {
  }

  /** Where the current block stands relative to a channel's threshold. */
  lemma ThresholdHere(chain: Parachain, current: nat, found: bool, ch: ChannelId, nonce: nat)
    requires current > 0
    ensures !found ==> Reached(current - 1, Threshold(chain, current, found, ch, nonce))
    ensures !found && IsHit(chain, current - 1, ch, nonce) ==> !Above(current - 1, Threshold(chain, current, found, ch, nonce))
    ensures !IsHit(chain, current - 1, ch, nonce) && !found ==> Above(current - 1, Threshold(chain, current, found, ch, nonce))
  {
  }

  lemma {:induction false} UnfoundAgree(ls: seq<Lost>, tb: Option<nat>, ti: Option<nat>, ub: Option<nat>, ui: Option<nat>, bound: nat)
    requires forall j :: 0 <= j < |ls| ==> ls[j].block < bound
    requires AgreeBelow(tb, ub, bound) && AgreeBelow(ti, ui, bound)
    ensures Unfound(ls, tb, ti) == Unfound(ls, ub, ui)
    decreases |ls|
  {
    if |ls| > 0 {
      assert forall j :: 0 <= j < |ls[1..]| ==> ls[1..][j] == ls[j + 1];
      UnfoundAgree(ls[1..], tb, ti, ub, ui, bound);
    }
  }

  lemma UnfoundAppend(here: seq<Lost>, rest: seq<Lost>, tb: Option<nat>, ti: Option<nat>)
    requires |here| <= 1
    ensures Unfound(here + rest, tb, ti) == Unfound(here, tb, ti) + Unfound(rest, tb, ti)
  {
    if |here| == 1 {
      assert (here + rest)[0] == here[0] && (here + rest)[1..] == rest;
      assert Unfound(here, tb, ti) == (if Above(here[0].block, ChannelThreshold(here[0].item, tb, ti)) then [here[0]] else []);
    } else {
      assert here + rest == rest;
    }
  }

  /** The reference description, one block at a time. */
  lemma ExpectedStep(chain: Parachain, current: nat, b: nat, i: nat, bf: bool, inf: bool)
    requires current > 0
    ensures var k := current - 1;
            Expected(chain, current, b, i, bf, inf)
            == Unfound(Here(chain, k), Threshold(chain, current, bf, BasicId, b),
                       Threshold(chain, current, inf, IncentivizedId, i))
               + Expected(chain, k, b, i, bf || IsHit(chain, k, BasicId, b), inf || IsHit(chain, k, IncentivizedId, i))
  {
    var k := current - 1;
    var tb := Threshold(chain, current, bf, BasicId, b);
    var ti := Threshold(chain, current, inf, IncentivizedId, i);
    assert CommitmentsBelow(chain, current) == Here(chain, k) + CommitmentsBelow(chain, k);
    assert Expected(chain, current, b, i, bf, inf) == Unfound(CommitmentsBelow(chain, current), tb, ti);
    UnfoundAppend(Here(chain, k), CommitmentsBelow(chain, k), tb, ti);
    ExpectedRest(chain, current, b, i, bf, inf);
  }

  /** Below the current block, the thresholds before and after the step
      select the same commitments. */
  lemma ExpectedRest(chain: Parachain, current: nat, b: nat, i: nat, bf: bool, inf: bool)
    requires current > 0
    ensures var k := current - 1;
            Unfound(CommitmentsBelow(chain, k), Threshold(chain, current, bf, BasicId, b),
                    Threshold(chain, current, inf, IncentivizedId, i))
            == Expected(chain, k, b, i, bf || IsHit(chain, k, BasicId, b), inf || IsHit(chain, k, IncentivizedId, i))
  {
    var k := current - 1;
    var rest := CommitmentsBelow(chain, k);
    var tb, ti := Threshold(chain, current, bf, BasicId, b), Threshold(chain, current, inf, IncentivizedId, i);
    var ub := Threshold(chain, k, bf || IsHit(chain, k, BasicId, b), BasicId, b);
    var ui := Threshold(chain, k, inf || IsHit(chain, k, IncentivizedId, i), IncentivizedId, i);
    ThresholdStep(chain, current, bf, BasicId, b);
    ThresholdStep(chain, current, inf, IncentivizedId, i);
    CommitmentsBelowBound(chain, k);
    UnfoundAgree(rest, tb, ti, ub, ui, k);
  }

  lemma CommitmentsBelowBound(chain: Parachain, current: nat)
    ensures forall j :: 0 <= j < |CommitmentsBelow(chain, current)| ==> CommitmentsBelow(chain, current)[j].block < current
  {
    var rest := CommitmentsBelow(chain, current);
    forall j | 0 <= j < |rest| ensures rest[j].block < current {
      assert rest[j] in rest;
    }
  }

  /** No commitment lies above thresholds at or above every block. */
  lemma {:induction false} UnfoundNone(ls: seq<Lost>, tb: Option<nat>, ti: Option<nat>, bound: nat)
    requires forall j :: 0 <= j < |ls| ==> ls[j].block < bound
    requires tb.Some? && tb.value >= bound && ti.Some? && ti.value >= bound
    ensures Unfound(ls, tb, ti) == []
    decreases |ls|
  {
    if |ls| > 0 {
      assert forall j :: 0 <= j < |ls[1..]| ==> ls[1..][j] == ls[j + 1];
      UnfoundNone(ls[1..], tb, ti, bound);
    }
  }

  /** The reads the rest of the search makes are among those of the search. */
  lemma ReadsStep(chain: Parachain, current: nat, b: nat, i: nat, bf: bool, inf: bool)
    requires current > 0
    requires ReadsSucceed(chain, current, b, i, bf, inf)
    ensures ReadsSucceed(chain, current - 1, b, i, bf || IsHit(chain, current - 1, BasicId, b),
                         inf || IsHit(chain, current - 1, IncentivizedId, i))
  {
    ThresholdStep(chain, current, bf, BasicId, b);
    ThresholdStep(chain, current, inf, IncentivizedId, i);
    ThresholdHere(chain, current, bf, BasicId, b);
    ThresholdHere(chain, current, inf, IncentivizedId, i);
  }

  /** One step of the search over a block it reads successfully: the block's
      commitment is collected iff it lies above its channel's threshold, and
      the channel found there is marked found. */
  lemma SearchStep(chain: Parachain, current: nat, b: nat, i: nat, bf: bool, inf: bool)
    requires current > 0 && !(bf && inf)
    requires ReadsSucceed(chain, current, b, i, bf, inf)
    ensures var k := current - 1;
            var rest := Search(chain, k, b, i, bf || IsHit(chain, k, BasicId, b), inf || IsHit(chain, k, IncentivizedId, i));
            var here := Unfound(Here(chain, k), Threshold(chain, current, bf, BasicId, b),
                                Threshold(chain, current, inf, IncentivizedId, i));
            Search(chain, current, b, i, bf, inf) == if rest.Ok? then Ok(here + rest.value) else rest
  {
    var k := current - 1;
    var tb := Threshold(chain, current, bf, BasicId, b);
    var ti := Threshold(chain, current, inf, IncentivizedId, i);
    ThresholdHere(chain, current, bf, BasicId, b);
    ThresholdHere(chain, current, inf, IncentivizedId, i);
    assert Reached(k, tb) || Reached(k, ti);
    var d := chain.digestItem(k).value;
    if CommitmentAt(chain, k).None? {
      assert !IsHit(chain, k, BasicId, b) && !IsHit(chain, k, IncentivizedId, i);
      SearchSkips(chain, current, b, i, bf, inf);
    } else {
      var item := d.value;
      assert Here(chain, k) == [Lost(k, item)];
      if item.channel == BasicId {
        assert !IsHit(chain, k, IncentivizedId, i);
        if bf {
          assert !Above(k, tb);
          SearchSkips(chain, current, b, i, bf, inf);
        } else {
          assert chain.messages(item).Ok?;
          SearchChecks(chain, current, b, i, bf, inf, tb, ti);
        }
      } else {
        assert !IsHit(chain, k, BasicId, b);
        if inf {
          assert !Above(k, ti);
          SearchSkips(chain, current, b, i, bf, inf);
        } else {
          assert chain.messages(item).Ok?;
          SearchChecks(chain, current, b, i, bf, inf, tb, ti);
        }
      }
    }
  }

  /** A block with no commitment to check: the search passes over it. */
  lemma SearchSkips(chain: Parachain, current: nat, b: nat, i: nat, bf: bool, inf: bool)
    requires current > 0 && !(bf && inf)
    requires chain.digestItem(current - 1).Ok?
    requires var k := current - 1;
             || CommitmentAt(chain, k).None?
             || (CommitmentAt(chain, k).value.channel == BasicId && bf)
             || (CommitmentAt(chain, k).value.channel != BasicId && inf)
    requires !IsHit(chain, current - 1, BasicId, b) || bf
    requires !IsHit(chain, current - 1, IncentivizedId, i) || inf
    requires Unfound(Here(chain, current - 1), Threshold(chain, current, bf, BasicId, b),
                     Threshold(chain, current, inf, IncentivizedId, i)) == []
    ensures var k := current - 1;
            var rest := Search(chain, k, b, i, bf || IsHit(chain, k, BasicId, b), inf || IsHit(chain, k, IncentivizedId, i));
            var here := Unfound(Here(chain, k), Threshold(chain, current, bf, BasicId, b),
                                Threshold(chain, current, inf, IncentivizedId, i));
            Search(chain, current, b, i, bf, inf) == if rest.Ok? then Ok(here + rest.value) else rest
  {
    var k := current - 1;
    var rest := Search(chain, k, b, i, bf, inf);
    assert Search(chain, current, b, i, bf, inf) == rest;
    if rest.Ok? {
      assert [] + rest.value == rest.value;
    }
  }

  /** A block whose commitment belongs to a channel not yet found: its
      messages are checked, and the commitment is either the one delivering
      the nonce or collected. */
  lemma SearchChecks(chain: Parachain, current: nat, b: nat, i: nat, bf: bool, inf: bool, tb: Option<nat>, ti: Option<nat>)
    requires current > 0
    requires tb == Threshold(chain, current, bf, BasicId, b) && ti == Threshold(chain, current, inf, IncentivizedId, i)
    requires CommitmentAt(chain, current - 1).Some?
    requires var item := CommitmentAt(chain, current - 1).value;
             && (item.channel == BasicId ==> !bf && !IsHit(chain, current - 1, IncentivizedId, i))
             && (item.channel != BasicId ==> !inf && !IsHit(chain, current - 1, BasicId, b))
             && chain.messages(item).Ok?
    requires var item := CommitmentAt(chain, current - 1).value;
             IsHit(chain, current - 1, item.channel, TargetFor(item, b, i))
             <==> !Above(current - 1, ChannelThreshold(item, tb, ti))
    ensures var k := current - 1;
            var rest := Search(chain, k, b, i, bf || IsHit(chain, k, BasicId, b), inf || IsHit(chain, k, IncentivizedId, i));
            var here := Unfound(Here(chain, k), tb, ti);
            Search(chain, current, b, i, bf, inf) == if rest.Ok? then Ok(here + rest.value) else rest
  {
    var k := current - 1;
    var item := CommitmentAt(chain, k).value;
    assert Here(chain, k) == [Lost(k, item)];
    var hit := IsHit(chain, k, item.channel, TargetFor(item, b, i));
    assert Unfound(Here(chain, k), tb, ti) == (if hit then [] else [Lost(k, item)]);
    var rest := Search(chain, k, b, i, bf || IsHit(chain, k, BasicId, b), inf || IsHit(chain, k, IncentivizedId, i));
    if hit {
      assert Search(chain, current, b, i, bf, inf) == rest;
      if rest.Ok? {
        assert [] + rest.value == rest.value;
      }
    } else {
      assert CheckIfDigestItemContainsNonce(chain, item, TargetFor(item, b, i)) == Ok(false);
    }
  }

  /** Once both channels are found, nothing below is expected. */
  lemma ExpectedBothFound(chain: Parachain, current: nat, b: nat, i: nat)
    ensures Expected(chain, current, b, i, true, true) == []
  {
    CommitmentsBelowBound(chain, current);
    UnfoundNone(CommitmentsBelow(chain, current), Some(current), Some(current), current);
  }

  /** The search from `current` returns the reference description. */
  predicate SearchAgrees(chain: Parachain, current: nat, b: nat, i: nat, bf: bool, inf: bool) {
    Search(chain, current, b, i, bf, inf) == Ok(Expected(chain, current, b, i, bf, inf))
  }

  /** The search returns exactly the reference description whenever the reads
      it makes succeed: per channel, every commitment newer than the newest
      block delivering that channel's nonce, newest first. */
  lemma {:induction false} SearchComplete(chain: Parachain, current: nat, b: nat, i: nat, bf: bool, inf: bool)
    requires ReadsSucceed(chain, current, b, i, bf, inf)
    ensures Search(chain, current, b, i, bf, inf) == Ok(Expected(chain, current, b, i, bf, inf))
  {
    SearchAgreesBelow(chain, current, b, i, bf, inf);
  }

  lemma {:induction false} SearchAgreesBelow(chain: Parachain, current: nat, b: nat, i: nat, bf: bool, inf: bool)
    requires ReadsSucceed(chain, current, b, i, bf, inf)
    ensures SearchAgrees(chain, current, b, i, bf, inf)
    decreases current
  {
    if bf && inf {
      ExpectedBothFound(chain, current, b, i);
    } else if current > 0 {
      var k := current - 1;
      var bf', inf' := bf || IsHit(chain, k, BasicId, b), inf || IsHit(chain, k, IncentivizedId, i);
      ReadsStep(chain, current, b, i, bf, inf);
      SearchAgreesBelow(chain, k, b, i, bf', inf');
      SearchCompleteStep(chain, current, b, i, bf, inf);
    }
  }

  /** The inductive step: the search's result on the rest of the chain,
      prefixed by this block's contribution. */
  lemma SearchCompleteStep(chain: Parachain, current: nat, b: nat, i: nat, bf: bool, inf: bool)
    requires current > 0 && !(bf && inf)
    requires ReadsSucceed(chain, current, b, i, bf, inf)
    requires var k := current - 1;
             SearchAgrees(chain, k, b, i, bf || IsHit(chain, k, BasicId, b), inf || IsHit(chain, k, IncentivizedId, i))
    ensures SearchAgrees(chain, current, b, i, bf, inf)
  {
    SearchStep(chain, current, b, i, bf, inf);
    ExpectedStep(chain, current, b, i, bf, inf);
  }

  /** Go's in-place reversal: swap the ends of the slice and move inwards
      until the indices meet. */
  method Reverse(items: seq<Lost>) returns (r: seq<Lost>)
    ensures |r| == |items|
    ensures forall i :: 0 <= i < |items| ==> r[i] == items[|items| - 1 - i]
  {
    r := items;
    var i: int, j: int := 0, |items| - 1;
    while i < j
      invariant 0 <= i && j == |items| - 1 - i
      invariant 2 * i <= |items|
      invariant |r| == |items|
      invariant forall k :: 0 <= k < i ==> r[k] == items[|items| - 1 - k]
      invariant forall k :: j < k < |items| ==> r[k] == items[|items| - 1 - k]
      invariant forall k :: i <= k <= j ==> r[k] == items[k]
      decreases j - i
    {
      r := r[i := r[j]][j := r[i]];
      i, j := i + 1, j - 1;
    }
  }

  /** Reversing the newest-first search result yields oldest-first order. */
  lemma ReverseAscends(items: seq<Lost>, r: seq<Lost>)
    requires StrictlyDescending(items)
    requires |r| == |items|
    requires forall i :: 0 <= i < |items| ==> r[i] == items[|items| - 1 - i]
    ensures StrictlyAscending(r)
  {
  }

  /** The outcome of relaying a list of commitments: the ones handed to the
      relay, and the error that stopped it. */
  datatype Processed = Processed(handled: seq<AuxDigestItem>, err: Option<Error>)

  /** The processing loop: relay each item in order and stop at the first
      error, which is returned. */
  function ProcessAll(items: seq<AuxDigestItem>, process: AuxDigestItem -> Option<Error>): (r: Processed)
    ensures r.handled <= items
    ensures r.err.None? <==> forall i :: 0 <= i < |items| ==> process(items[i]).None?
    ensures r.err.None? ==> r.handled == items
    ensures r.err.Some? ==> |r.handled| > 0 && process(r.handled[|r.handled| - 1]) == r.err
    ensures forall i :: 0 <= i < |r.handled| - 1 ==> process(r.handled[i]).None?
  {
    if |items| == 0 then Processed([], None)
    else
      match process(items[0])
      case Some(e) => Processed([items[0]], Some(e))
      case None =>
        var rest := ProcessAll(items[1..], process);
        assert forall i :: 1 <= i < |items| ==> items[i] == items[1..][i - 1];
        Processed([items[0]] + rest.handled, rest.err)
  }

  function ItemsOf(ls: seq<Lost>): (r: seq<AuxDigestItem>)
    ensures |r| == |ls| && forall i :: 0 <= i < |ls| ==> r[i] == ls[i].item
  {
    if |ls| == 0 then [] else [ls[0].item] + ItemsOf(ls[1..])
  }

  /** What one catch-up run did: whether it searched, the lost commitments
      it found (oldest first), what it relayed, and the error it returned. */
  datatype Outcome = Outcome(searched: bool, pending: seq<Lost>, relayed: seq<AuxDigestItem>, err: Option<Error>)

  /** What `catchupMissedCommitments` followed by `searchForLostCommitments`
      does with the result of the nonce reads: a read error is returned; in
      sync, nothing happens; otherwise the search runs from the latest block
      down, and its result is relayed oldest first until the first error. */
  predicate CatchupOutcome(nonces: Result<Nonces, Error>, chain: Parachain,
                           process: AuxDigestItem -> Option<Error>, latestBlock: nat, out: Outcome) {
    && (nonces.Err? ==> out == Outcome(false, [], [], Some(nonces.error)))
    && (nonces.Ok? && InSync(nonces.value) ==> out == Outcome(false, [], [], None))
    && (out.searched <==> nonces.Ok? && !InSync(nonces.value))
    && (out.searched ==>
          var n := nonces.value;
          var found := Search(chain, latestBlock + 1, n.ethBasic, n.ethIncentivized, false, false);
          && (found.Err? ==> out.pending == [] && out.relayed == [] && out.err == Some(found.error))
          && (found.Ok? ==> && |out.pending| == |found.value|
                            && (forall i :: 0 <= i < |out.pending| ==>
                                  out.pending[i] == found.value[|found.value| - 1 - i])
                            && StrictlyAscending(out.pending)
                            && out.relayed == ProcessAll(ItemsOf(out.pending), process).handled
                            && out.err == ProcessAll(ItemsOf(out.pending), process).err))
  }

  /** The run after the nonces were read. */
  method CatchupFrom(
    nonces: Result<Nonces, Error>,
    chain: Parachain,
    process: AuxDigestItem -> Option<Error>,
    latestBlock: nat
  ) returns (out: Outcome)
    ensures CatchupOutcome(nonces, chain, process, latestBlock, out)
  {
    if nonces.Err? {
      return Outcome(false, [], [], Some(nonces.error));
    }
    var n := nonces.value;
    if InSync(n) {
      return Outcome(false, [], [], None);
    }
    var found := Search(chain, latestBlock + 1, n.ethBasic, n.ethIncentivized, false, false);
    if found.Err? {
      return Outcome(true, [], [], Some(found.error));
    }
    var pending := Reverse(found.value);
    ReverseAscends(found.value, pending);
    var done := ProcessAll(ItemsOf(pending), process);
    out := Outcome(true, pending, done.handled, done.err);
  }

  /** `catchupMissedCommitments` as written: the nonces are read with the
      basic-nonce reset of catchup.go:83-85. */
  method CatchupMissedCommitments(
    observed: NonceReads,
    chain: Parachain,
    process: AuxDigestItem -> Option<Error>,
    latestBlock: nat
  ) returns (out: Outcome)
    ensures CatchupOutcome(ReadNonces(observed), chain, process, latestBlock, out)
  {
    out := CatchupFrom(ReadNonces(observed), chain, process, latestBlock);
  }

  /** `catchupMissedCommitments` with the parachain nonces read as intended. */
  method CatchupMissedCommitmentsIntended(
    observed: NonceReads,
    chain: Parachain,
    process: AuxDigestItem -> Option<Error>,
    latestBlock: nat
  ) returns (out: Outcome)
    ensures CatchupOutcome(ReadNoncesIntended(observed), chain, process, latestBlock, out)
  {
    out := CatchupFrom(ReadNoncesIntended(observed), chain, process, latestBlock);
  }
}

=== FILE: param_macro.dfy ===
/** The `const_parameter_types!` and `raw_const!` macros of the beacon light
    client's configuration, modelled as functions on syntax. A declaration
    `#[attr]* vis const Name<P..>: Ty = value;` expands into three items: a
    zero-sized marker struct, an inherent `RAW` constant on it, and a
    `parameter_types!(IMPL_CONST ..)` registration exposing the same value
    through the framework's zero-argument `get()` accessor. */
module ParamMacro {
  import opened Wrappers

  type Ident = string

  /** The text of one `#[...]` attribute (doc comment, `cfg` guard, ...). */
  type Attr = string

  /** The value types used by the configuration declarations. */
  datatype Ty = U32 | U64 | Usize | Bool | ByteArray(len: nat)

  /** Literal values of those types. */
  datatype Value = Int(n: nat) | BoolLit(b: bool) | Bytes(bs: seq<nat>)

  /** One declaration given to `const_parameter_types!`. `tyParams` is `None`
      when the declaration has no `<..>` list at all, and `Some(ps)` when it has
      one (possibly empty). */
  datatype Decl = Decl(
    attrs: seq<Attr>,
    vis: string,
    name: Ident,
    tyParams: Option<seq<Ident>>,
    ty: Ty,
    value: Value)

  /** The body of the emitted marker struct: `struct Name;` or
      `struct Name<P..>(PhantomData<P>, ..);` with one marker per parameter. */
  datatype StructBody = UnitStruct | PhantomTuple(markers: seq<Ident>)

  /** The items emitted by the macro. Only the marker struct carries attributes. */
  datatype Item =
    | MarkerStruct(attrs: seq<Attr>, vis: string, name: Ident, body: StructBody)
    | RawImpl(name: Ident, implParams: seq<Ident>, rawParams: Option<seq<Ident>>, ty: Ty, value: Value)
    | ImplConst(name: Ident, ty: Ty, value: Value, tyParams: seq<Ident>)

  /** A value together with the type it is exposed at. */
  datatype TypedValue = TypedValue(ty: Ty, value: Value)

  /** The parameters of an optional `<..>` list, the empty list when absent. */
  function Flatten(ps: Option<seq<Ident>>): seq<Ident> {
    match ps
    case None => []
    case Some(xs) => xs
  }

  function BodyFor(ps: Option<seq<Ident>>): StructBody {
    match ps
    case None => UnitStruct
    case Some(xs) => PhantomTuple(xs)
  }

  /** The generic list a struct body was emitted from. */
  function ParamsOf(body: StructBody): Option<seq<Ident>> {
    match body
    case UnitStruct => None
    case PhantomTuple(xs) => Some(xs)
  }

  /** The three items one declaration expands to, in emission order. */
  function ExpandOne(d: Decl): seq<Item> {
    [ MarkerStruct(d.attrs, d.vis, d.name, BodyFor(d.tyParams)),
      RawImpl(d.name, Flatten(d.tyParams), d.tyParams, d.ty, d.value),
      ImplConst(d.name, d.ty, d.value, Flatten(d.tyParams)) ]
  }

  /** `const_parameter_types!`: the first declaration's items, then the
      recursive expansion of the rest; the empty input expands to nothing. */
  function Expand(ds: seq<Decl>): (r: seq<Item>)
    ensures |r| == 3 * |ds|
    ensures ds == [] ==> r == []
  {
    if |ds| == 0 then [] else ExpandOne(ds[0]) + Expand(ds[1..])
  }

  /** Reads a list of emitted items back into the declarations they came from;
      `None` when the items are not a sequence of well-formed triples. */
  function Recover(items: seq<Item>): Option<seq<Decl>>
    decreases |items|
  {
    if |items| == 0 then Some([])
    else if |items| < 3 then None
    else
      match (items[0], items[1], items[2])
      case (MarkerStruct(a, v, n, body), RawImpl(n1, ip, rp, t, x), ImplConst(n2, t2, x2, ps)) =>
        if n1 == n && n2 == n && rp == ParamsOf(body) && ip == Flatten(rp)
           && t2 == t && x2 == x && ps == ip
        then
          match Recover(items[3..])
          case Some(rest) => Some([Decl(a, v, n, rp, t, x)] + rest)
          case None => None
        else None
      case _ => None
  }

  /** `raw_const!(Name)`: the `RAW` constant of the first marker type called
      `Name`, or `None` (a compile error) when there is no such constant. */
  function RawConst(items: seq<Item>, name: Ident): Option<TypedValue> {
    if |items| == 0 then None
    else if IsRawOf(items[0], name) then Some(TypedValue(items[0].ty, items[0].value))
    else RawConst(items[1..], name)
  }

  /** `raw_const!` finds a constant iff one is declared under that name, and
      reports the first. */
  lemma {:induction false} RawConstFirst(items: seq<Item>, name: Ident)
    ensures RawConst(items, name).Some? <==> exists i :: 0 <= i < |items| && IsRawOf(items[i], name)
    ensures RawConst(items, name).Some? ==>
              exists i :: && 0 <= i < |items| && IsRawOf(items[i], name)
                          && RawConst(items, name).value == TypedValue(items[i].ty, items[i].value)
                          && forall j :: 0 <= j < i ==> !IsRawOf(items[j], name)
    decreases |items|
  {
    if |items| > 0 && !IsRawOf(items[0], name) {
      RawConstFirst(items[1..], name);
      if RawConst(items, name).Some? {
        var i :| && 0 <= i < |items[1..]| && IsRawOf(items[1..][i], name)
                 && RawConst(items[1..], name).value == TypedValue(items[1..][i].ty, items[1..][i].value)
                 && forall j :: 0 <= j < i ==> !IsRawOf(items[1..][j], name);
        assert IsRawOf(items[i + 1], name);
      }
      if exists i :: 0 <= i < |items| && IsRawOf(items[i], name) {
        var i :| 0 <= i < |items| && IsRawOf(items[i], name);
        assert IsRawOf(items[1..][i - 1], name);
      }
    }
  }

  /** The item is the `RAW` constant of the marker type `name`. */
  predicate IsRawOf(item: Item, name: Ident) {
    item.RawImpl? && item.name == name
  }

  /** `<Name as Get<Ty>>::get()`: the value registered through `IMPL_CONST`. */
  function ParamGet(items: seq<Item>, name: Ident): Option<TypedValue> {
    if |items| == 0 then None
    else if items[0].ImplConst? && items[0].name == name then Some(TypedValue(items[0].ty, items[0].value))
    else ParamGet(items[1..], name)
  }

  /** The marker struct declared as `Name`, if any. */
  function MarkerOf(items: seq<Item>, name: Ident): Option<Item> {
    if |items| == 0 then None
    else if items[0].MarkerStruct? && items[0].name == name then Some(items[0])
    else MarkerOf(items[1..], name)
  }

  predicate DistinctNames(ds: seq<Decl>) {
    forall i, j :: 0 <= i < j < |ds| ==> ds[i].name != ds[j].name
  }

  lemma ExpandCons(ds: seq<Decl>)
    requires |ds| > 0
    ensures Expand(ds)[..3] == ExpandOne(ds[0])
    ensures Expand(ds)[3..] == Expand(ds[1..])
  {
  }

  /** Expansion distributes over concatenation: declarations are processed in
      order, each exactly once, independently of their neighbours. */
  lemma {:induction false} ExpandAppend(a: seq<Decl>, b: seq<Decl>)
    ensures Expand(a + b) == Expand(a) + Expand(b)
    decreases |a|
  {
    if |a| == 0 {
      assert a + b == b;
    } else {
      assert (a + b)[0] == a[0];
      assert (a + b)[1..] == a[1..] + b;
      ExpandAppend(a[1..], b);
    }
  }

  /** Declaration `i` owns exactly items `3i`, `3i+1`, `3i+2`: its marker
      struct (with its attributes and one `PhantomData` per parameter), its `RAW`
      constant and its `IMPL_CONST` registration, all with the declared name,
      type and value. */
  lemma {:induction false} ExpandAt(ds: seq<Decl>, i: nat)
    requires i < |ds|
    ensures Expand(ds)[3 * i] == MarkerStruct(ds[i].attrs, ds[i].vis, ds[i].name, BodyFor(ds[i].tyParams))
    ensures Expand(ds)[3 * i + 1] == RawImpl(ds[i].name, Flatten(ds[i].tyParams), ds[i].tyParams, ds[i].ty, ds[i].value)
    ensures Expand(ds)[3 * i + 2] == ImplConst(ds[i].name, ds[i].ty, ds[i].value, Flatten(ds[i].tyParams))
    decreases i
  {
    if i > 0 {
      ExpandAt(ds[1..], i - 1);
      ExpandCons(ds);
      assert Expand(ds)[3 * i] == Expand(ds)[3..][3 * (i - 1)];
      assert Expand(ds)[3 * i + 1] == Expand(ds)[3..][3 * (i - 1) + 1];
      assert Expand(ds)[3 * i + 2] == Expand(ds)[3..][3 * (i - 1) + 2];
    }
  }

  /** Reading the expansion back yields the declarations it came from. */
  lemma {:induction false} RecoverExpand(ds: seq<Decl>)
    ensures Recover(Expand(ds)) == Some(ds)
    decreases |ds|
  {
    if |ds| > 0 {
      ExpandCons(ds);
      RecoverExpand(ds[1..]);
      var d := ds[0];
      match d.tyParams {
        case None =>
        case Some(_) =>
      }
      assert [d] + ds[1..] == ds;
    }
  }

  /** Only expansions are accepted by `Recover`, so the two are inverse. */
  lemma {:induction false} ExpandRecover(items: seq<Item>, ds: seq<Decl>)
    requires Recover(items) == Some(ds)
    ensures Expand(ds) == items
    decreases |items|
  {
    if |items| > 0 {
      var rest :| Recover(items[3..]) == Some(rest) && ds == [ds[0]] + rest;
      ExpandRecover(items[3..], rest);
      assert ds[1..] == rest;
      var d := ds[0];
      match items[0].body {
        case UnitStruct =>
        case PhantomTuple(_) =>
      }
      assert ExpandOne(d) == items[..3];
      assert items == items[..3] + items[3..];
    }
  }

  lemma SkipOther(d: Decl, rest: seq<Item>, name: Ident)
    requires d.name != name
    ensures RawConst(ExpandOne(d) + rest, name) == RawConst(rest, name)
    ensures ParamGet(ExpandOne(d) + rest, name) == ParamGet(rest, name)
    ensures MarkerOf(ExpandOne(d) + rest, name) == MarkerOf(rest, name)
  {
    var s := ExpandOne(d) + rest;
    assert s[1..][1..][1..] == rest;
    assert RawConst(s, name) == RawConst(s[1..], name) == RawConst(s[1..][1..], name);
    assert ParamGet(s, name) == ParamGet(s[1..], name) == ParamGet(s[1..][1..], name);
    assert MarkerOf(s, name) == MarkerOf(s[1..], name) == MarkerOf(s[1..][1..], name);
  }

  lemma {:induction false} LookupsSkipPrefix(ds: seq<Decl>, k: nat, name: Ident)
    requires k <= |ds|
    requires forall j :: 0 <= j < k ==> ds[j].name != name
    ensures RawConst(Expand(ds), name) == RawConst(Expand(ds[k..]), name)
    ensures ParamGet(Expand(ds), name) == ParamGet(Expand(ds[k..]), name)
    ensures MarkerOf(Expand(ds), name) == MarkerOf(Expand(ds[k..]), name)
    decreases k
  {
    if k > 0 {
      SkipOther(ds[0], Expand(ds[1..]), name);
      LookupsSkipPrefix(ds[1..], k - 1, name);
      assert ds[1..][k - 1..] == ds[k..];
    }
  }

  lemma FirstOwn(d: Decl, rest: seq<Item>)
    ensures RawConst(ExpandOne(d) + rest, d.name) == Some(TypedValue(d.ty, d.value))
    ensures ParamGet(ExpandOne(d) + rest, d.name) == Some(TypedValue(d.ty, d.value))
    ensures MarkerOf(ExpandOne(d) + rest, d.name) == Some(ExpandOne(d)[0])
  {
    var s := ExpandOne(d) + rest;
    assert s[1..][0] == ExpandOne(d)[1];
    assert s[1..][1..][0] == ExpandOne(d)[2];
    assert ParamGet(s, d.name) == ParamGet(s[1..], d.name) == ParamGet(s[1..][1..], d.name);
  }

  /** "Three views, one value": for every declaration, `raw_const!` and the
      `get()` accessor both report the declared type and value, and the marker
      struct exists with the declaration's attributes and phantom parameters. */
  lemma ThreeViews(ds: seq<Decl>, i: nat)
    requires i < |ds|
    requires DistinctNames(ds)
    ensures RawConst(Expand(ds), ds[i].name) == Some(TypedValue(ds[i].ty, ds[i].value))
    ensures ParamGet(Expand(ds), ds[i].name) == Some(TypedValue(ds[i].ty, ds[i].value))
    ensures MarkerOf(Expand(ds), ds[i].name)
            == Some(MarkerStruct(ds[i].attrs, ds[i].vis, ds[i].name, BodyFor(ds[i].tyParams)))
  {
    LookupsSkipPrefix(ds, i, ds[i].name);
    assert ds[i..][0] == ds[i];
    FirstOwn(ds[i], Expand(ds[i..][1..]));
  }

  /** Attributes are forwarded to the marker struct only: changing them leaves
      the `RAW` impl and the registration untouched. */
  lemma AttrsOnlyOnStruct(d: Decl, attrs: seq<Attr>)
    ensures ExpandOne(d.(attrs := attrs))[0].attrs == attrs
    ensures ExpandOne(d.(attrs := attrs))[1..] == ExpandOne(d)[1..]
  {
  }

  /** A declaration without a generic list becomes a unit struct with a
      non-generic `RAW`; a generic one gets one `PhantomData` per parameter,
      in declaration order. */
  lemma MarkerShape(d: Decl)
    ensures ExpandOne(d)[0].body.UnitStruct? <==> d.tyParams.None?
    ensures d.tyParams.Some? ==> ExpandOne(d)[0].body.markers == d.tyParams.value
    ensures d.tyParams.None? ==> ExpandOne(d)[1].rawParams.None? && ExpandOne(d)[1].implParams == []
  {
  }
}

=== FILE: scanner.dfy ===
/** The parachain relay's scanner for basic-channel message commitments
    that still have to be relayed to Ethereum. The RPC calls it makes (contract
    nonces, storage reads, block headers, events, Merkle proofs, parachain
    heads) are function-valued oracles; everything else is the Go code's
    decision logic. */
module ParachainScanner {
  import opened Wrappers
  import StableSort

  type AccountId = seq<bv8>
  type H256 = seq<bv8>

  /** Why a scan stopped. `Rpc` stands for any error an oracle reports. */
  datatype Error =
    | Rpc(code: nat)
    | CommittedEventNotFound
    | CommitmentHashMismatch
    | NotRegistered
    | ValidationDataNotFound
    | ScanTerminated

  datatype Bundle = Bundle(account: AccountId, nonce: nat)
  datatype MerkleProof = MerkleProof(root: H256, leafIndex: nat, siblings: seq<H256>)
  datatype BundleProof = BundleProof(bundle: Bundle, proof: MerkleProof)

  /** An auxiliary digest item of a parachain header. */
  datatype DigestItem = DigestItem(isCommitment: bool, hash: H256)
  datatype Header = Header(number: nat, digest: seq<DigestItem>)

  /** The `basicOutboundChannel.Committed` event of a block. */
  datatype CommittedEvent = CommittedEvent(hash: H256, bundles: seq<Bundle>)

  datatype ProofInput = ProofInput(paraId: nat, relayBlockNumber: nat, paraHeads: seq<H256>)
  datatype Task = Task(header: Header, proofs: seq<BundleProof>, proofInput: Option<ProofInput>)

  /** The parachain RPCs the block scan uses: the header of a block number
      (with its auxiliary digest items), the Committed event of a block, and
      the Merkle proof of bundle `i` under a commitment hash. */
  datatype ParaChain = ParaChain(
    header: nat -> Result<Header, Error>,
    events: nat -> Result<Option<CommittedEvent>, Error>,
    bundleProof: (H256, nat, Bundle) -> Result<MerkleProof, Error>)

  // ---------------------------------------------------------------------------
  // findTasks: which accounts need relaying
  // ---------------------------------------------------------------------------

  /** An account needs relaying when the parachain's outbound nonce (0 when
      the storage item is absent) is ahead of Ethereum's inbound nonce. */
  predicate NeedsRelay(eth: Result<nat, Error>, para: Result<Option<nat>, Error>) {
    eth.Ok? && para.Ok? && para.value.GetOr(0) > eth.value
  }

  /** The nonce loop of `findTasks`: for every account, the first nonce still
      to be delivered (Ethereum nonce + 1), for exactly the accounts that need
      relaying; the first failing nonce query aborts with its error. */
  function NoncesToFind(
    accounts: seq<AccountId>,
    ethNonce: AccountId -> Result<nat, Error>,
    paraNonce: AccountId -> Result<Option<nat>, Error>
  ): (r: Result<map<AccountId, nat>, Error>)
    ensures r.Ok? <==> forall i :: 0 <= i < |accounts| ==> ethNonce(accounts[i]).Ok? && paraNonce(accounts[i]).Ok?
    ensures r.Ok? ==> forall a :: a in r.value <==> a in accounts && NeedsRelay(ethNonce(a), paraNonce(a))
    ensures r.Ok? ==> forall a :: a in r.value ==> r.value[a] == ethNonce(a).value + 1
    ensures r.Err? ==> exists i :: (0 <= i < |accounts|
              && (forall j :: 0 <= j < i ==> ethNonce(accounts[j]).Ok? && paraNonce(accounts[j]).Ok?)
              && !(ethNonce(accounts[i]).Ok? && paraNonce(accounts[i]).Ok?)
              && r.error == (if ethNonce(accounts[i]).Err? then ethNonce(accounts[i]).error
                             else paraNonce(accounts[i]).error))
  {
    if |accounts| == 0 then Ok(map[])
    else
      var a := accounts[0];
      match ethNonce(a)
      case Err(e) => Err(e)
      case Ok(eth) =>
        match paraNonce(a)
        case Err(e) => Err(e)
        case Ok(para) =>
          match NoncesToFind(accounts[1..], ethNonce, paraNonce)
          case Err(e) =>
            assert forall j :: 1 <= j < |accounts| ==> accounts[j] == accounts[1..][j - 1];
            Err(e)
          case Ok(rest) =>
            assert forall j :: 1 <= j < |accounts| ==> accounts[j] == accounts[1..][j - 1];
            assert forall b :: b in accounts <==> b == a || b in accounts[1..];
            Ok(if para.GetOr(0) > eth then rest[a := eth + 1] else rest)
  }

  // ---------------------------------------------------------------------------
  // scanForBasicChannelProofs
  // ---------------------------------------------------------------------------

  /** The nonce looked up for an account; Go's map read yields 0 when absent. */
  function Target(nonces: map<AccountId, nat>, a: AccountId): nat {
    if a in nonces then nonces[a] else 0
  }

  /** The state of the bundle loop: proofs collected so far, the accounts
      still being scanned, and the value last returned by `markAccountScanDone`. */
  datatype BundleScan = BundleScan(proofs: seq<BundleProof>, scanAccounts: set<AccountId>, scanDone: bool)

  /** `markAccountScanDone`: removes exactly `a` and reports whether no account
      is left to scan. */
  function MarkAccountScanDone(st: BundleScan, a: AccountId): (r: BundleScan)
    ensures r.scanAccounts == st.scanAccounts - {a}
    ensures r.scanDone <==> r.scanAccounts == {}
    ensures r.proofs == st.proofs
  {
    var rest := st.scanAccounts - {a};
    BundleScan(st.proofs, rest, rest == {})
  }

  /** A proof the scan may collect: it proves a bundle of `bundles` against the
      commitment `hash`, for an account being scanned, at a nonce not below the
      one to find. */
  predicate Collectable(p: BundleProof, hash: H256, nonces: map<AccountId, nat>,
                        accounts: set<AccountId>, bundles: seq<Bundle>) {
    && p.proof.root == hash
    && p.bundle in bundles
    && p.bundle.account in accounts
    && p.bundle.nonce >= Target(nonces, p.bundle.account)
  }

  /** Bookkeeping for `ScanBundles`: an account removed while scanning
      `bundles[from..]` is removed at `bundles[from]` or later. */
  lemma RemovedAccountsSeen(bundles: seq<Bundle>, from: nat, before: set<AccountId>,
                            mid: set<AccountId>, after: set<AccountId>)
    requires from < |bundles|
    requires before - mid <= {bundles[from].account}
    requires forall a :: a in mid - after ==> exists j :: from + 1 <= j < |bundles| && bundles[j].account == a
    ensures forall a :: a in before - after ==> exists j :: from <= j < |bundles| && bundles[j].account == a
  {
    forall a | a in before - after
      ensures exists j :: from <= j < |bundles| && bundles[j].account == a
    {
      if a in mid {
        assert a in mid - after;
      } else {
        assert a in before - mid;
        assert bundles[from].account == a;
      }
    }
  }

  /** One iteration of the bundle loop of `scanForBasicChannelProofs`, on
      bundle `from` (fetched with bundle index `from`): it removes at most that
      bundle's account and appends at most one collectable proof. */
  function BundleStep(
    bundleProof: (H256, nat, Bundle) -> Result<MerkleProof, Error>,
    hash: H256,
    nonces: map<AccountId, nat>,
    bundles: seq<Bundle>,
    from: nat,
    st: BundleScan
  ): (r: Result<BundleScan, Error>)
    requires from < |bundles|
    ensures r.Ok? ==> r.value.scanAccounts <= st.scanAccounts
    ensures r.Ok? ==> st.scanAccounts - r.value.scanAccounts <= {bundles[from].account}
    ensures r.Ok? ==> |st.proofs| <= |r.value.proofs| <= |st.proofs| + 1 && r.value.proofs[..|st.proofs|] == st.proofs
    ensures r.Ok? && |r.value.proofs| > |st.proofs| ==>
              Collectable(r.value.proofs[|st.proofs|], hash, nonces, st.scanAccounts, bundles)
    ensures r.Ok? ==> (r.value.scanDone <==>
              if r.value.scanAccounts == st.scanAccounts then st.scanDone else r.value.scanAccounts == {})
  {
    var b := bundles[from];
    var target := Target(nonces, b.account);
    if b.account !in st.scanAccounts then Ok(st)
    else if b.nonce < target then Ok(MarkAccountScanDone(st, b.account))
    else
      match bundleProof(hash, from, b)
      case Err(e) => Err(e)
      case Ok(proof) =>
        if proof.root != hash then Ok(MarkAccountScanDone(st, b.account))
        else
          var collected := st.(proofs := st.proofs + [BundleProof(b, proof)]);
          assert collected.proofs[..|st.proofs|] == st.proofs;
          Ok(if b.nonce == target then MarkAccountScanDone(collected, b.account) else collected)
  }

  /** The loop over `bundles[from..]` in `scanForBasicChannelProofs`. */
  function ScanBundles(
    bundleProof: (H256, nat, Bundle) -> Result<MerkleProof, Error>,
    hash: H256,
    nonces: map<AccountId, nat>,
    bundles: seq<Bundle>,
    from: nat,
    st: BundleScan
  ): (r: Result<BundleScan, Error>)
    requires from <= |bundles|
    ensures r.Ok? ==> r.value.scanAccounts <= st.scanAccounts
    ensures r.Ok? ==> forall a :: a in st.scanAccounts - r.value.scanAccounts ==>
              exists j :: from <= j < |bundles| && bundles[j].account == a
    ensures r.Ok? ==> |st.proofs| <= |r.value.proofs| && r.value.proofs[..|st.proofs|] == st.proofs
    ensures r.Ok? ==> forall j :: |st.proofs| <= j < |r.value.proofs| ==>
              Collectable(r.value.proofs[j], hash, nonces, st.scanAccounts, bundles)
    ensures r.Ok? ==> (r.value.scanDone <==>
              if r.value.scanAccounts == st.scanAccounts then st.scanDone else r.value.scanAccounts == {})
    decreases |bundles| - from
  {
    if from == |bundles| then Ok(st)
    else
      match BundleStep(bundleProof, hash, nonces, bundles, from, st)
      case Err(e) => Err(e)
      case Ok(next) =>
        match ScanBundles(bundleProof, hash, nonces, bundles, from + 1, next)
        case Err(e) => Err(e)
        case Ok(v) =>
          ComposeBundleScans(hash, nonces, bundles, from, st, next, v);
          Ok(v)
  }

  /** One bundle step followed by the scan of the remaining bundles is a scan
      from the step's bundle on. */
  lemma ComposeBundleScans(hash: H256, nonces: map<AccountId, nat>, bundles: seq<Bundle>, from: nat,
                           st: BundleScan, next: BundleScan, v: BundleScan)
    requires from < |bundles|
    requires next.scanAccounts <= st.scanAccounts
    requires st.scanAccounts - next.scanAccounts <= {bundles[from].account}
    requires |st.proofs| <= |next.proofs| <= |st.proofs| + 1 && next.proofs[..|st.proofs|] == st.proofs
    requires |next.proofs| > |st.proofs| ==> Collectable(next.proofs[|st.proofs|], hash, nonces, st.scanAccounts, bundles)
    requires next.scanDone <==> if next.scanAccounts == st.scanAccounts then st.scanDone else next.scanAccounts == {}
    requires v.scanAccounts <= next.scanAccounts
    requires forall a :: a in next.scanAccounts - v.scanAccounts ==>
               exists j :: from + 1 <= j < |bundles| && bundles[j].account == a
    requires |next.proofs| <= |v.proofs| && v.proofs[..|next.proofs|] == next.proofs
    requires forall j :: |next.proofs| <= j < |v.proofs| ==> Collectable(v.proofs[j], hash, nonces, next.scanAccounts, bundles)
    requires v.scanDone <==> if v.scanAccounts == next.scanAccounts then next.scanDone else v.scanAccounts == {}
    ensures v.scanAccounts <= st.scanAccounts
    ensures forall a :: a in st.scanAccounts - v.scanAccounts ==> exists j :: from <= j < |bundles| && bundles[j].account == a
    ensures |st.proofs| <= |v.proofs| && v.proofs[..|st.proofs|] == st.proofs
    ensures forall j :: |st.proofs| <= j < |v.proofs| ==> Collectable(v.proofs[j], hash, nonces, st.scanAccounts, bundles)
    ensures v.scanDone <==> if v.scanAccounts == st.scanAccounts then st.scanDone else v.scanAccounts == {}
  {
    RemovedAccountsSeen(bundles, from, st.scanAccounts, next.scanAccounts, v.scanAccounts);
    assert v.proofs[..|st.proofs|] == v.proofs[..|next.proofs|][..|st.proofs|];
    forall j | |st.proofs| <= j < |v.proofs|
      ensures Collectable(v.proofs[j], hash, nonces, st.scanAccounts, bundles)
    {
      if j < |next.proofs| {
        assert v.proofs[j] == v.proofs[..|next.proofs|][j];
      }
    }
  }

  /** `scanForBasicChannelProofs`: the proofs one commitment contributes and
      whether every account is now done. */
  function ScanForBasicChannelProofs(
    bundleProof: (H256, nat, Bundle) -> Result<MerkleProof, Error>,
    hash: H256,
    nonces: map<AccountId, nat>,
    scanAccounts: set<AccountId>,
    bundles: seq<Bundle>
  ): (r: Result<BundleScan, Error>)
    ensures r.Ok? ==> r.value.scanAccounts <= scanAccounts
    ensures r.Ok? ==> forall p :: p in r.value.proofs ==> Collectable(p, hash, nonces, scanAccounts, bundles)
    ensures r.Ok? ==> (r.value.scanDone <==> scanAccounts != {} && r.value.scanAccounts == {})
  {
    var r := ScanBundles(bundleProof, hash, nonces, bundles, 0, BundleScan([], scanAccounts, false));
    assert r.Ok? ==> forall p :: p in r.value.proofs ==> exists j :: 0 <= j < |r.value.proofs| && r.value.proofs[j] == p;
    r
  }

  /** How one bundle is treated, given whether its account is still scanned,
      its nonce against the nonce to find, and whether its proof's root matches
      the digest item's commitment hash. */
  datatype Verdict = Skip | Halt | Collect | CollectAndHalt

  /** The per-bundle decision of `scanForBasicChannelProofs` on a one-bundle
      list (with a proof that could be fetched): skip accounts no longer
      scanned; halt without a proof when the nonce is below the one to find or
      the root does not match; collect when the nonce is above; collect and
      halt when it is the nonce to find. */
  lemma BundleVerdicts(
    bundleProof: (H256, nat, Bundle) -> Result<MerkleProof, Error>,
    hash: H256, nonces: map<AccountId, nat>, b: Bundle, st: BundleScan)
    ensures var r := ScanBundles(bundleProof, hash, nonces, [b], 0, st);
            var t := Target(nonces, b.account);
            var p := bundleProof(hash, 0, b);
            && (b.account !in st.scanAccounts ==> r == Ok(st))
            && (b.account in st.scanAccounts && b.nonce < t ==> r == Ok(MarkAccountScanDone(st, b.account)))
            && (b.account in st.scanAccounts && b.nonce >= t && p.Err? ==> r == Err(p.error))
            && (b.account in st.scanAccounts && b.nonce >= t && p.Ok? && p.value.root != hash
                ==> r == Ok(MarkAccountScanDone(st, b.account)))
            && (b.account in st.scanAccounts && b.nonce > t && p.Ok? && p.value.root == hash
                ==> r == Ok(st.(proofs := st.proofs + [BundleProof(b, p.value)])))
            && (b.account in st.scanAccounts && b.nonce == t && p.Ok? && p.value.root == hash
                ==> r == Ok(MarkAccountScanDone(st.(proofs := st.proofs + [BundleProof(b, p.value)]), b.account)))
  {
  }

  // ---------------------------------------------------------------------------
  // findTasksImpl
  // ---------------------------------------------------------------------------

  /** The digest loop of one block: state is the block's proofs, the accounts
      still scanned and whether the scan is done. */
  datatype DigestScan = DigestScan(proofs: seq<BundleProof>, scanAccounts: set<AccountId>, done: bool)

  /** Every proof was collected against a commitment item of `digest`, from the
      block's event bundles, for an account of `accounts`. */
  predicate ProofsBackedBy(proofs: seq<BundleProof>, digest: seq<DigestItem>, ev: Option<CommittedEvent>,
                           nonces: map<AccountId, nat>, accounts: set<AccountId>) {
    forall p :: p in proofs ==>
      && ev.Some?
      && (exists item :: item in digest && item.isCommitment && item.hash == p.proof.root)
      && Collectable(p, p.proof.root, nonces, accounts, ev.value.bundles)
  }

  /** The loop over a block's digest items in `findTasksImpl`. Each commitment
      item scanned while the scan is not done must match the block's Committed
      event; the proofs it yields REPLACE the block's earlier proofs. */
  function ScanDigest(
    chain: ParaChain,
    nonces: map<AccountId, nat>,
    ev: Option<CommittedEvent>,
    digest: seq<DigestItem>,
    from: nat,
    st: DigestScan
  ): (r: Result<DigestScan, Error>)
    requires from <= |digest|
    ensures r.Ok? ==> r.value.scanAccounts <= st.scanAccounts
    ensures r.Ok? && r.value.proofs != st.proofs ==> ProofsBackedBy(r.value.proofs, digest, ev, nonces, st.scanAccounts)
    ensures r.Ok? ==> (r.value.done <==>
              if r.value.scanAccounts == st.scanAccounts then st.done else r.value.scanAccounts == {})
    decreases |digest| - from
  {
    if from == |digest| then Ok(st)
    else
      var item := digest[from];
      if !item.isCommitment || st.done then ScanDigest(chain, nonces, ev, digest, from + 1, st)
      else if ev.None? then Err(CommittedEventNotFound)
      else if ev.value.hash != item.hash then Err(CommitmentHashMismatch)
      else
        match ScanForBasicChannelProofs(chain.bundleProof, item.hash, nonces, st.scanAccounts, ev.value.bundles)
        case Err(e) => Err(e)
        case Ok(res) =>
          var next := DigestScan(res.proofs, res.scanAccounts, res.scanDone);
          assert ProofsBackedBy(next.proofs, digest, ev, nonces, st.scanAccounts) by {
            forall p | p in next.proofs
              ensures exists it :: it in digest && it.isCommitment && it.hash == p.proof.root
            {
              assert item in digest;
            }
          }
          var r := ScanDigest(chain, nonces, ev, digest, from + 1, next);
          assert r.Ok? && r.value.proofs != next.proofs ==> ProofsBackedBy(r.value.proofs, digest, ev, nonces, st.scanAccounts) by {
            if r.Ok? && r.value.proofs != next.proofs {
              assert ProofsBackedBy(r.value.proofs, digest, ev, nonces, next.scanAccounts);
            }
          }
          r
  }

  /** A task's proofs all stem from its own header and the scanned accounts. */
  predicate TaskValid(t: Task, nonces: map<AccountId, nat>, accounts: set<AccountId>) {
    && |t.proofs| > 0
    && forall p :: p in t.proofs ==>
         && p.bundle.account in accounts
         && p.bundle.nonce >= Target(nonces, p.bundle.account)
         && exists item :: item in t.header.digest && item.isCommitment && item.hash == p.proof.root
  }

  /** The backward block loop of `findTasksImpl`, from block `n` down to block
      1, stopping early once the scan is done. A block yields a task only when
      it produced at least one proof. */
  function ScanBlocks(
    chain: ParaChain,
    nonces: map<AccountId, nat>,
    n: nat,
    scanAccounts: set<AccountId>,
    done: bool
  ): (r: Result<seq<Task>, Error>)
    ensures done ==> r == Ok([])
    ensures r.Ok? ==> |r.value| <= n
    ensures r.Ok? ==> forall t :: t in r.value ==> TaskValid(t, nonces, scanAccounts)
    ensures r.Ok? ==> forall t :: t in r.value ==> exists k :: 1 <= k <= n && chain.header(k) == Ok(t.header)
    decreases n
  {
    if done || n == 0 then Ok([])
    else
      match chain.header(n)
      case Err(e) => Err(e)
      case Ok(h) =>
        if |h.digest| == 0 then ScanBlocks(chain, nonces, n - 1, scanAccounts, done)
        else
          match chain.events(n)
          case Err(e) => Err(e)
          case Ok(ev) =>
            match ScanDigest(chain, nonces, ev, h.digest, 0, DigestScan([], scanAccounts, done))
            case Err(e) => Err(e)
            case Ok(ds) =>
              var here := if |ds.proofs| > 0 then [Task(h, ds.proofs, None)] else [];
              match ScanBlocks(chain, nonces, n - 1, ds.scanAccounts, ds.done)
              case Err(e) => Err(e)
              case Ok(rest) =>
                assert forall t :: t in here ==> TaskValid(t, nonces, scanAccounts);
                Ok(here + rest)
  }

  /** The scan's stopping condition is exactly "no account left": it holds
      initially and every block keeps it. */
  lemma DigestKeepsDoneExact(
    chain: ParaChain, nonces: map<AccountId, nat>, ev: Option<CommittedEvent>,
    digest: seq<DigestItem>, st: DigestScan)
    requires st.done <==> st.scanAccounts == {}
    ensures var r := ScanDigest(chain, nonces, ev, digest, 0, st);
            r.Ok? ==> (r.value.done <==> r.value.scanAccounts == {})
  {
  }

  /** Agreement of two parachains on blocks `lo..hi`. */
  ghost predicate SameBlocks(c1: ParaChain, c2: ParaChain, lo: nat, hi: nat) {
    forall k :: lo <= k <= hi ==> c1.header(k) == c2.header(k) && c1.events(k) == c2.events(k)
  }

  ghost predicate SameProofs(c1: ParaChain, c2: ParaChain) {
    c1.bundleProof == c2.bundleProof
  }

  lemma {:induction false} SameDigestScan(
    c1: ParaChain, c2: ParaChain, nonces: map<AccountId, nat>, ev: Option<CommittedEvent>,
    digest: seq<DigestItem>, from: nat, st: DigestScan)
    requires from <= |digest|
    requires SameProofs(c1, c2)
    ensures ScanDigest(c1, nonces, ev, digest, from, st) == ScanDigest(c2, nonces, ev, digest, from, st)
    decreases |digest| - from
  {
    if from < |digest| {
      var item := digest[from];
      if !item.isCommitment || st.done {
        SameDigestScan(c1, c2, nonces, ev, digest, from + 1, st);
      } else if ev.Some? && ev.value.hash == item.hash {
        var res := ScanForBasicChannelProofs(c1.bundleProof, item.hash, nonces, st.scanAccounts, ev.value.bundles);
        if res.Ok? {
          SameDigestScan(c1, c2, nonces, ev, digest, from + 1,
                         DigestScan(res.value.proofs, res.value.scanAccounts, res.value.scanDone));
        }
      }
    }
  }

  /** One block of the scan with a non-empty digest: when both chains agree
      on block `n` and on the scan below it from the state this block leaves,
      they agree on the scan from `n`. */
  lemma DigestBlockAgrees(
    c1: ParaChain, c2: ParaChain, nonces: map<AccountId, nat>, n: nat,
    scanAccounts: set<AccountId>, done: bool, h: Header, ev: Option<CommittedEvent>)
    requires n > 0 && !done
    requires c1.header(n) == Ok(h) && c2.header(n) == Ok(h) && |h.digest| > 0
    requires c1.events(n) == Ok(ev) && c2.events(n) == Ok(ev)
    requires SameProofs(c1, c2)
    requires var ds := ScanDigest(c1, nonces, ev, h.digest, 0, DigestScan([], scanAccounts, done));
             ds.Ok? ==> ScanBlocks(c1, nonces, n - 1, ds.value.scanAccounts, ds.value.done)
                        == ScanBlocks(c2, nonces, n - 1, ds.value.scanAccounts, ds.value.done)
    ensures ScanBlocks(c1, nonces, n, scanAccounts, done) == ScanBlocks(c2, nonces, n, scanAccounts, done)
  {
    SameDigestScan(c1, c2, nonces, ev, h.digest, 0, DigestScan([], scanAccounts, done));
  }

  /** A block with an empty digest only hands the scan on to the block below. */
  lemma EmptyBlockAgrees(
    c1: ParaChain, c2: ParaChain, nonces: map<AccountId, nat>, n: nat,
    scanAccounts: set<AccountId>, done: bool, h: Header)
    requires n > 0 && !done
    requires c1.header(n) == Ok(h) && c2.header(n) == Ok(h) && |h.digest| == 0
    requires ScanBlocks(c1, nonces, n - 1, scanAccounts, done) == ScanBlocks(c2, nonces, n - 1, scanAccounts, done)
    ensures ScanBlocks(c1, nonces, n, scanAccounts, done) == ScanBlocks(c2, nonces, n, scanAccounts, done)
  {
  }

  /** The scan reads blocks `n` down to 1 only: block 0 and blocks above `n`
      never influence its outcome. */
  lemma {:induction false} ScanReadsBlocksOneToN(
    c1: ParaChain, c2: ParaChain, nonces: map<AccountId, nat>, n: nat,
    scanAccounts: set<AccountId>, done: bool)
    requires SameBlocks(c1, c2, 1, n)
    requires SameProofs(c1, c2)
    ensures ScanBlocks(c1, nonces, n, scanAccounts, done) == ScanBlocks(c2, nonces, n, scanAccounts, done)
    decreases n
  {
    if !done && n > 0 {
      assert c1.header(n) == c2.header(n) && c1.events(n) == c2.events(n);
      match c1.header(n)
      case Err(_) =>
      case Ok(h) =>
        if |h.digest| == 0 {
          ScanReadsBlocksOneToN(c1, c2, nonces, n - 1, scanAccounts, done);
          EmptyBlockAgrees(c1, c2, nonces, n, scanAccounts, done, h);
        } else if c1.events(n).Ok? {
          var ev := c1.events(n).value;
          var ds := ScanDigest(c1, nonces, ev, h.digest, 0, DigestScan([], scanAccounts, done));
          if ds.Ok? {
            ScanReadsBlocksOneToN(c1, c2, nonces, n - 1, ds.value.scanAccounts, ds.value.done);
          }
          DigestBlockAgrees(c1, c2, nonces, n, scanAccounts, done, h, ev);
        }
    }
  }

  // ---------------------------------------------------------------------------
  // What the scan collects for a single account
  // ---------------------------------------------------------------------------

  /** The index of the first bundle of account `a`. */
  function BundleIndex(bundles: seq<Bundle>, a: AccountId, from: nat): (r: Option<nat>)
    requires from <= |bundles|
    ensures r.Some? ==> from <= r.value < |bundles| && bundles[r.value].account == a
                        && forall j :: from <= j < r.value ==> bundles[j].account != a
    ensures r.None? ==> forall j :: from <= j < |bundles| ==> bundles[j].account != a
    decreases |bundles| - from
  {
    if from == |bundles| then None
    else if bundles[from].account == a then Some(from)
    else BundleIndex(bundles, a, from + 1)
  }

  /** Account `a` has at most one bundle in the list. */
  predicate AtMostOne(bundles: seq<Bundle>, a: AccountId) {
    forall i, j :: 0 <= i < j < |bundles| && bundles[i].account == a ==> bundles[j].account != a
  }

  /** The bundle of account `a` in block `k`, with the commitment hash and the
      bundle's index, when the block's digest is a single commitment item
      matched by the block's Committed event. */
  function AccountBundle(chain: ParaChain, a: AccountId, k: nat): (r: Option<(H256, nat, Bundle)>)
    ensures r.Some? ==>
              && chain.header(k).Ok? && chain.header(k).value.digest == [DigestItem(true, r.value.0)]
              && chain.events(k).Ok? && chain.events(k).value.Some?
              && chain.events(k).value.value.hash == r.value.0
              && BundleIndex(chain.events(k).value.value.bundles, a, 0) == Some(r.value.1)
              && chain.events(k).value.value.bundles[r.value.1] == r.value.2
  {
    match chain.header(k)
    case Err(_) => None
    case Ok(h) =>
      if |h.digest| != 1 || !h.digest[0].isCommitment then None
      else
        assert h.digest == [DigestItem(true, h.digest[0].hash)];
        match chain.events(k)
        case Ok(Some(ev)) =>
          if ev.hash != h.digest[0].hash then None
          else
            (match BundleIndex(ev.bundles, a, 0)
             case Some(j) => Some((ev.hash, j, ev.bundles[j]))
             case None => None)
        case _ => None
  }

  /** How block `k` treats account `a` with nonce to find `t`: a block without
      a bundle of `a` is skipped; a bundle below the nonce to find, or whose
      proof does not match the commitment, halts the scan without a proof;
      the bundle at the nonce to find is collected and halts the scan; a
      bundle above it is collected. */
  function BlockVerdict(chain: ParaChain, a: AccountId, t: nat, k: nat): Verdict {
    match AccountBundle(chain, a, k)
    case None => Skip
    case Some((hash, j, b)) =>
      if b.nonce < t then Halt
      else
        match chain.bundleProof(hash, j, b)
        case Err(_) => Skip
        case Ok(p) => if p.root != hash then Halt else if b.nonce == t then CollectAndHalt else Collect
  }

  predicate Halts(v: Verdict) {
    v == Halt || v == CollectAndHalt
  }

  /** The task block `k` contributes for account `a`: its header with the
      proof of the account's bundle, when the verdict collects. */
  function CollectedAt(chain: ParaChain, a: AccountId, t: nat, k: nat): (r: seq<Task>)
    ensures |r| <= 1
    ensures |r| == 1 <==> BlockVerdict(chain, a, t, k) in {Collect, CollectAndHalt}
    ensures |r| == 1 ==> && chain.header(k) == Ok(r[0].header) && |r[0].proofs| == 1
                         && r[0].proofs[0].bundle == AccountBundle(chain, a, k).value.2
                         && r[0].proofs[0].bundle.nonce >= t
                         && r[0].proofs[0].proof.root == AccountBundle(chain, a, k).value.0
  {
    match AccountBundle(chain, a, k)
    case None => []
    case Some((hash, j, b)) =>
      if b.nonce < t then []
      else
        match chain.bundleProof(hash, j, b)
        case Err(_) => []
        case Ok(p) => if p.root != hash then [] else [Task(chain.header(k).value, [BundleProof(b, p)], None)]
  }

  /** The newest block in `1..n` whose verdict halts the scan. */
  function StopBlock(chain: ParaChain, a: AccountId, t: nat, n: nat): (r: Option<nat>)
    ensures r.Some? ==> && 1 <= r.value <= n && Halts(BlockVerdict(chain, a, t, r.value))
                        && forall k :: r.value < k <= n ==> !Halts(BlockVerdict(chain, a, t, k))
    ensures r.None? ==> forall k :: 1 <= k <= n ==> !Halts(BlockVerdict(chain, a, t, k))
    decreases n
  {
    if n == 0 then None
    else if Halts(BlockVerdict(chain, a, t, n)) then Some(n)
    else StopBlock(chain, a, t, n - 1)
  }

  /** The tasks of blocks `n` down to `max(lo, 1)`, newest first. */
  function CollectedFrom(chain: ParaChain, a: AccountId, t: nat, n: nat, lo: nat): (r: seq<Task>)
    ensures forall x :: x in r ==> exists k :: lo <= k <= n && 1 <= k && x in CollectedAt(chain, a, t, k)
    decreases n
  {
    if n == 0 || n < lo then [] else CollectedAt(chain, a, t, n) + CollectedFrom(chain, a, t, n - 1, lo)
  }

  /** What the scan should return for a single account: a task for every
      block with a collectable bundle of the account, from block `n` down to
      the newest block that halts the scan (that block included). */
  function SingleAccountTasks(chain: ParaChain, a: AccountId, t: nat, n: nat): seq<Task> {
    CollectedFrom(chain, a, t, n, StopBlock(chain, a, t, n).GetOr(0))
  }

  /** A block the single-account scan can read: its header is fetched, and
      its digest is empty or a single commitment item matched by its
      Committed event, holding at most one bundle of the account, whose proof
      is fetched when it is requested. */
  predicate SimpleBlock(chain: ParaChain, a: AccountId, t: nat, k: nat) {
    && chain.header(k).Ok?
    && (|chain.header(k).value.digest| == 0
        || (&& chain.header(k).value.digest == [DigestItem(true, chain.header(k).value.digest[0].hash)]
            && chain.events(k).Ok? && chain.events(k).value.Some?
            && chain.events(k).value.value.hash == chain.header(k).value.digest[0].hash
            && AtMostOne(chain.events(k).value.value.bundles, a)
            && (AccountBundle(chain, a, k).Some? && AccountBundle(chain, a, k).value.2.nonce >= t ==>
                  var (hash, j, b) := AccountBundle(chain, a, k).value;
                  chain.bundleProof(hash, j, b).Ok?)))
  }

  predicate SimpleBlocks(chain: ParaChain, a: AccountId, t: nat, lo: nat, n: nat) {
    forall k :: lo <= k <= n && 1 <= k ==> SimpleBlock(chain, a, t, k)
  }

  /** Bundles of accounts no longer scanned are passed over. */
  lemma {:induction false} ScanBundlesSkip(
    bundleProof: (H256, nat, Bundle) -> Result<MerkleProof, Error>,
    hash: H256, nonces: map<AccountId, nat>, bundles: seq<Bundle>, from: nat, until: nat, st: BundleScan)
    requires from <= until <= |bundles|
    requires forall j :: from <= j < until ==> bundles[j].account !in st.scanAccounts
    ensures ScanBundles(bundleProof, hash, nonces, bundles, from, st) == ScanBundles(bundleProof, hash, nonces, bundles, until, st)
    decreases until - from
  {
    if from < until {
      assert BundleStep(bundleProof, hash, nonces, bundles, from, st) == Ok(st);
      ScanBundlesSkip(bundleProof, hash, nonces, bundles, from + 1, until, st);
    }
  }

  /** The bundle loop for a single account with at most one bundle: the
      outcome of that bundle alone. */
  lemma ScanBundlesOne(
    bundleProof: (H256, nat, Bundle) -> Result<MerkleProof, Error>,
    hash: H256, a: AccountId, t: nat, bundles: seq<Bundle>)
    requires AtMostOne(bundles, a)
    ensures var r := ScanBundles(bundleProof, hash, map[a := t], bundles, 0, BundleScan([], {a}, false));
            match BundleIndex(bundles, a, 0)
            case None => r == Ok(BundleScan([], {a}, false))
            case Some(j) =>
              var b := bundles[j];
              var p := bundleProof(hash, j, b);
              && (b.nonce < t ==> r == Ok(BundleScan([], {}, true)))
              && (b.nonce >= t && p.Err? ==> r == Err(p.error))
              && (b.nonce >= t && p.Ok? && p.value.root != hash ==> r == Ok(BundleScan([], {}, true)))
              && (b.nonce > t && p.Ok? && p.value.root == hash ==> r == Ok(BundleScan([BundleProof(b, p.value)], {a}, false)))
              && (b.nonce == t && p.Ok? && p.value.root == hash ==> r == Ok(BundleScan([BundleProof(b, p.value)], {}, true)))
  {
    var nonces := map[a := t];
    var st := BundleScan([], {a}, false);
    match BundleIndex(bundles, a, 0)
    case None =>
      ScanBundlesSkip(bundleProof, hash, nonces, bundles, 0, |bundles|, st);
    case Some(j) =>
      ScanBundlesIsStep(bundleProof, hash, a, t, bundles, j);
      BundleStepOne(bundleProof, hash, a, t, bundles, j);
  }

  /** With a single bundle of the account, at index `j`, the whole loop
      amounts to the step on that bundle. */
  lemma ScanBundlesIsStep(
    bundleProof: (H256, nat, Bundle) -> Result<MerkleProof, Error>,
    hash: H256, a: AccountId, t: nat, bundles: seq<Bundle>, j: nat)
    requires AtMostOne(bundles, a) && BundleIndex(bundles, a, 0) == Some(j)
    ensures ScanBundles(bundleProof, hash, map[a := t], bundles, 0, BundleScan([], {a}, false))
            == BundleStep(bundleProof, hash, map[a := t], bundles, j, BundleScan([], {a}, false))
  {
    var nonces := map[a := t];
    var st := BundleScan([], {a}, false);
    ScanBundlesSkip(bundleProof, hash, nonces, bundles, 0, j, st);
    var step := BundleStep(bundleProof, hash, nonces, bundles, j, st);
    if step.Ok? {
      assert step.value.scanAccounts <= {a};
      ScanBundlesSkip(bundleProof, hash, nonces, bundles, j + 1, |bundles|, step.value);
    }
  }

  /** The step on the account's bundle, from the initial state. */
  lemma BundleStepOne(
    bundleProof: (H256, nat, Bundle) -> Result<MerkleProof, Error>,
    hash: H256, a: AccountId, t: nat, bundles: seq<Bundle>, j: nat)
    requires j < |bundles| && bundles[j].account == a
    ensures var r := BundleStep(bundleProof, hash, map[a := t], bundles, j, BundleScan([], {a}, false));
            var b := bundles[j];
            var p := bundleProof(hash, j, b);
            && (b.nonce < t ==> r == Ok(BundleScan([], {}, true)))
            && (b.nonce >= t && p.Err? ==> r == Err(p.error))
            && (b.nonce >= t && p.Ok? && p.value.root != hash ==> r == Ok(BundleScan([], {}, true)))
            && (b.nonce > t && p.Ok? && p.value.root == hash ==> r == Ok(BundleScan([BundleProof(b, p.value)], {a}, false)))
            && (b.nonce == t && p.Ok? && p.value.root == hash ==> r == Ok(BundleScan([BundleProof(b, p.value)], {}, true)))
  {
    assert Target(map[a := t], a) == t;
    assert {a} - {a} == {};
  }

  /** A digest of one commitment item matched by the event: the block's
      proofs and scan state are those of the commitment's bundle loop. */
  lemma ScanDigestOne(chain: ParaChain, nonces: map<AccountId, nat>, ev: CommittedEvent, hash: H256,
                      accounts: set<AccountId>)
    requires ev.hash == hash
    ensures var res := ScanForBasicChannelProofs(chain.bundleProof, hash, nonces, accounts, ev.bundles);
            ScanDigest(chain, nonces, Some(ev), [DigestItem(true, hash)], 0, DigestScan([], accounts, false))
            == if res.Ok? then Ok(DigestScan(res.value.proofs, res.value.scanAccounts, res.value.scanDone))
               else Err(res.error)
  {
  }

  /** One block of the single-account scan: it contributes its collected
      task, and the scan goes on below it unless the block halts it. */
  lemma SingleAccountBlock(chain: ParaChain, a: AccountId, t: nat, n: nat)
    requires n > 0 && SimpleBlock(chain, a, t, n)
    ensures var r := ScanBlocks(chain, map[a := t], n, {a}, false);
            var rest := ScanBlocks(chain, map[a := t], n - 1, {a}, false);
            && (Halts(BlockVerdict(chain, a, t, n)) ==> r == Ok(CollectedAt(chain, a, t, n)))
            && (!Halts(BlockVerdict(chain, a, t, n)) ==>
                  r == if rest.Ok? then Ok(CollectedAt(chain, a, t, n) + rest.value) else rest)
  {
    var h := chain.header(n).value;
    if |h.digest| == 0 {
      assert AccountBundle(chain, a, n).None?;
      assert CollectedAt(chain, a, t, n) == [];
      var rest := ScanBlocks(chain, map[a := t], n - 1, {a}, false);
      if rest.Ok? {
        assert [] + rest.value == rest.value;
      }
    } else {
      var hash := h.digest[0].hash;
      var ev := chain.events(n).value.value;
      ScanDigestOne(chain, map[a := t], ev, hash, {a});
      ScanBundlesOne(chain.bundleProof, hash, a, t, ev.bundles);
      SingleAccountDigest(chain, a, t, n, hash, ev);
    }
  }

  /** The case of `SingleAccountBlock` with a commitment item. */
  lemma SingleAccountDigest(chain: ParaChain, a: AccountId, t: nat, n: nat, hash: H256, ev: CommittedEvent)
    requires n > 0 && SimpleBlock(chain, a, t, n)
    requires chain.header(n).Ok? && chain.header(n).value.digest == [DigestItem(true, hash)]
    requires chain.events(n) == Ok(Some(ev)) && ev.hash == hash
    requires var res := ScanBundles(chain.bundleProof, hash, map[a := t], ev.bundles, 0, BundleScan([], {a}, false));
             ScanDigest(chain, map[a := t], Some(ev), [DigestItem(true, hash)], 0, DigestScan([], {a}, false))
             == if res.Ok? then Ok(DigestScan(res.value.proofs, res.value.scanAccounts, res.value.scanDone))
                else Err(res.error)
    requires var r := ScanBundles(chain.bundleProof, hash, map[a := t], ev.bundles, 0, BundleScan([], {a}, false));
             match BundleIndex(ev.bundles, a, 0)
             case None => r == Ok(BundleScan([], {a}, false))
             case Some(j) =>
               var b := ev.bundles[j];
               var p := chain.bundleProof(hash, j, b);
               && (b.nonce < t ==> r == Ok(BundleScan([], {}, true)))
               && (b.nonce >= t && p.Err? ==> r == Err(p.error))
               && (b.nonce >= t && p.Ok? && p.value.root != hash ==> r == Ok(BundleScan([], {}, true)))
               && (b.nonce > t && p.Ok? && p.value.root == hash ==> r == Ok(BundleScan([BundleProof(b, p.value)], {a}, false)))
               && (b.nonce == t && p.Ok? && p.value.root == hash ==> r == Ok(BundleScan([BundleProof(b, p.value)], {}, true)))
    ensures var r := ScanBlocks(chain, map[a := t], n, {a}, false);
            var rest := ScanBlocks(chain, map[a := t], n - 1, {a}, false);
            && (Halts(BlockVerdict(chain, a, t, n)) ==> r == Ok(CollectedAt(chain, a, t, n)))
            && (!Halts(BlockVerdict(chain, a, t, n)) ==>
                  r == if rest.Ok? then Ok(CollectedAt(chain, a, t, n) + rest.value) else rest)
  {
    var nonces := map[a := t];
    var h := chain.header(n).value;
    var rest := ScanBlocks(chain, nonces, n - 1, {a}, false);
    var res := ScanBundles(chain.bundleProof, hash, nonces, ev.bundles, 0, BundleScan([], {a}, false));
    match BundleIndex(ev.bundles, a, 0)
    case None =>
      assert AccountBundle(chain, a, n).None?;
      if rest.Ok? {
        assert [] + rest.value == rest.value;
      }
    case Some(j) =>
      var b := ev.bundles[j];
      assert AccountBundle(chain, a, n) == Some((hash, j, b));
      if b.nonce < t || chain.bundleProof(hash, j, b).value.root != hash {
        assert res == Ok(BundleScan([], {}, true));
        assert BlockVerdict(chain, a, t, n) == Halt && CollectedAt(chain, a, t, n) == [];
        assert ScanBlocks(chain, nonces, n - 1, {}, true) == Ok([]);
      } else {
        var p := chain.bundleProof(hash, j, b).value;
        var task := Task(h, [BundleProof(b, p)], None);
        assert CollectedAt(chain, a, t, n) == [task];
        if b.nonce == t {
          assert res == Ok(BundleScan([BundleProof(b, p)], {}, true));
          assert ScanBlocks(chain, nonces, n - 1, {}, true) == Ok([]);
          assert [task] + [] == [task];
        } else {
          assert res == Ok(BundleScan([BundleProof(b, p)], {a}, false));
        }
      }
  }

  /** Below a block that does not halt, the stop block and the reference
      tasks are those seen from the block below. */
  lemma SingleAccountStep(chain: ParaChain, a: AccountId, t: nat, n: nat)
    requires n > 0
    ensures !Halts(BlockVerdict(chain, a, t, n)) ==>
              && StopBlock(chain, a, t, n) == StopBlock(chain, a, t, n - 1)
              && SingleAccountTasks(chain, a, t, n)
                 == CollectedAt(chain, a, t, n) + SingleAccountTasks(chain, a, t, n - 1)
    ensures Halts(BlockVerdict(chain, a, t, n)) ==>
              && StopBlock(chain, a, t, n) == Some(n)
              && SingleAccountTasks(chain, a, t, n) == CollectedAt(chain, a, t, n)
  {
    if Halts(BlockVerdict(chain, a, t, n)) {
      assert CollectedFrom(chain, a, t, n - 1, n) == [];
    }
  }

  /** The scan of a single account returns exactly the reference tasks when
      the blocks it reads are simple: one task per block with a collectable
      bundle, from block `n` down to the block that halts the scan. */
  lemma SingleAccountScan(chain: ParaChain, a: AccountId, t: nat, n: nat)
    requires SimpleBlocks(chain, a, t, StopBlock(chain, a, t, n).GetOr(0), n)
    ensures ScanBlocks(chain, map[a := t], n, {a}, false) == Ok(SingleAccountTasks(chain, a, t, n))
  {
    SingleAccountScanFrom(chain, a, t, n);
  }

  /** The scan of the account from block `n` returns the reference tasks. */
  predicate ScanAgrees(chain: ParaChain, a: AccountId, t: nat, n: nat) {
    ScanBlocks(chain, map[a := t], n, {a}, false) == Ok(SingleAccountTasks(chain, a, t, n))
  }

  lemma {:induction false} SingleAccountScanFrom(chain: ParaChain, a: AccountId, t: nat, n: nat)
    requires SimpleBlocks(chain, a, t, StopBlock(chain, a, t, n).GetOr(0), n)
    ensures ScanAgrees(chain, a, t, n)
    decreases n
  {
    if n > 0 {
      SingleAccountStep(chain, a, t, n);
      assert SimpleBlock(chain, a, t, n);
      if !Halts(BlockVerdict(chain, a, t, n)) {
        SingleAccountScanFrom(chain, a, t, n - 1);
      }
      SingleAccountScanStep(chain, a, t, n);
    }
  }

  /** The inductive step, with the scan below block `n` as hypothesis. */
  lemma SingleAccountScanStep(chain: ParaChain, a: AccountId, t: nat, n: nat)
    requires n > 0 && SimpleBlock(chain, a, t, n)
    requires !Halts(BlockVerdict(chain, a, t, n)) ==> ScanAgrees(chain, a, t, n - 1)
    ensures ScanAgrees(chain, a, t, n)
  {
    SingleAccountBlock(chain, a, t, n);
    SingleAccountStep(chain, a, t, n);
  }

  function HeaderNumber(t: Task): nat {
    t.header.number
  }

  /** `findTasksImpl`: scan back from `lastParaBlockNumber`, then stable-sort
      the tasks by ascending header number. The result holds the scanned
      tasks, and tasks of the same header number keep the scan's order. */
  function FindTasksImpl(chain: ParaChain, lastParaBlockNumber: nat, nonces: map<AccountId, nat>)
    : (r: Result<seq<Task>, Error>)
    ensures var scan := ScanBlocks(chain, nonces, lastParaBlockNumber, nonces.Keys, |nonces.Keys| == 0);
            && (r.Ok? <==> scan.Ok?)
            && (r.Err? ==> r.error == scan.error)
            && (r.Ok? ==> multiset(r.value) == multiset(scan.value))
            && (r.Ok? ==> forall k :: StableSort.WithKey(r.value, HeaderNumber, k)
                                      == StableSort.WithKey(scan.value, HeaderNumber, k))
    ensures r.Ok? ==> StableSort.SortedBy(r.value, HeaderNumber)
    ensures r.Ok? ==> forall t :: t in r.value ==> TaskValid(t, nonces, nonces.Keys)
    ensures r.Ok? ==> |r.value| <= lastParaBlockNumber
    ensures nonces == map[] ==> r == Ok([])
  {
    match ScanBlocks(chain, nonces, lastParaBlockNumber, nonces.Keys, |nonces.Keys| == 0)
    case Err(e) => Err(e)
    case Ok(tasks) =>
      var sorted := StableSort.Sort(tasks, HeaderNumber);
      StableSort.SortCorrect(tasks, HeaderNumber);
      assert forall t :: t in sorted ==> t in multiset(tasks);
      assert |sorted| == |multiset(sorted)| == |tasks|;
      Ok(sorted)
  }

  /** For one account whose blocks follow the simple layout, the sorted task
      list holds exactly the bundles the reference description collects. */
  lemma FindTasksSingleAccount(chain: ParaChain, a: AccountId, t: nat, n: nat)
    requires SimpleBlocks(chain, a, t, StopBlock(chain, a, t, n).GetOr(0), n)
    ensures var r := FindTasksImpl(chain, n, map[a := t]);
            && r.Ok?
            && multiset(r.value) == multiset(SingleAccountTasks(chain, a, t, n))
            && StableSort.SortedBy(r.value, HeaderNumber)
  {
    assert map[a := t].Keys == {a};
    SingleAccountScan(chain, a, t, n);
  }

  // ---------------------------------------------------------------------------
  // findInclusionBlockNumber and gatherProofInputs
  // ---------------------------------------------------------------------------

  /** The process for finalizing a backed parachain header times out after
      these many relay blocks. */
  const FinalizationTimeout: nat := 4

  /** The relay-chain RPCs of the inclusion search: the `RelayParentNumber` of
      a parachain block's validation data (`None` when absent), the parachain
      head number recorded at a relay block (`None` when the parachain is not
      registered), and the parachain heads at a relay block. */
  datatype RelayChain = RelayChain(
    relayParent: nat -> Result<Option<nat>, Error>,
    paraHeadAt: nat -> Result<Option<nat>, Error>,
    paraHeads: nat -> Result<seq<H256>, Error>)

  /** Relay block `j` records a parachain head other than `paraBlock`. */
  predicate OtherHead(relay: RelayChain, paraBlock: nat, j: nat) {
    relay.paraHeadAt(j).Ok? && relay.paraHeadAt(j).value.Some? && relay.paraHeadAt(j).value.value != paraBlock
  }

  /** The loop of `findInclusionBlockNumber` over relay blocks `i .. end-1`:
      it succeeds exactly at the first block whose recorded head is
      `paraBlock`, provided every block before it records another head; a
      window of other heads ends in "scan terminated". */
  function SearchWindow(relay: RelayChain, paraBlock: nat, i: nat, end: nat): (r: Result<nat, Error>)
    ensures r.Ok? <==> exists k :: i <= k < end && relay.paraHeadAt(k) == Ok(Some(paraBlock))
                                   && forall j :: i <= j < k ==> OtherHead(relay, paraBlock, j)
    ensures r.Ok? ==> i <= r.value < end && relay.paraHeadAt(r.value) == Ok(Some(paraBlock))
    ensures r.Ok? ==> forall j :: i <= j < r.value ==> OtherHead(relay, paraBlock, j)
    ensures (forall j :: i <= j < end ==> OtherHead(relay, paraBlock, j)) ==> r == Err(ScanTerminated)
    decreases end - i
  {
    if i >= end then Err(ScanTerminated)
    else
      match relay.paraHeadAt(i)
      case Err(e) =>
        assert !OtherHead(relay, paraBlock, i);
        Err(e)
      case Ok(None) =>
        assert !OtherHead(relay, paraBlock, i);
        Err(NotRegistered)
      case Ok(Some(head)) =>
        if head == paraBlock then
          assert relay.paraHeadAt(i) == Ok(Some(paraBlock));
          assert !OtherHead(relay, paraBlock, i);
          Ok(i)
        else
          assert OtherHead(relay, paraBlock, i);
          SearchWindow(relay, paraBlock, i + 1, end)
  }

  /** `findInclusionBlockNumber` with unbounded arithmetic: the first of the
      relay blocks RelayParentNumber+1 .. RelayParentNumber+4 whose recorded
      parachain head is `paraBlock`. */
  function FindInclusionBlockNumber(relay: RelayChain, paraBlock: nat): (r: Result<nat, Error>)
    ensures r.Ok? ==> relay.relayParent(paraBlock).Ok? && relay.relayParent(paraBlock).value.Some?
    ensures r.Ok? ==> var parent := relay.relayParent(paraBlock).value.value;
              parent + 1 <= r.value <= parent + FinalizationTimeout
              && relay.paraHeadAt(r.value) == Ok(Some(paraBlock))
    ensures relay.relayParent(paraBlock) == Ok(None) ==> r == Err(ValidationDataNotFound)
  {
    match relay.relayParent(paraBlock)
    case Err(e) => Err(e)
    case Ok(None) => Err(ValidationDataNotFound)
    case Ok(Some(parent)) =>
      SearchWindow(relay, paraBlock, parent + 1, parent + 1 + FinalizationTimeout)
  }

  /** `RelayParentNumber`, the loop index and its bound are `uint32` in the Go
      code, so `RelayParentNumber + 1` and `startBlock + FinalizationTimeout`
      wrap modulo 2^32. */
  const U32Modulus: nat := 0x1_0000_0000

  function FindInclusionBlockNumberAsWritten(relay: RelayChain, paraBlock: nat): (r: Result<nat, Error>)
    ensures r.Ok? ==> relay.relayParent(paraBlock).Ok? && relay.relayParent(paraBlock).value.Some?
    ensures r.Ok? ==> var start := (relay.relayParent(paraBlock).value.value % U32Modulus + 1) % U32Modulus;
              && start <= r.value < U32Modulus
              && r.value < (start + FinalizationTimeout) % U32Modulus
              && relay.paraHeadAt(r.value) == Ok(Some(paraBlock))
    ensures relay.relayParent(paraBlock) == Ok(None) ==> r == Err(ValidationDataNotFound)
  {
    match relay.relayParent(paraBlock)
    case Err(e) => Err(e)
    case Ok(None) => Err(ValidationDataNotFound)
    case Ok(Some(parent)) =>
      var start := (parent % U32Modulus + 1) % U32Modulus;
      SearchWindow(relay, paraBlock, start, (start + FinalizationTimeout) % U32Modulus)
  }

  /** Away from the top of the `uint32` range the written search is the
      intended one. */
  lemma InclusionSearchAgreesBelowWrap(relay: RelayChain, paraBlock: nat)
    requires relay.relayParent(paraBlock).Ok? && relay.relayParent(paraBlock).value.Some?
    requires relay.relayParent(paraBlock).value.value + 1 + FinalizationTimeout < U32Modulus
    ensures FindInclusionBlockNumberAsWritten(relay, paraBlock) == FindInclusionBlockNumber(relay, paraBlock)
  {
    var parent := relay.relayParent(paraBlock).value.value;
    assert parent % U32Modulus == parent;
    assert (parent + 1) % U32Modulus == parent + 1;
    assert (parent + 1 + FinalizationTimeout) % U32Modulus == parent + 1 + FinalizationTimeout;
  }

  /** With RelayParentNumber = 2^32 - 2 the written window wraps to the empty
      range [2^32 - 1, 3), so a header included at relay block 2^32 - 1 is
      reported as "scan terminated". */
  lemma InclusionSearchWrapCounterexample()
    ensures var relay := RelayChain(_ => Ok(Some(U32Modulus - 2)), _ => Ok(Some(7)), _ => Ok([]));
            && FindInclusionBlockNumberAsWritten(relay, 7) == Err(ScanTerminated)
            && FindInclusionBlockNumber(relay, 7) == Ok(U32Modulus - 1)
  {
    var relay := RelayChain(_ => Ok(Some(U32Modulus - 2)), _ => Ok(Some(7)), _ => Ok([]));
    assert ((U32Modulus - 2) % U32Modulus + 1) % U32Modulus == U32Modulus - 1;
    assert (U32Modulus - 1 + FinalizationTimeout) % U32Modulus == 3;
    assert SearchWindow(relay, 7, U32Modulus - 1, 3) == Err(ScanTerminated);
    assert SearchWindow(relay, 7, U32Modulus - 1, U32Modulus + 3) == Ok(U32Modulus - 1);
  }

  /** The proof input of one task: the relay block that included its header
      and the parachain heads recorded there. */
  function ProofInputFor(relay: RelayChain, paraId: nat, t: Task): (r: Result<ProofInput, Error>)
    ensures r.Ok? <==> FindInclusionBlockNumber(relay, t.header.number).Ok?
                       && relay.paraHeads(FindInclusionBlockNumber(relay, t.header.number).value).Ok?
    ensures r.Ok? ==> && r.value.paraId == paraId
                      && FindInclusionBlockNumber(relay, t.header.number) == Ok(r.value.relayBlockNumber)
                      && relay.paraHeads(r.value.relayBlockNumber) == Ok(r.value.paraHeads)
  {
    var relayBlock :- FindInclusionBlockNumber(relay, t.header.number);
    var heads :- relay.paraHeads(relayBlock);
    Ok(ProofInput(paraId, relayBlock, heads))
  }

  /** The index of the first task whose proof input cannot be fetched
      (`|tasks|` when there is none). */
  function FirstFailure(relay: RelayChain, paraId: nat, tasks: seq<Task>): (k: nat)
    ensures k <= |tasks|
    ensures forall i :: 0 <= i < k ==> ProofInputFor(relay, paraId, tasks[i]).Ok?
    ensures k < |tasks| ==> ProofInputFor(relay, paraId, tasks[k]).Err?
  {
    if |tasks| == 0 || ProofInputFor(relay, paraId, tasks[0]).Err? then 0
    else 1 + FirstFailure(relay, paraId, tasks[1..])
  }

  /** `gatherProofInputs`: fills in the proof input of every task in order and
      stops at the first task whose inclusion block or parachain heads cannot
      be fetched, leaving it and all later tasks untouched. */
  function GatherProofInputs(relay: RelayChain, paraId: nat, tasks: seq<Task>): (r: seq<Task>)
    ensures |r| == |tasks|
    ensures forall i :: 0 <= i < |tasks| ==> r[i].header == tasks[i].header && r[i].proofs == tasks[i].proofs
    ensures forall i :: 0 <= i < FirstFailure(relay, paraId, tasks) ==>
              r[i] == tasks[i].(proofInput := Some(ProofInputFor(relay, paraId, tasks[i]).value))
    ensures forall i :: FirstFailure(relay, paraId, tasks) <= i < |tasks| ==> r[i] == tasks[i]
  {
    var k := FirstFailure(relay, paraId, tasks);
    seq(|tasks|, i requires 0 <= i < |tasks| =>
      if i < k then tasks[i].(proofInput := Some(ProofInputFor(relay, paraId, tasks[i]).value)) else tasks[i])
  }

  /** The loop of `gatherProofInputs`, one iteration at a time: a task whose
      proof input is fetched is filled and the loop goes on with the rest; the
      first failure returns, leaving that task and the rest as they were. */
  lemma GatherStep(relay: RelayChain, paraId: nat, tasks: seq<Task>)
    requires |tasks| > 0
    ensures ProofInputFor(relay, paraId, tasks[0]).Err? ==> GatherProofInputs(relay, paraId, tasks) == tasks
    ensures ProofInputFor(relay, paraId, tasks[0]).Ok? ==>
              GatherProofInputs(relay, paraId, tasks)
              == [tasks[0].(proofInput := Some(ProofInputFor(relay, paraId, tasks[0]).value))]
                 + GatherProofInputs(relay, paraId, tasks[1..])
  {
    var r := GatherProofInputs(relay, paraId, tasks);
    if ProofInputFor(relay, paraId, tasks[0]).Ok? {
      var rest := GatherProofInputs(relay, paraId, tasks[1..]);
      var k := FirstFailure(relay, paraId, tasks);
      assert k == 1 + FirstFailure(relay, paraId, tasks[1..]);
      forall i | 1 <= i < |tasks| ensures r[i] == rest[i - 1] {
        assert tasks[i] == tasks[1..][i - 1];
      }
    }
  }

  // ---------------------------------------------------------------------------
  // findTasks
  // ---------------------------------------------------------------------------

  /** A proof that `findTasks` may hand to the relayer: its account is one of
      the configured accounts, needs relaying, and the bundle's nonce has not
      yet been delivered to Ethereum. */
  predicate Relayable(
    p: BundleProof,
    accounts: seq<AccountId>,
    ethNonce: AccountId -> Result<nat, Error>,
    paraNonce: AccountId -> Result<Option<nat>, Error>)
  {
    && p.bundle.account in accounts
    && NeedsRelay(ethNonce(p.bundle.account), paraNonce(p.bundle.account))
    && p.bundle.nonce > ethNonce(p.bundle.account).value
  }

  lemma ValidTasksRelayable(
    tasks: seq<Task>,
    accounts: seq<AccountId>,
    ethNonce: AccountId -> Result<nat, Error>,
    paraNonce: AccountId -> Result<Option<nat>, Error>,
    nonces: map<AccountId, nat>)
    requires NoncesToFind(accounts, ethNonce, paraNonce) == Ok(nonces)
    requires forall t :: t in tasks ==> TaskValid(t, nonces, nonces.Keys)
    ensures forall t, p :: t in tasks && p in t.proofs ==> Relayable(p, accounts, ethNonce, paraNonce)
  {
    forall t, p | t in tasks && p in t.proofs ensures Relayable(p, accounts, ethNonce, paraNonce) {
      assert TaskValid(t, nonces, nonces.Keys);
      assert Target(nonces, p.bundle.account) == nonces[p.bundle.account];
    }
  }

  /** When every nonce query succeeds and no account is behind, there is
      nothing to find. */
  lemma NothingToRelay(
    accounts: seq<AccountId>,
    ethNonce: AccountId -> Result<nat, Error>,
    paraNonce: AccountId -> Result<Option<nat>, Error>)
    requires forall a :: a in accounts ==> ethNonce(a).Ok? && paraNonce(a).Ok? && !NeedsRelay(ethNonce(a), paraNonce(a))
    ensures NoncesToFind(accounts, ethNonce, paraNonce) == Ok(map[])
  {
    var r := NoncesToFind(accounts, ethNonce, paraNonce);
    assert forall i :: 0 <= i < |accounts| ==> accounts[i] in accounts;
    assert r.value.Keys == {};
  }

  /** `findTasks`: decide which accounts need relaying; without any, return no
      tasks and scan nothing; otherwise scan, sort, and gather proof inputs
      (whose error the Go code discards). */
  function FindTasks(
    accounts: seq<AccountId>,
    ethNonce: AccountId -> Result<nat, Error>,
    paraNonce: AccountId -> Result<Option<nat>, Error>,
    chain: ParaChain,
    relay: RelayChain,
    paraId: nat,
    paraBlock: nat
  ): (r: Result<seq<Task>, Error>)
    ensures r.Ok? ==> StableSort.SortedBy(r.value, HeaderNumber)
    ensures r.Ok? ==> forall t :: t in r.value ==> |t.proofs| > 0
    ensures r.Ok? ==> forall t, p :: t in r.value && p in t.proofs ==> Relayable(p, accounts, ethNonce, paraNonce)
    ensures (forall a :: a in accounts ==> ethNonce(a).Ok? && paraNonce(a).Ok? && !NeedsRelay(ethNonce(a), paraNonce(a)))
            ==> r == Ok([])
    ensures NoncesToFind(accounts, ethNonce, paraNonce).Err? ==> r == Err(NoncesToFind(accounts, ethNonce, paraNonce).error)
    ensures var nonces := NoncesToFind(accounts, ethNonce, paraNonce);
            nonces.Ok? && |nonces.value| > 0 ==>
              var tasks := FindTasksImpl(chain, paraBlock, nonces.value);
              && (r.Ok? <==> tasks.Ok?)
              && (r.Ok? ==> r.value == GatherProofInputs(relay, paraId, tasks.value))
  {
    match NoncesToFind(accounts, ethNonce, paraNonce)
    case Err(e) =>
      assert !(forall a :: a in accounts ==> ethNonce(a).Ok? && paraNonce(a).Ok?) by {
        var i :| 0 <= i < |accounts| && !(ethNonce(accounts[i]).Ok? && paraNonce(accounts[i]).Ok?);
        assert accounts[i] in accounts;
      }
      Err(e)
    case Ok(nonces) =>
      if |nonces| == 0 then Ok([])
      else
        assert !(forall a :: a in accounts ==> ethNonce(a).Ok? && paraNonce(a).Ok? && !NeedsRelay(ethNonce(a), paraNonce(a))) by {
          if forall a :: a in accounts ==> ethNonce(a).Ok? && paraNonce(a).Ok? && !NeedsRelay(ethNonce(a), paraNonce(a)) {
            NothingToRelay(accounts, ethNonce, paraNonce);
          }
        }
        match FindTasksImpl(chain, paraBlock, nonces)
        case Err(e) => Err(e)
        case Ok(tasks) =>
          var r := GatherProofInputs(relay, paraId, tasks);
          ValidTasksRelayable(tasks, accounts, ethNonce, paraNonce, nonces);
          SameHeadersAndProofs(tasks, r);
          Ok(r)
  }

  /** Filling in proof inputs keeps the order by header number and every
      task's proofs. */
  lemma SameHeadersAndProofs(tasks: seq<Task>, r: seq<Task>)
    requires |r| == |tasks|
    requires forall i :: 0 <= i < |tasks| ==> r[i].header == tasks[i].header && r[i].proofs == tasks[i].proofs
    ensures StableSort.SortedBy(tasks, HeaderNumber) ==> StableSort.SortedBy(r, HeaderNumber)
    ensures forall t :: t in r ==> exists u :: u in tasks && u.header == t.header && u.proofs == t.proofs
  {
    forall t | t in r ensures exists u :: u in tasks && u.header == t.header && u.proofs == t.proofs {
      var i :| 0 <= i < |r| && r[i] == t;
      assert tasks[i] in tasks;
    }
  }
}

=== FILE: stable_sort.dfy ===
/** A stable insertion sort on sequences by a natural-number key, the model
    of Go's `sort.SliceStable` with a `key(a) < key(b)` comparison. */
module StableSort {

  predicate SortedBy<T>(xs: seq<T>, key: T -> nat) {
    forall i, j :: 0 <= i < j < |xs| ==> key(xs[i]) <= key(xs[j])
  }

  /** The elements of `xs` whose key is `k`, in their original order. */
  function WithKey<T>(xs: seq<T>, key: T -> nat, k: nat): seq<T> {
    if |xs| == 0 then []
    else WithKey(xs[..|xs| - 1], key, k) + (if key(xs[|xs| - 1]) == k then [xs[|xs| - 1]] else [])
  }

  /** Inserts `x` after every element whose key is at most `key(x)`. */
  function Insert<T>(xs: seq<T>, x: T, key: T -> nat): seq<T> {
    if |xs| == 0 then [x]
    else if key(x) < key(xs[|xs| - 1]) then Insert(xs[..|xs| - 1], x, key) + [xs[|xs| - 1]]
    else xs + [x]
  }

  /** Insertion sort: each element in turn is inserted into the sorted
      prefix before it. The result holds the same elements. */
  function Sort<T>(xs: seq<T>, key: T -> nat): (r: seq<T>)
    ensures multiset(r) == multiset(xs)
  {
    if |xs| == 0 then []
    else
      var init, last := xs[..|xs| - 1], xs[|xs| - 1];
      InsertPermutes(Sort(init, key), last, key);
      assert xs == init + [last];
      Insert(Sort(init, key), last, key)
  }

  lemma {:induction false} WithKeyAppend<T>(xs: seq<T>, ys: seq<T>, key: T -> nat, k: nat)
    ensures WithKey(xs + ys, key, k) == WithKey(xs, key, k) + WithKey(ys, key, k)
    decreases |ys|
  {
    if |ys| > 0 {
      var zs := xs + ys;
      assert zs[..|zs| - 1] == xs + ys[..|ys| - 1];
      assert zs[|zs| - 1] == ys[|ys| - 1];
      WithKeyAppend(xs, ys[..|ys| - 1], key, k);
    } else {
      assert xs + ys == xs;
    }
  }

  lemma {:induction false} InsertPermutes<T>(xs: seq<T>, x: T, key: T -> nat)
    ensures multiset(Insert(xs, x, key)) == multiset(xs) + multiset{x}
    decreases |xs|
  {
    if |xs| > 0 {
      var init, last := xs[..|xs| - 1], xs[|xs| - 1];
      assert xs == init + [last];
      if key(x) < key(last) {
        InsertPermutes(init, x, key);
      }
    }
  }

  lemma {:induction false} InsertSorted<T>(xs: seq<T>, x: T, key: T -> nat)
    requires SortedBy(xs, key)
    ensures SortedBy(Insert(xs, x, key), key)
    decreases |xs|
  {
    if |xs| > 0 {
      var init, last := xs[..|xs| - 1], xs[|xs| - 1];
      assert xs == init + [last];
      if key(x) < key(last) {
        InsertSorted(init, x, key);
        InsertPermutes(init, x, key);
        var ins := Insert(init, x, key);
        var r := ins + [last];
        forall i, j | 0 <= i < j < |r| ensures key(r[i]) <= key(r[j]) {
          if j == |r| - 1 {
            assert r[i] == ins[i];
            assert ins[i] in multiset(ins);
            if ins[i] != x {
              assert ins[i] in multiset(init);
            }
          } else {
            assert r[i] == ins[i] && r[j] == ins[j];
          }
        }
      }
    }
  }

  lemma WithKeySingle<T>(x: T, key: T -> nat, k: nat)
    ensures WithKey([x], key, k) == if key(x) == k then [x] else []
  {
    assert [x][..0] == [];
  }

  /** Inserting `x` adds it after every element of its own key, whatever the
      order of the other keys. */
  lemma {:induction false} InsertWithKey<T>(xs: seq<T>, x: T, key: T -> nat, k: nat)
    ensures WithKey(Insert(xs, x, key), key, k) == WithKey(xs, key, k) + (if key(x) == k then [x] else [])
    decreases |xs|
  {
    if |xs| > 0 {
      var init, last := xs[..|xs| - 1], xs[|xs| - 1];
      var wx := if key(x) == k then [x] else [];
      var wl := if key(last) == k then [last] else [];
      assert xs == init + [last];
      WithKeySingle(last, key, k);
      WithKeyAppend(init, [last], key, k);
      assert WithKey(xs, key, k) == WithKey(init, key, k) + wl;
      if key(x) < key(last) {
        var ins := Insert(init, x, key);
        assert Insert(xs, x, key) == ins + [last];
        InsertWithKey(init, x, key, k);
        WithKeyAppend(ins, [last], key, k);
        assert WithKey(ins + [last], key, k) == WithKey(init, key, k) + wx + wl;
        assert wx == [] || wl == [];
      } else {
        assert Insert(xs, x, key) == xs + [x];
        WithKeyAppend(xs, [x], key, k);
        WithKeySingle(x, key, k);
      }
    }
  }

  /** The result is sorted by key, is a permutation of the input, and keeps
      the relative order of elements with equal keys. */
  lemma {:induction false} SortCorrect<T>(xs: seq<T>, key: T -> nat)
    ensures SortedBy(Sort(xs, key), key)
    ensures multiset(Sort(xs, key)) == multiset(xs)
    ensures forall k :: WithKey(Sort(xs, key), key, k) == WithKey(xs, key, k)
    decreases |xs|
  {
    if |xs| > 0 {
      var init, last := xs[..|xs| - 1], xs[|xs| - 1];
      SortCorrect(init, key);
      InsertSorted(Sort(init, key), last, key);
    }
    forall k ensures WithKey(Sort(xs, key), key, k) == WithKey(xs, key, k) {
      SortKeepsKeyOrder(xs, key, k);
    }
  }

  /** Sorting keeps the elements of each key in input order. */
  lemma {:induction false} SortKeepsKeyOrder<T>(xs: seq<T>, key: T -> nat, k: nat)
    ensures WithKey(Sort(xs, key), key, k) == WithKey(xs, key, k)
    decreases |xs|
  {
    if |xs| > 0 {
      var init, last := xs[..|xs| - 1], xs[|xs| - 1];
      SortKeepsKeyOrder(init, key, k);
      InsertWithKey(Sort(init, key), last, key, k);
      assert xs == init + [last];
    }
  }
}

=== FILE: wrappers.dfy ===
/** Option and Result types shared by the relayer models. A `Result` stands for
    the `(value, error)` pair that the Go relayer returns from every fallible call. */
module Wrappers {

  datatype Option<+T> = None | Some(value: T) {

    function GetOr(default: T): T {
      match this
      case Some(v) => v
      case None => default
    }
  }

  datatype Result<+R, +E> = Ok(value: R) | Err(error: E) {

    predicate IsFailure() {
      Err?
    }

    function PropagateFailure<U>(): Result<U, E>
      requires Err?
    {
      Err(error)
    }

    function Extract(): R
      requires Ok?
    {
      value
    }
  }
}
